=== FILE: README.md ===
# obsidian-def-engine, modelled in Dafny

This project models the definition engine of the Obsidian plugin
obsidian-def-engine. The model covers five parts.

- **Glossary files.** Every folder of a vault may hold a glossary file named
  `concepts.md`. Each block of that file defines a word (a `# word` heading),
  optional aliases (an `*a, b*` line) and contents. Blocks are separated by
  lines starting with `---`.
- **Parser.** It turns a glossary file into definition records: one for the
  word and one copy per alias, each keyed by the lower-cased text.
- **Engine.** It keeps a registry of glossaries per folder (`DefFileMap`) and
  a scope tree (`DefScopeTree`). The scope tree holds one character trie of
  definitions (`DefForest`) per folder. A folder's trie inherits its parent
  folder's definitions, and a definition from a deeper folder overrides one
  from a shallower folder. The engine handles the vault's create, delete,
  modify and rename events, the start-up build, the searcher and the phrase
  under the cursor.
- **Decorators.** The searcher finds the defined phrases in a line (greedy
  longest match, no backtracking). The editor decorator and the reading-view
  decorator sort these spans and keep the non-overlapping ones.
- **Dialogs.** The add and edit dialogs render a definition back to glossary
  text and splice it into the file.

Everything is modelled with immutable values and pure functions.

- The trie is a `Forest` with a map of children and an optional terminal.
- The registry is a sequence of entries in JavaScript `Map` insertion order.
- The scope tree is a `Node` with its children, its forest, its key set and
  its `init` flag.
- Mutating methods return the new value. Methods that also answer a query
  return a pair.
- Reading a file is a parameter `read: VaultFile -> string`.
- The folder of the active file is a parameter `activeDir: Option<string>`.

| file | module | source |
|---|---|---|
| types.dfy | `Types` | the `Definition`, `DefFile` and `PhraseInfo` records |
| text.dfy | `Text` | string helpers: `trim`, `toLowerCase`, `split`, `join`, `slice`, `path.posix.dirname` |
| sorting.dfy | `Sorting` | a stable sort by an integer key, as `Array.prototype.sort` and lodash `orderBy` |
| forest.dfy | `DefForest` | `DefForest` in src/core/types.ts |
| searcher.dfy | `Searcher` | `DefSearcher` in src/core/types.ts |
| file_map.dfy | `DefFileMap` | `DefFileMap` in src/core/types.ts |
| scope_tree.dfy | `ScopeTree` | `DefScopeTree` in src/core/types.ts |
| parser.dfy | `Parser` | src/core/parser/index.ts, src/core/parser/types.ts |
| core.dfy | `Core` | src/core/index.ts |
| decor.dfy, live.dfy, read.dfy | `Decor`, `Live`, `Read` | src/decor/live.ts, src/decor/read.ts |
| modal.dfy, roundtrip.dfy | `Modal`, `RoundTrip` | src/modal/utils.ts, add-def-modal.ts, edit-def-modal.ts |

Where the system's written description and the code differ, the model
follows the code.

- An alias record is a copy of the word's record with only the key changed.
  It therefore keeps the alias list.
- `match` follows the trie as far as the text allows and returns what it
  finds there. It does not fall back to a shorter stored key
  (`DefForest.MatchDoesNotBacktrack` exhibits this).
- `popDefFile` uses `dirname(file.path)`. For a glossary at the vault root
  this gives `"."`. `addDefFile` registered that glossary under `"/"`, so
  deleting the root glossary leaves it registered
  (`Core.DeleteRootKeepsEntry`).

## Model

| member | source | states |
|---|---|---|
| Text.LowerStr | src/core/types.ts:48 | lower-casing keeps the length and maps each character on its own |
| Text.TrimFixesTrimmed | src/core/types.ts:48 | the result of `trim` has no white space at either end, and a string without any is left unchanged |
| Text.TrimIdempotent | src/core/types.ts:48 | trimming twice is trimming once |
| Text.TrimIgnoresWhiteEnds | src/core/parser/types.ts:54 | white space added at either end does not change what `trim` returns |
| Text.SplitByCount | src/core/types.ts:20 | `split` on a one-character pattern gives one more piece than there are separators, and no piece holds a separator |
| Text.JoinSplit | src/core/parser/index.ts:75-80 | splitting on a character and joining with it again gives back the string |
| Text.SplitJoin | src/core/parser/index.ts:85 | joining separator-free pieces and splitting again gives back the pieces |
| Text.SplitLinesJoin | src/core/parser/index.ts:33 | lines without line feeds, and without a carriage return before a break, survive joining with `"\n"` and splitting on `/\r?\n/` |
| Text.JoinLinesSplit | src/modal/edit-def-modal.ts:53 | text without carriage returns is the join of its lines, and no line holds a line feed |
| Text.Slice | src/decor/read.ts:36 | `slice` with positions inside the text is the subsequence between them |
| Text.DirnameOfRelative | src/core/types.ts:12 | `dirname` of a vault path `dir/name` is `dir`; of a bare name it is `"."` |
| Sorting.SortBySpec | src/decor/live.ts:62 | the sort orders by key, is a permutation, and keeps the input order among equal keys |
| Sorting.SortTwiceIsLex | src/decor/live.ts:60-63 | a stable sort by `from` after a sort by `to` orders by `from` first and by `to` second |
| DefForest.Cut | src/core/types.ts:43-45 | the trie stores a key up to its first line feed; keys without one are stored whole |
| DefForest.InsertAtSpec | src/core/types.ts:76-100 | the insert changes the stored definition exactly when the override rule allows it, and the change flag says so; a reported no-change leaves the trie as it was |
| DefForest.InsertAtOther | src/core/types.ts:94-99 | an insert changes no lookup of another key |
| DefForest.InsertOverride | src/core/types.ts:78-91 | `set` puts the definition in when the key is free or the new folder path is strictly longer; otherwise it changes nothing and the stored definition's folder path is at least as long |
| DefForest.EqualLengthsNeverOverride | src/core/types.ts:84-91 | a definition from a folder path of equal length never replaces the stored one |
| DefForest.GetNormalises | src/core/types.ts:47-50 | `get` ignores case and surrounding white space: a query finds what its trimmed, lower-cased form finds, and a query already in that form is looked up as it is |
| DefForest.SetThenGet | src/core/types.ts:43-50 | after `set(d)`, `get(d.key)` finds `d` when the insert reported a change, otherwise the earlier definition from a folder path at least as long |
| DefForest.InsertHolds | src/core/types.ts:76-92 | after `set(d)` the trie holds `d`; a held definition stays held through later sets; setting a held definition changes nothing |
| DefForest.Clone | src/core/types.ts:64-74 | a deep copy is equal to the original |
| DefForest.Clear | src/core/types.ts:60-62 | after `clear` every lookup finds nothing |
| DefForest.InsertValid | src/core/types.ts:76-100 | every insert keeps the trie valid: each definition sits under its own key |
| DefForest.LookupValid | src/core/types.ts:102-109 | in a valid trie, the definition found under a path has that path as its key |
| DefForest.MatchIsLookup | src/core/types.ts:52-58 | `match` returns the definition under the lower-cased text it walked |
| DefForest.MatchWalksPastPrefixes | src/core/types.ts:52-58 | the walk of `match` is at least as long as every stored key that prefixes the lower-cased text |
| DefForest.MatchSound | src/core/types.ts:52-58 | what `match` returns is stored under the lower-cased walked text, whose length is at least that of every stored prefix key |
| DefForest.MatchKeyNonEmpty | src/core/types.ts:52-58 | with nothing stored under the empty key, `match` only returns definitions with non-empty keys |
| DefForest.MatchKeyFits | src/core/types.ts:52-58 | when no stored key holds a line feed, the key `match` returns is as long as the text it walked, so it fits in the text from the match position on |
| DefForest.MatchDoesNotBacktrack | src/core/types.ts:52-58 | with keys `ab` and `abcd` stored, `match` on `abcx` misses `ab` |
| Searcher.FindFrom | src/core/types.ts:225-237 | every reported span starts inside the line and is as long as its key, which is non-empty; it reports the definition `match` finds at its start; spans come in order without overlapping |
| Searcher.FindFromWithinLine | src/core/types.ts:225-237 | when no stored key holds a line feed, every reported span also ends inside the line; a key with a line feed is stored under the text before it, so its span can run past the line's end |
| Searcher.Find | src/core/types.ts:223-239 | the spans `find` reports start at or after the offset, are as long as their keys, and do not overlap |
| Searcher.FindMissesOnlyUnmatched | src/core/types.ts:225-237 | every position no reported span covers is one where `match` finds nothing |
| DefFileMap.Get | src/core/index.ts:28 | `get` finds a file exactly when the scope is registered, and that file is the one registered there |
| DefFileMap.PutSpec | src/core/types.ts:7 | `set` on a present scope replaces its entry in place; on a new scope it appends; scopes stay distinct |
| DefFileMap.RemoveSpec | src/core/types.ts:13 | `delete` removes the scope's entry and keeps every other entry in order; scopes stay distinct |
| DefFileMap.GetAfterPut | src/core/types.ts:7 | after `set`, the scope maps to the new file and every other scope is unchanged |
| DefFileMap.GetAfterRemove | src/core/types.ts:13 | after `delete`, the scope maps to nothing and every other scope is unchanged |
| DefFileMap.AddDefFile | src/core/types.ts:5-9 | `addDefFile` registers the file under its parent folder's path, returns that scope, and changes no other scope |
| DefFileMap.PopDefFile | src/core/types.ts:11-15 | `popDefFile` unregisters `dirname` of the path, returns it, and changes no other scope |
| DefFileMap.SortByDepthSpec | src/core/types.ts:17-23 | `sortByDepth` orders by number of scope components, stably, as a permutation of the registry |
| DefFileMap.FilterSpec | src/core/types.ts:25-30 | `filter` returns exactly the registered entries whose scope with a `/` appended the pattern selects, shallow scopes first |
| DefFileMap.PlainPatternIsPrefix | src/core/types.ts:27 | a pattern without `.` tests for a literal prefix |
| DefFileMap.FilterSelectsSubtree | src/core/types.ts:25-30 | for a folder scope without `.`, `filter` selects that folder and the folders below it |
| DefFileMap.FilterRootSelectsAbsolute | src/core/types.ts:25-30 | `filter("/")` selects the root entry and scopes with a leading `/`, and no folder scope |
| DefFileMap.FilterDotSelectsRoot | src/core/types.ts:25-30 | `filter(".")` selects the root glossary, since `.` matches the `/` of its scope |
| ScopeTree.ScopeCmps | src/core/types.ts:206-213 | an empty scope resolves exactly when a file is active; any other scope always resolves |
| ScopeTree.ResolveReaches | src/core/types.ts:182-204 | `getChild` leaves the node it returns, initialised, at the end of the path, with the children the old node had |
| ScopeTree.ResolveCopiesParent | src/core/types.ts:187-195 | a node first reached by `getChild` takes its parent's key set and a clone of its parent's forest; an initialised node keeps its own |
| ScopeTree.ResolveRoot | src/core/types.ts:187-195 | the root keeps its own forest and key set |
| ScopeTree.ResolveFrame | src/core/types.ts:182-204 | `getChild` changes no node off its path |
| ScopeTree.PushCascade | src/core/types.ts:142-152 | along every existing path below the node `setDef` reaches, each node keeps its children; an initialised node's forest takes the insert exactly when every node above it took it and is otherwise untouched, so no other key's lookup changes, the key of the definition ends up with it or with what was stored before, and a node the insert reaches holds it |
| ScopeTree.SetDefAtIsPushAtResolved | src/core/types.ts:142-152 | `setDef` reaches its node as `get` does, inserts there, and changes no node off the path or outside its subtree |
| ScopeTree.OperationsKeepInv | src/core/types.ts:129-174 | `setDef`, `clear`, `getDef` and `getDefs` keep every key of a key set backed by its forest |
| ScopeTree.SetDefsInv | src/core/types.ts:154-156 | `setDefs` keeps that invariant |
| ScopeTree.GetDefNeedsKey | src/core/types.ts:129-134 | `getDef` finds nothing unless the key is literally in the node's key set; for a normalised key in the set it always finds one |
| ScopeTree.ClearAtResets | src/core/types.ts:158-174 | `clear(scope)` leaves an uninitialised empty node with no descendants at the scope |
| ScopeTree.ClearAtFrame | src/core/types.ts:158-174 | `clear(scope)` changes no node off the scope's path or outside its subtree |
| ScopeTree.ClearThenResolve | src/core/types.ts:187-195 | after `clear`, the next access to the scope copies its parent's forest and key set afresh |
| ScopeTree.SetDefsHolds | src/core/types.ts:154-156 | after `setDefs` the scope holds every inserted definition and still holds what it held before |
| ScopeTree.SetDefsOfHeld | src/core/types.ts:142-156 | `setDefs` of definitions already held changes nothing |
| ScopeTree.SetDefsUnresolved | src/core/types.ts:143-144 | `setDefs` on a scope that does not resolve changes nothing |
| ScopeTree.SetDefsTwice | src/core/types.ts:154-156 | `setDefs` is idempotent |
| ScopeTree.ClearForgets | src/core/types.ts:158-174 | after `clear(scope)` the scope's node is a fresh node, with an empty forest and key set and no children, and the scope holds no definition |
| Parser.ExtractWordOfHeading | src/core/parser/index.ts:74-81 | on a `# ` heading the extracted word is everything after `# ` |
| Parser.RemoveStars | src/core/parser/index.ts:84 | removing asterisks leaves none and keeps star-free text unchanged |
| Parser.ExtractAliasesAsWritten | src/core/parser/index.ts:83-87 | as written: one alias per `,` or `\|` separator plus one, each trimmed, empty ones included |
| Parser.DropEmpty | src/core/parser/index.ts:86 | the non-empty pieces: the same pieces with the same multiplicities, the empty string removed, and all of them when none is empty |
| Parser.DropEmptyAppend | src/core/parser/index.ts:86 | the order is kept: dropping empty pieces distributes over concatenation |
| Parser.DropEmptySingle | src/core/parser/index.ts:86 | a single piece is kept exactly when it is non-empty; with the previous row this fixes the result on every list, order included |
| Parser.ExtractAliases | src/core/parser/index.ts:83-87 | as intended: the aliases are the non-empty pieces of the as-written extraction, with the same multiplicities, each trimmed, and all of them when none is empty; it drops empty pieces from that extraction, so the order is the one `Parser.DropEmptyAppend` states |
| Parser.ParseKeysNonEmpty | src/core/parser/types.ts:22-36 | as intended (`Parser.ParseIntended`, empty aliases dropped): every parsed record's key is non-empty and does not start with a line feed |
| DefForest.InsertKeepsRoot | src/core/types.ts:43-45 | a key that is non-empty and does not start with a line feed is stored below the root: the root's terminal is unchanged |
| Core.EmptyAliasAtRoot | src/core/parser/index.ts:83-87 | as written: the block `# w`, `*`, `x` parses to the record for `w` and a copy keyed by `""`; once both are stored the copy sits at the root, and `match` answers it, with a key of length 0, at every position of a line that does not continue into `w`; the intended parse has no record keyed by `""` |
| Parser.StarAliases | src/core/parser/index.ts:83-87 | the alias line `*` is an alias line; as written it gives the single alias `""`, and once empty pieces are dropped it gives none |
| Parser.EmptyAliasExample | src/core/parser/index.ts:56-70 | as written the block `# w`, `*`, `x` gives the record for `w`, with aliases `[""]`, and its copy keyed by `""`; with empty aliases dropped it gives the record for `w` alone |
| Parser.AfterFrontMatter | src/core/parser/index.ts:28-31 | the text the parser reads is a suffix of the file, everything after the front matter's end offset and the character after it |
| Parser.Register | src/core/parser/types.ts:22-36 | a block with a word yields its record and one copy per alias keyed by the lower-cased alias; a block without a word yields nothing |
| Parser.BuildWellFormed | src/core/parser/types.ts:49-62 | the record built from a finished block is well formed, with either alias extraction |
| Parser.StepInv | src/core/parser/index.ts:38-68 | one line keeps the buffer invariant and the records well formed, with either alias extraction |
| Parser.RunInv | src/core/parser/index.ts:38-68 | the whole loop keeps them, with either alias extraction |
| Parser.ParseLinesWellFormed | src/core/parser/index.ts:27-72 | every record has a non-empty word, trimmed aliases (as written an alias may be empty; with empty aliases dropped none is), trimmed contents, a link to its heading, a position whose first line is its heading and which holds no separator, and a key lower-cased from the word or an alias |
| Parser.ParseWellFormed | src/core/parser/index.ts:27-72 | the same for a file's text split into lines, as the source parses it |
| Modal.LastNonBlank | src/modal/utils.ts:3-9 | the index found is of a non-blank line, and every line after it is blank |
| Modal.RemoveTrailingBlankLines | src/modal/utils.ts:1-11 | the result is a prefix that ends in a non-blank line and drops only blank lines; all-blank input is kept whole |
| Modal.ConstructLines | src/modal/utils.ts:13-22 | the rendered block: heading, an alias line only when there are aliases, the contents without trailing white space, empty lines between |
| Modal.UpdateLines | src/modal/utils.ts:24-33 | the lines before the block, the rendered block, the lines after it |
| Modal.AliasField | src/modal/add-def-modal.ts:76-78 | an empty field gives no aliases; otherwise one trimmed alias per comma plus one |
| Modal.NewDefFromForm | src/modal/add-def-modal.ts:59-84 | saving succeeds exactly when the phrase, definition and chosen file are filled in and the file is offered; the new record carries the phrase, aliases, contents and link |
| Modal.AddDefPrefix | src/modal/add-def-modal.ts:94-99 | the old lines without trailing blank lines, followed by exactly `""` and `"---"` when the last kept line does not start with `---`, and by nothing when it does |
| Modal.EditedDef | src/modal/edit-def-modal.ts:36-43 | the edited record differs from the old one only in its aliases and contents |
| Modal.FindByKey | src/modal/edit-def-modal.ts:59 | the first record with the key, or none exactly when no record has it |
| Modal.FoundWellFormed | src/modal/edit-def-modal.ts:57-59 | the record found by key is well formed with respect to the lines of the text it was parsed from |
| Modal.EditDefText | src/modal/edit-def-modal.ts:50-63 | on the text the parser reads, the file is left alone exactly when no record has the key; otherwise the first such record's block is replaced by the rendered definition |
| Modal.EditDefFrontMatterCounterexample | src/modal/edit-def-modal.ts:52-61 | as written, on a file with front matter the lines replaced are counted from the start of the file, not from the end of the front matter: the front matter is overwritten and the old block kept |
| Modal.EditDefFileSpec | src/modal/edit-def-modal.ts:50-63 | as intended: the file is left alone exactly when no record has the key; otherwise the front matter is kept and, after it, the first such record's block is replaced by the rendered definition |
| RoundTrip.ExtractAliasesRoundTrip | src/core/parser/index.ts:83-87 | reading the rendered alias line gives back the aliases, with either extraction |
| RoundTrip.RenderedLines | src/modal/utils.ts:13-22 | splitting the rendered block gives its header lines and then its body lines |
| RoundTrip.ParseRendered | src/modal/utils.ts:13-22 | parsing a rendered definition gives its record, with trimmed contents, followed by one copy per alias |
| RoundTrip.ParseAppendedBlock | src/core/parser/index.ts:38-71 | a block rendered after lines that end in a separator adds its records after theirs |
| RoundTrip.AddedLines | src/modal/add-def-modal.ts:94-101 | the lines `addDef` writes are the kept old lines, then the rendered block |
| RoundTrip.ParseAddedDef | src/modal/add-def-modal.ts:91-103 | the file after `addDef` parses to the records of the kept lines (the old lines without trailing blank lines, plus a separator when needed) followed by the new definition's records, positioned after them |
| Core.ApplyInv | src/core/index.ts:20-24 | applying registrations keeps the tree invariant |
| Core.Rebuild | src/core/index.ts:17-25 | `rebuild` leaves the registry unchanged |
| Core.RebuildOrder | src/core/index.ts:17-25 | `rebuild` clears the scope, then applies, shallowest first, exactly the registrations `filter(scope)` selects, each at its own scope |
| Core.RebuildInv | src/core/index.ts:17-25 | `rebuild` keeps the engine invariant |
| Core.Update | src/core/index.ts:27-33 | with no glossary at the scope nothing changes; otherwise every parsed record is held at the scope, along with all it held before |
| Core.UpdateTwice | src/core/index.ts:27-33 | a second `update` of an unchanged glossary changes nothing |
| Core.UpdateInv | src/core/index.ts:27-33 | `update` keeps the engine invariant |
| Core.OnCreate | src/core/index.ts:39-45 | a created glossary is registered under its folder; nothing else changes |
| Core.OnDelete | src/core/index.ts:48-55 | a deleted glossary's `dirname` scope is unregistered and that scope rebuilt; other files change nothing |
| Core.OnModify | src/core/index.ts:58-65 | a modified glossary's `dirname` scope is updated; other files change nothing |
| Core.RenameDropOld | src/core/index.ts:71-75 | an old path ending in `/concepts.md` unregisters the `dirname` of that path and rebuilds it from what remains; any other old path changes nothing |
| Core.OnRename | src/core/index.ts:68-82 | an old path ending in `/concepts.md` unregisters its folder; a new name `concepts.md` then registers the file under its folder and updates that scope, after the rebuild |
| Core.EventsKeepInv | src/core/index.ts:35-83 | every event keeps the registry's scopes distinct and the tree's key sets backed |
| Core.DeleteRootKeepsEntry | src/core/index.ts:48-55 | deleting the vault-root glossary leaves it registered under `"/"` |
| Core.ModifyRootIgnored | src/core/index.ts:58-65 | modifying the vault-root glossary updates nothing |
| Core.RenameRootKeepsEntry | src/core/index.ts:69-75 | renaming the vault-root glossary away leaves its registration |
| Core.RegisterAllSpec | src/core/index.ts:107-109 | after start-up registration, each folder maps to its last glossary in file order, and folders without one are untouched |
| Core.InitCore | src/core/index.ts:103-117 | `initCore` sets the state flag, does nothing the second time, and otherwise registers every glossary |
| Core.InitCoreBuild | src/core/index.ts:111-117 | the start-up tree applies every registration once, shallowest first, to a new tree, and keeps the invariant |
| Core.SearcherForest | src/core/index.ts:122-126 | a searcher exists exactly when a file is active, and its trie is valid |
| Core.GetDefFileMap | src/core/index.ts:130-143 | as written: the registry when no file is active, otherwise the empty map |
| Core.GetDefFileMapDropsAll | src/core/index.ts:133-134 | with a file active, even a registered root glossary is lost |
| Core.IntendedDefFileMap | src/core/index.ts:130-132 | with no file active, the corrected version also returns the registry |
| Core.IntendedDefFileMapSelects | src/core/index.ts:133-142 | with a file active, the corrected version holds exactly the glossaries whose scope prefixes the active path, plus the root |
| Core.AddSelectedSpec | src/core/index.ts:134-141 | the loop body registers a source entry exactly when its scope prefixes the active path or is the root |
| Core.PhraseUnderCursor | src/core/index.ts:149-172 | a non-empty answer is the key of a phrase containing the offset; on ordered phrases one is found whenever one exists; an empty list gives `""` |
| Decor.SortSpansSpec | src/decor/live.ts:62-63 | the two sorts order spans by `from`, then by `to` descending, as a permutation |
| Decor.SortSpansAll | src/decor/read.ts:29-30 | the sorts keep every property each span had |
| Decor.Keep | src/decor/live.ts:65-72 | the greedy filter keeps a subsequence whose spans start at or after the cursor and do not overlap |
| Decor.KeepMaximal | src/decor/live.ts:65-72 | on spans sorted by `from`, a dropped span starts before the cursor or inside a kept span |
| Live.ScanLinesSpans | src/decor/live.ts:55-58 | every span found in the range starts at or after the offset and is non-empty |
| Live.ScanLinesAppend | src/decor/live.ts:55-58 | scanning two runs of lines is scanning the first, then the second from where the first ends |
| Live.ScanLinesAt | src/decor/live.ts:55-58 | line `k` is searched at the offset plus the length of each earlier line and one separator |
| Live.Scan | src/decor/live.ts:53-54 | no searcher, no spans |
| Live.ScanSpec | src/decor/live.ts:50-73 | the result is a subsequence of the sorted spans, ordered without overlap, and leaves out only spans that start inside a kept span |
| Read.PiecesSpellContent | src/decor/read.ts:32-43 | the plain and marked pieces spell out the text exactly |
| Read.MarkedAreKept | src/decor/read.ts:34-42 | the marked pieces are those of the spans the greedy filter keeps, each with its span's text |
| Read.Decorate | src/decor/read.ts:22-43 | an empty or `"\n"` text, or one without matches, is left alone; otherwise the pieces mark the kept spans, and they spell out the text when the spans lie within it, which they do when no stored key holds a line feed |

## Left out

- File reading, `cachedRead`, `vault.modify` and `async`: a file's text is the parameter `read`, and writes are returned as the new text.
- Front matter: where it ends comes from the metadata cache, so it is the parameter `fmEnd` of `Parser.Build` and `Parser.AfterFrontMatter`; `Parser.Parse` takes the text after it.
- The active-file fallback of an empty scope uses the workspace: it is the parameter `activeDir` (`dirname` of the active path), or the active file itself for `getDefFileMap`.
- `file instanceof TFile`: folders never reach the handlers in the model, and `IsGlossary` checks the name only.
- The editor decoration builder, visible ranges, CodeMirror and the DOM walk of the reading view: only the spans and the pieces of one text node are modelled.
- `window.defEngine.scopePhrases` holding `undefined`: the model's phrase list is always a list.
- `getActiveFileName` and the `Parser` factory: they only forward to the host or to the parser.
- Lower: ASCII letters only; `toLowerCase` on other Unicode letters is not modelled.
- DefForest.Overrides, Searcher.Find, Live.ScanLines, Read.Pieces: strings are sequences of Unicode scalar values, while the source's `length`, `charAt` and `slice` count UTF-16 code units. Folder-path lengths, span offsets and slice positions therefore differ from the source's for text with characters outside the Basic Multilingual Plane.
- DefFileMap.Filter: requires a scope without regular-expression metacharacters other than `.`, because only `.` is interpreted; vault folder names rarely hold others.
- Core.OnDelete: requires that scope too, for the same reason; so do Core.OnRename and Core.Rebuild.
- Searcher.FindFromWithinLine, Read.Decorate: the end bound assumes no stored key holds a line feed; the model does not carry the fact that parsed words and aliases come from single lines through to the trie, so this is a hypothesis rather than a consequence of parsing.
- Searcher.Find: requires nothing stored under the empty key, because `find` loops forever on an empty match, which the as-written parse can cause (`Core.EmptyAliasAtRoot`); with empty aliases dropped no parsed record has that key (`Parser.ParseKeysNonEmpty`, `DefForest.InsertKeepsRoot`).
- Parser.Parse: each parse starts from a new record list; a parser instance is never run twice.
- RoundTrip.ParseAddedDef: requires that no line of the old file still ends in a carriage return once `split(/\r?\n/)` has removed one (a line ending in `\r\r\n`), because writing the lines back with `"\n"` would lose it; files with `\r\n` line ends are covered.
- RoundTrip.ParseRendered: holds for definitions whose aliases are non-empty and carry no `,`, `|`, `*` or line feed, whose word has no line break, whose contents hold no carriage return, and whose body does not start like a heading or alias line and holds no line starting with `---`.
- ScopeTree.SetDefAt: a child reached through an empty component (`"a//b"`) gets the definition directly, not through the active-file fallback that `setDef(def, "")` would use.
- Sorting.SortBy: models a stable sort, as the engines that run the plugin guarantee.
- Core.PhraseUnderCursor: completeness is stated for ordered phrases only, which is what the scan produces (`Live.ScanSpec`).

## Findings

In each row the as-written member and the corrected member stand side by
side; the rest of the model follows the code as written. `Parser.Step`,
`Parser.Parse` and `Parser.Build` read alias lines as `extractDefAliases`
does, empty aliases included, and `Parser.ParseIntended` is the same fold
with empty aliases dropped. `Modal.EditDefFileAsWritten` and
`Modal.EditDefFile` are the edit dialog as written and as intended, and
`Core.GetDefFileMap` and `Core.IntendedDefFileMap` likewise.

| source | as written | input that shows it | evidently intended | confidence | as-written member | corrected member |
|---|---|---|---|---|---|---|
| src/modal/edit-def-modal.ts:52-61 | `editDef` finds the old block with the parser, whose positions count lines from the end of the front matter, and applies them to the lines of the whole file | the file `---`, `tags: x`, `---`, `# a`, `b` with front matter ending at offset 15, editing `a` | apply the positions to the text after the front matter and keep the front matter in front | not executed | Modal.EditDefFrontMatterCounterexample | Modal.EditDefFileSpec |
| src/core/parser/index.ts:83-87 | `extractDefAliases` keeps empty pieces, so an alias line `*`, `***` or `*a,*` registers a record keyed by `""`; the trie stores it at its root, where `match` returns it with a key of length 0 and `find` stops advancing | the alias line `*` under any heading, then any non-empty line searched | drop empty aliases | not executed | Core.EmptyAliasAtRoot | Parser.ParseKeysNonEmpty |
| src/core/index.ts:133-134 | `getDefFileMap` creates a new map and iterates over that same empty map, so nothing is ever added | any registry, even one holding a root glossary, with any file active | iterate over the registry, keeping the glossaries whose scope prefixes the active path, plus the root glossary | not executed | Core.GetDefFileMapDropsAll | Core.IntendedDefFileMapSelects |

=== FILE: core.dfy ===
/**
 * The engine (src/core/index.ts): the glossary registry (`defFileMap`) and
 * the scope tree (`DefCore`), how rebuild, update, the vault's file events
 * and start-up change them, and the lookup of the phrase under the cursor.
 *
 * Reading a glossary file is the parameter `read`, which gives the file's
 * text with its front matter already removed; each await of the source is
 * a step of a sequential composition here. `activeDir` is the folder of the
 * active file, which the scope tree uses for the empty scope.
 */
module Core {
  import opened Types
  import opened Text
  import opened Parser
  import opened DefFileMap
  import opened ScopeTree
  import DefForest
  import Sorting

  /** The registry and the scope tree. */
  datatype Engine = Engine(reg: Registry, tree: Node)

  ghost predicate Inv(e: Engine) {
    UniqueScopes(e.reg) && TreeInv(e.tree)
  }

  /** The name that marks a file as a glossary. */
  const GlossaryName: string := "concepts.md"

  predicate IsGlossary(file: VaultFile) {
    file.name == GlossaryName
  }

  // ---------------------------------------------------------------------------
  // Rebuild and update
  // ---------------------------------------------------------------------------

  /** The records a glossary file yields. */
  function DefsOf(file: VaultFile, read: VaultFile -> string): seq<Def> {
    Parse(file, read(file))
  }

  /** Each entry's file parsed and its records inserted at the entry's scope, entry after entry. */
  function Apply(t: Node, entries: seq<Entry>, read: VaultFile -> string, activeDir: Option<string>): Node
    decreases |entries|
  {
    if |entries| == 0 then t
    else Apply(SetDefs(t, DefsOf(entries[0].file, read), entries[0].scope, activeDir), entries[1..], read, activeDir)
  }

  lemma {:induction false} ApplyInv(t: Node, entries: seq<Entry>, read: VaultFile -> string, activeDir: Option<string>)
    requires TreeInv(t)
    ensures TreeInv(Apply(t, entries, read, activeDir))
    decreases |entries|
  {
    if |entries| > 0 {
      var t1 := SetDefs(t, DefsOf(entries[0].file, read), entries[0].scope, activeDir);
      SetDefsInv(t, DefsOf(entries[0].file, read), entries[0].scope, activeDir);
      ApplyInv(t1, entries[1..], read, activeDir);
    }
  }

  /** `rebuild(scope)`: clear the scope, then apply the registrations `filter(scope)` selects. */
  function Rebuild(e: Engine, scope: string, read: VaultFile -> string, activeDir: Option<string>): (r: Engine)
    requires NoRegexMeta(scope)
    ensures r.reg == e.reg
  {
    Engine(e.reg, Apply(Clear(e.tree, scope, activeDir), Filter(e.reg, scope), read, activeDir))
  }

  /**
   * `rebuild(scope)` clears the scope and then applies, shallowest first, each
   * registration whose scope the pattern built from `scope` selects, each at
   * its own scope, and nothing else.
   */
  lemma RebuildOrder(e: Engine, scope: string, read: VaultFile -> string, activeDir: Option<string>)
    requires NoRegexMeta(scope)
    ensures exists entries: seq<Entry> ::
      && Sorting.SortedBy(entries, Depth)
      && (forall x :: x in entries <==> x in e.reg && PatternPrefix(FilterPattern(scope), x.scope + "/"))
      && Rebuild(e, scope, read, activeDir).tree == Apply(Clear(e.tree, scope, activeDir), entries, read, activeDir)
  {
    FilterSpec(e.reg, scope);
    var entries := Filter(e.reg, scope);
    assert Rebuild(e, scope, read, activeDir).tree == Apply(Clear(e.tree, scope, activeDir), entries, read, activeDir);
  }

  lemma RebuildInv(e: Engine, scope: string, read: VaultFile -> string, activeDir: Option<string>)
    requires Inv(e) && NoRegexMeta(scope)
    ensures Inv(Rebuild(e, scope, read, activeDir))
  {
    OperationsKeepInv(e.tree, Def("", "", [], "", VaultFile("", "", ""), "", None), scope, activeDir);
    ApplyInv(Clear(e.tree, scope, activeDir), Filter(e.reg, scope), read, activeDir);
  }

  /**
   * `update(scope)`: nothing when no glossary is registered at the scope;
   * otherwise its records are inserted at the scope without clearing first.
   * Afterwards each of them is held at the scope (when the scope resolves),
   * and so is every definition held there before.
   */
  function Update(e: Engine, scope: string, read: VaultFile -> string, activeDir: Option<string>): (r: Engine)
    ensures r.reg == e.reg
    ensures Get(e.reg, scope).None? ==> r == e
    ensures Get(e.reg, scope).Some? && ScopeCmps(scope, activeDir).Some? ==>
              forall d :: d in DefsOf(Get(e.reg, scope).value, read) ==> HeldAt(r.tree, scope, activeDir, d)
    ensures forall d :: HeldAt(e.tree, scope, activeDir, d) ==> HeldAt(r.tree, scope, activeDir, d)
  {
    match Get(e.reg, scope)
    case None => e
    case Some(file) =>
      var defs := DefsOf(file, read);
      var t := SetDefs(e.tree, defs, scope, activeDir);
      assert ScopeCmps(scope, activeDir).Some? ==>
               (forall d :: d in defs ==> HeldAt(t, scope, activeDir, d))
               && (forall d :: HeldAt(e.tree, scope, activeDir, d) ==> HeldAt(t, scope, activeDir, d)) by {
        if ScopeCmps(scope, activeDir).Some? {
          SetDefsHolds(e.tree, defs, scope, activeDir);
        }
      }
      assert ScopeCmps(scope, activeDir).None? ==> t == e.tree by {
        if ScopeCmps(scope, activeDir).None? {
          SetDefsUnresolved(e.tree, defs, scope, activeDir);
        }
      }
      e.(tree := t)
  }

  /** Re-reading an unchanged glossary changes nothing: `update` a second time is a no-op. */
  lemma UpdateTwice(e: Engine, scope: string, read: VaultFile -> string, activeDir: Option<string>)
    ensures Update(Update(e, scope, read, activeDir), scope, read, activeDir) == Update(e, scope, read, activeDir)
  {
    var file := Get(e.reg, scope);
    if file.Some? {
      SetDefsTwice(e.tree, DefsOf(file.value, read), scope, activeDir);
    }
  }

  lemma UpdateInv(e: Engine, scope: string, read: VaultFile -> string, activeDir: Option<string>)
    requires Inv(e)
    ensures Inv(Update(e, scope, read, activeDir))
  {
    var file := Get(e.reg, scope);
    if file.Some? {
      SetDefsInv(e.tree, DefsOf(file.value, read), scope, activeDir);
    }
  }

  // ---------------------------------------------------------------------------
  // File events
  // ---------------------------------------------------------------------------

  /** The `create` handler: a new glossary is registered under its folder; the tree is left alone. */
  function OnCreate(e: Engine, file: VaultFile): (r: Engine)
    requires UniqueScopes(e.reg)
    ensures UniqueScopes(r.reg) && r.tree == e.tree
    ensures forall s :: Get(r.reg, s) == if IsGlossary(file) && s == file.parentPath then Some(file) else Get(e.reg, s)
  {
    if IsGlossary(file) then e.(reg := AddDefFile(e.reg, file).0) else e
  }

  /**
   * The `delete` handler: for a glossary, the registration at the `dirname`
   * of its path is dropped and that scope is rebuilt from what remains.
   */
  function OnDelete(e: Engine, file: VaultFile, read: VaultFile -> string, activeDir: Option<string>): (r: Engine)
    requires UniqueScopes(e.reg)
    requires IsGlossary(file) ==> NoRegexMeta(Dirname(file.path))
    ensures UniqueScopes(r.reg)
    ensures !IsGlossary(file) ==> r == e
    ensures forall s :: Get(r.reg, s) == if IsGlossary(file) && s == Dirname(file.path) then None else Get(e.reg, s)
    ensures IsGlossary(file) ==> r == Rebuild(Engine(r.reg, e.tree), Dirname(file.path), read, activeDir)
  {
    if IsGlossary(file) then
      var (reg, scope) := PopDefFile(e.reg, file);
      Rebuild(e.(reg := reg), scope, read, activeDir)
    else e
  }

  /** The `modify` handler: a glossary's scope, taken as the `dirname` of its path, is updated. */
  function OnModify(e: Engine, file: VaultFile, read: VaultFile -> string, activeDir: Option<string>): (r: Engine)
    ensures r.reg == e.reg
    ensures !IsGlossary(file) || Get(e.reg, Dirname(file.path)).None? ==> r == e
    ensures IsGlossary(file) ==> r == Update(e, Dirname(file.path), read, activeDir)
  {
    if IsGlossary(file) then Update(e, Dirname(file.path), read, activeDir) else e
  }

  /**
   * The first half of the `rename` handler: when the old path ended in
   * `/concepts.md`, the old folder's registration is dropped and that scope
   * rebuilt from what remains.
   */
  function RenameDropOld(e: Engine, oldPath: string, read: VaultFile -> string, activeDir: Option<string>): (r: Engine)
    requires UniqueScopes(e.reg)
    requires EndsWith(oldPath, "/" + GlossaryName) ==> NoRegexMeta(Dirname(oldPath))
    ensures UniqueScopes(r.reg)
    ensures !EndsWith(oldPath, "/" + GlossaryName) ==> r == e
    ensures forall s :: Get(r.reg, s) == if EndsWith(oldPath, "/" + GlossaryName) && s == Dirname(oldPath) then None else Get(e.reg, s)
    ensures EndsWith(oldPath, "/" + GlossaryName) ==> r == Rebuild(Engine(r.reg, e.tree), Dirname(oldPath), read, activeDir)
  {
    if EndsWith(oldPath, "/" + GlossaryName) then
      var scope := Dirname(oldPath);
      RemoveSpec(e.reg, scope);
      GetAfterRemove(e.reg, scope);
      Rebuild(e.(reg := Remove(e.reg, scope)), scope, read, activeDir)
    else e
  }

  /**
   * The `rename` handler: the old folder is dropped as above; then, when the
   * new name is `concepts.md`, the file is registered and its scope updated.
   */
  function OnRename(e: Engine, file: VaultFile, oldPath: string, read: VaultFile -> string, activeDir: Option<string>): (r: Engine)
    requires UniqueScopes(e.reg)
    requires EndsWith(oldPath, "/" + GlossaryName) ==> NoRegexMeta(Dirname(oldPath))
    ensures UniqueScopes(r.reg)
    ensures forall s :: Get(r.reg, s) ==
              if IsGlossary(file) && s == file.parentPath then Some(file)
              else if EndsWith(oldPath, "/" + GlossaryName) && s == Dirname(oldPath) then None
              else Get(e.reg, s)
    ensures var e1 := RenameDropOld(e, oldPath, read, activeDir);
      r == if IsGlossary(file) then Update(e1.(reg := AddDefFile(e1.reg, file).0), file.parentPath, read, activeDir) else e1
  {
    var e1 := RenameDropOld(e, oldPath, read, activeDir);
    if IsGlossary(file) then
      var (reg, scope) := AddDefFile(e1.reg, file);
      Update(e1.(reg := reg), scope, read, activeDir)
    else e1
  }

  /** Every event keeps the registry's scopes distinct and the tree's key sets backed by its forests. */
  lemma EventsKeepInv(e: Engine, file: VaultFile, oldPath: string, read: VaultFile -> string, activeDir: Option<string>)
    requires Inv(e)
    requires NoRegexMeta(Dirname(file.path)) && NoRegexMeta(Dirname(oldPath))
    ensures Inv(OnCreate(e, file))
    ensures Inv(OnDelete(e, file, read, activeDir))
    ensures Inv(OnModify(e, file, read, activeDir))
    ensures Inv(OnRename(e, file, oldPath, read, activeDir))
  {
    if IsGlossary(file) {
      var reg := PopDefFile(e.reg, file).0;
      RebuildInv(Engine(reg, e.tree), Dirname(file.path), read, activeDir);
      UpdateInv(e, Dirname(file.path), read, activeDir);
    }
    var e1 :=
      if EndsWith(oldPath, "/" + GlossaryName) then
        Rebuild(e.(reg := Remove(e.reg, Dirname(oldPath))), Dirname(oldPath), read, activeDir)
      else e;
    assert Inv(e1) by {
      if EndsWith(oldPath, "/" + GlossaryName) {
        RemoveSpec(e.reg, Dirname(oldPath));
        RebuildInv(e.(reg := Remove(e.reg, Dirname(oldPath))), Dirname(oldPath), read, activeDir);
      }
    }
    if IsGlossary(file) {
      var reg := AddDefFile(e1.reg, file).0;
      UpdateInv(e1.(reg := reg), file.parentPath, read, activeDir);
    }
  }

  /**
   * Deleting the glossary at the vault root leaves it registered: the host
   * gives its folder as `"/"`, under which it was registered, but `dirname`
   * of its path is `"."`.
   */
  lemma DeleteRootKeepsEntry(e: Engine, file: VaultFile, read: VaultFile -> string, activeDir: Option<string>)
    requires UniqueScopes(e.reg)
    requires file == VaultFile(GlossaryName, GlossaryName, "/")
    requires Get(e.reg, "/") == Some(file)
    ensures Dirname(file.path) == "."
    ensures Get(OnDelete(e, file, read, activeDir).reg, "/") == Some(file)
  {
    DirnameOfRelative("", GlossaryName);
  }

  /** Editing the glossary at the vault root updates nothing, as nothing is registered under `"."`. */
  lemma ModifyRootIgnored(e: Engine, file: VaultFile, read: VaultFile -> string, activeDir: Option<string>)
    requires file == VaultFile(GlossaryName, GlossaryName, "/")
    requires Get(e.reg, ".") == None
    ensures OnModify(e, file, read, activeDir) == e
  {
    DirnameOfRelative("", GlossaryName);
  }

  /** Renaming the glossary at the vault root away leaves it registered: its old path has no `/`. */
  lemma RenameRootKeepsEntry(e: Engine, file: VaultFile, read: VaultFile -> string, activeDir: Option<string>)
    requires UniqueScopes(e.reg)
    requires !IsGlossary(file)
    ensures Get(OnRename(e, file, GlossaryName, read, activeDir).reg, "/") == Get(e.reg, "/")
  {
    assert !EndsWith(GlossaryName, "/" + GlossaryName);
  }

  // ---------------------------------------------------------------------------
  // Start-up
  // ---------------------------------------------------------------------------

  /** No glossary among `files` after index `k` lives in folder `s`. */
  predicate LastFor(files: seq<VaultFile>, k: int, s: string) {
    forall j :: 0 <= j < |files| && k < j ==> !(IsGlossary(files[j]) && files[j].parentPath == s)
  }

  /** The registry `initCore` builds from the vault's markdown files: each glossary registered in turn. */
  function RegisterAll(reg: Registry, files: seq<VaultFile>): (r: Registry)
    requires UniqueScopes(reg)
    ensures UniqueScopes(r)
    decreases |files|
  {
    if |files| == 0 then reg
    else RegisterAll(if IsGlossary(files[0]) then AddDefFile(reg, files[0]).0 else reg, files[1..])
  }

  /**
   * After registering the files, the last glossary of each folder is the
   * one registered there, and a folder with no glossary among the files
   * keeps its registration.
   */
  lemma {:induction false} RegisterAllSpec(reg: Registry, files: seq<VaultFile>)
    requires UniqueScopes(reg)
    ensures forall s :: LastFor(files, -1, s) ==> Get(RegisterAll(reg, files), s) == Get(reg, s)
    ensures forall k :: 0 <= k < |files| && IsGlossary(files[k]) && LastFor(files, k, files[k].parentPath) ==>
              Get(RegisterAll(reg, files), files[k].parentPath) == Some(files[k])
    decreases |files|
  {
    if |files| > 0 {
      var reg1 := if IsGlossary(files[0]) then AddDefFile(reg, files[0]).0 else reg;
      var tail := files[1..];
      RegisterAllSpec(reg1, tail);
      assert forall j :: 1 <= j < |files| ==> files[j] == tail[j - 1];
      forall s | LastFor(files, -1, s)
        ensures Get(RegisterAll(reg, files), s) == Get(reg, s)
      {
        assert LastFor(tail, -1, s);
        assert !(IsGlossary(files[0]) && files[0].parentPath == s);
      }
      forall k | 0 <= k < |files| && IsGlossary(files[k]) && LastFor(files, k, files[k].parentPath)
        ensures Get(RegisterAll(reg, files), files[k].parentPath) == Some(files[k])
      {
        if k == 0 {
          assert LastFor(tail, -1, files[0].parentPath);
        } else {
          assert LastFor(tail, k - 1, tail[k - 1].parentPath);
        }
      }
    }
  }

  /**
   * `initCore`: unless it has run before, register every glossary, then build
   * a new scope tree by applying the registrations shallowest first. The
   * first component of the result is the `state` flag.
   */
  function InitCore(initialized: bool, e: Engine, files: seq<VaultFile>, read: VaultFile -> string, activeDir: Option<string>): (r: (bool, Engine))
    requires UniqueScopes(e.reg)
    ensures r.0
    ensures initialized ==> r.1 == e
    ensures !initialized ==> r.1.reg == RegisterAll(e.reg, files)
  {
    if initialized then (true, e)
    else
      var reg := RegisterAll(e.reg, files);
      (true, Engine(reg, Apply(Fresh, SortByDepth(reg), read, activeDir)))
  }

  /**
   * The tree `initCore` builds applies every registration exactly once,
   * shallowest first, to a new tree, and satisfies the invariant.
   */
  lemma InitCoreBuild(e: Engine, files: seq<VaultFile>, read: VaultFile -> string, activeDir: Option<string>)
    requires UniqueScopes(e.reg)
    ensures var r := InitCore(false, e, files, read, activeDir).1;
      && Inv(r)
      && exists entries: seq<Entry> ::
           && Sorting.SortedBy(entries, Depth)
           && multiset(entries) == multiset(r.reg)
           && r.tree == Apply(Fresh, entries, read, activeDir)
  {
    var reg := RegisterAll(e.reg, files);
    SortByDepthSpec(reg);
    FreshInv();
    ApplyInv(Fresh, SortByDepth(reg), read, activeDir);
  }

  // ---------------------------------------------------------------------------
  // The engine's window functions
  // ---------------------------------------------------------------------------

  /** `Searcher()`: the forest of the active file's folder, when a file is active. */
  function SearcherForest(t: Node, activeDir: Option<string>): (r: (Node, Option<DefForest.Forest>))
    ensures r.1.Some? <==> activeDir.Some?
    ensures TreeInv(t) ==> TreeInv(r.0) && (r.1.Some? ==> DefForest.Valid(r.1.value, ""))
  {
    var r := GetDefs(t, "", activeDir);
    assert TreeInv(t) ==> TreeInv(r.0) && (r.1.Some? ==> DefForest.Valid(r.1.value, "")) by {
      if TreeInv(t) && activeDir.Some? {
        ResolveInv(t, None, Cmps(activeDir.value));
      }
    }
    r
  }

  /** A regular expression `^scope` tested against a path, for a scope whose only metacharacter is `.`. */
  predicate ScopeMatches(scope: string, path: string)
    requires NoRegexMeta(scope)
  {
    PatternPrefix(scope, path)
  }

  predicate Plain(reg: Registry) {
    forall k :: 0 <= k < |reg| ==> NoRegexMeta(reg[k].scope)
  }

  /**
   * The loop body of `getDefFileMap` applied to each entry of `source`:
   * register the entry's file in `acc` when its scope prefixes the active
   * path or is the root.
   */
  function AddSelected(source: Registry, acc: Registry, activePath: string): (r: Registry)
    requires Plain(source) && UniqueScopes(acc)
    ensures UniqueScopes(r)
    ensures forall s :: (forall k :: 0 <= k < |source| ==> source[k].file.parentPath != s) ==> Get(r, s) == Get(acc, s)
    decreases |source|
  {
    if |source| == 0 then acc
    else
      var e := source[0];
      var acc1 := if ScopeMatches(e.scope, activePath) || e.scope == "/" then AddDefFile(acc, e.file).0 else acc;
      assert forall k :: 1 <= k < |source| ==> source[k] == source[1..][k - 1];
      AddSelected(source[1..], acc1, activePath)
  }

  /**
   * `getDefFileMap` as written: the registry itself when no file is active;
   * otherwise a new map filled by iterating over that same new, empty map,
   * which gives the empty map whatever is registered.
   */
  function GetDefFileMap(reg: Registry, activeFile: Option<VaultFile>): (r: Registry)
    ensures activeFile.None? ==> r == reg
    ensures activeFile.Some? ==> r == []
  {
    match activeFile
    case None => reg
    case Some(f) =>
      var map_: Registry := [];
      AddSelected(map_, map_, f.path)
  }

  /** With a file active, `getDefFileMap` loses every registration, even the root glossary's. */
  lemma GetDefFileMapDropsAll(reg: Registry, file: VaultFile, active: VaultFile)
    requires Entry("/", file) in reg
    ensures Get(reg, "/").Some?
    ensures GetDefFileMap(reg, Some(active)) == []
  {
    var i :| 0 <= i < |reg| && reg[i] == Entry("/", file);
    assert reg[i].scope == "/";
  }

  /** Each entry is registered under its file's folder, as `addDefFile` keys them. */
  predicate KeyedByFolder(reg: Registry) {
    forall k :: 0 <= k < |reg| ==> reg[k].scope == reg[k].file.parentPath
  }

  /**
   * `getDefFileMap` as evidently intended: iterate over the registry, keeping
   * the glossaries whose scope prefixes the active file's path and the root
   * glossary.
   */
  function IntendedDefFileMap(reg: Registry, activeFile: Option<VaultFile>): (r: Registry)
    requires UniqueScopes(reg) && Plain(reg)
    ensures activeFile.None? ==> r == reg
  {
    match activeFile
    case None => reg
    case Some(f) => AddSelected(reg, [], f.path)
  }

  /**
   * With a file active, the intended map holds exactly the registrations
   * whose scope prefixes the active path or is the root, each with its file.
   */
  lemma IntendedDefFileMapSelects(reg: Registry, active: VaultFile, s: string)
    requires UniqueScopes(reg) && Plain(reg) && KeyedByFolder(reg)
    ensures NoRegexMeta(s) ==>
              Get(IntendedDefFileMap(reg, Some(active)), s)
              == if ScopeMatches(s, active.path) || s == "/" then Get(reg, s) else None
  {
    if NoRegexMeta(s) {
      AddSelectedSpec(reg, [], active.path, s);
    }
  }

  lemma {:induction false} AddSelectedSpec(source: Registry, acc: Registry, activePath: string, s: string)
    requires Plain(source) && UniqueScopes(source) && KeyedByFolder(source) && UniqueScopes(acc)
    requires NoRegexMeta(s)
    ensures Get(AddSelected(source, acc, activePath), s)
         == if HasScope(source, s) && (ScopeMatches(s, activePath) || s == "/") then Get(source, s) else Get(acc, s)
    decreases |source|
  {
    if |source| > 0 {
      var e := source[0];
      var acc1 := if ScopeMatches(e.scope, activePath) || e.scope == "/" then AddDefFile(acc, e.file).0 else acc;
      assert forall k :: 1 <= k < |source| ==> source[k] == source[1..][k - 1];
      assert UniqueScopes(source[1..]) && KeyedByFolder(source[1..]);
      AddSelectedSpec(source[1..], acc1, activePath, s);
      HasScopeTail(source, s);
      if e.scope == s {
        assert !HasScope(source[1..], s);
      }
    }
  }

  // ---------------------------------------------------------------------------
  // The phrase under the cursor
  // ---------------------------------------------------------------------------

  /** Both ends are inclusive. */
  predicate Contains(p: PhraseInfo, offset: int) {
    p.from <= offset <= p.to
  }

  /** Every phrase is a range, and each ends no later than the next one starts. */
  predicate Ordered(ps: seq<PhraseInfo>) {
    && (forall k :: 0 <= k < |ps| ==> ps[k].from <= ps[k].to)
    && (forall j, k :: 0 <= j < k < |ps| ==> ps[j].to <= ps[k].from)
  }

  /**
   * `getPhraseUnderCursor`: a binary search of the scanned phrases for one
   * containing `offset`. A non-empty result is always the key of a phrase
   * containing `offset`; on ordered phrases the search finds one whenever
   * one exists.
   */
  method PhraseUnderCursor(phrases: seq<PhraseInfo>, offset: int) returns (r: string)
    ensures |phrases| == 0 ==> r == ""
    ensures r != "" ==> exists k :: 0 <= k < |phrases| && Contains(phrases[k], offset) && phrases[k].key == r
    ensures Ordered(phrases) && (exists k :: 0 <= k < |phrases| && Contains(phrases[k], offset)) ==>
              exists k :: 0 <= k < |phrases| && Contains(phrases[k], offset) && phrases[k].key == r
  {
    if |phrases| == 0 {
      return "";
    }
    var start, end := 0, |phrases| - 1;
    while start <= end
      invariant 0 <= start && end < |phrases|
      invariant Ordered(phrases) && (exists k :: 0 <= k < |phrases| && Contains(phrases[k], offset)) ==>
                  exists k :: start <= k <= end && Contains(phrases[k], offset)
      decreases end - start
    {
      var mid := (start + end) / 2;
      var p := phrases[mid];
      if p.from <= offset <= p.to {
        return p.key;
      }
      if offset < p.from {
        end := mid - 1;
      }
      if offset > p.to {
        start := mid + 1;
      }
    }
    return "";
  }

  /**
   * The alias line `*` yields the empty alias as written, so the block
   * `# w`, `*`, `x` parses to the record for `w` and a copy keyed by the empty
   * string. Storing both, as `setDefs` does, puts the copy at the root of the
   * trie, after which `match` answers with it, a key of length 0, at every
   * position of a line that does not continue into `w`, so `find` never moves
   * past that position. The intended extraction yields no alias and no record
   * with an empty key.
   */
  lemma EmptyAliasAtRoot(file: VaultFile, line: string)
    ensures ExtractAliasesAsWritten("*") == [""]
    ensures ExtractAliases("*") == []
    ensures var defs := ParseLines(file, ["# w", "*", "x"]);
      && |defs| == 2 && defs[0].key == "w" && defs[1].key == ""
      && var f := DefForest.Insert(DefForest.Insert(DefForest.Empty, defs[0]).0, defs[1]).0;
         && f.terminal == Some(defs[1])
         && forall i :: 0 <= i < |line| && Lower(line[i]) != 'w' ==>
              DefForest.Match(f, line, i) == Some(defs[1]) && DefForest.MatchLen(f, line, i) == 0
    ensures forall d <- ParseLinesWith(DropEmptyAliases, file, ["# w", "*", "x"]) :: d.key != ""
  {
    StarAliases();
    EmptyAliasExample(file);
    var defs := ParseLines(file, ["# w", "*", "x"]);
    var f0 := DefForest.Insert(DefForest.Empty, defs[0]).0;
    assert f0.terminal == None && f0.children.Keys == {'w'} by {
      assert defs[0].key == "w" && "w"[1..] == "";
    }
  }
}

=== FILE: decor.dfy ===
/**
 * What both decorators (src/decor/live.ts, src/decor/read.ts) do with the
 * spans the searcher reports: two consecutive stable sorts, by `to`
 * descending and then by `from` ascending, and a greedy pass that keeps a
 * span only when it starts at or after the end of the last span kept.
 */
module Decor {
  import opened Types
  import opened Sorting

  /** The key of the comparator `(a, b) => b.to - a.to`. */
  function ToDesc(p: PhraseInfo): int {
    -p.to
  }

  /** The key of the comparator `(a, b) => a.from - b.from`. */
  function FromAsc(p: PhraseInfo): int {
    p.from
  }

  /** The two sorts, the one by `to` first. */
  function SortSpans(s: seq<PhraseInfo>): seq<PhraseInfo> {
    SortBy(SortBy(s, ToDesc), FromAsc)
  }

  /**
   * After the two sorts the spans are ordered by `from`, and spans with the
   * same `from` by `to` descending, so the longer of two spans starting
   * together comes first; the sorts only reorder.
   */
  lemma SortSpansSpec(s: seq<PhraseInfo>)
    ensures LexSortedBy(SortSpans(s), FromAsc, ToDesc)
    ensures multiset(SortSpans(s)) == multiset(s)
  {
    SortBySpec(s, ToDesc);
    SortTwiceIsLex(SortBy(s, ToDesc), FromAsc, ToDesc);
  }

  /** Every sorted span satisfies `p` when every input span does. */
  lemma SortSpansAll(s: seq<PhraseInfo>, p: PhraseInfo -> bool)
    requires forall k :: 0 <= k < |s| ==> p(s[k])
    ensures |SortSpans(s)| == |s|
    ensures forall k :: 0 <= k < |SortSpans(s)| ==> p(SortSpans(s)[k])
  {
    SortByAll(s, ToDesc, p);
    SortByAll(SortBy(s, ToDesc), FromAsc, p);
  }

  /** `a` is `b` with some elements left out. */
  predicate IsSubseq<T(==)>(a: seq<T>, b: seq<T>)
    decreases |b|
  {
    |a| == 0 || (|b| > 0 && ((a[0] == b[0] && IsSubseq(a[1..], b[1..])) || IsSubseq(a, b[1..])))
  }

  /** Every span ends no earlier than it starts. */
  predicate Ranges(s: seq<PhraseInfo>) {
    forall k :: 0 <= k < |s| ==> s[k].from <= s[k].to
  }

  /**
   * The greedy filter with the end of the last kept span in `cursor`: a span
   * is kept when its `from` is at least the cursor, which then moves to its
   * `to`. What is kept is a subsequence of the input whose first span starts
   * at or after the initial cursor; on spans that are ranges, every kept span
   * starts at or after the initial cursor and ends no later than each later
   * kept span starts.
   */
  function Keep(s: seq<PhraseInfo>, cursor: int): (r: seq<PhraseInfo>)
    ensures IsSubseq(r, s)
    ensures forall x :: x in r ==> x in s
    ensures |r| > 0 ==> r[0].from >= cursor
    ensures Ranges(s) ==>
              && (forall k :: 0 <= k < |r| ==> r[k].from >= cursor)
              && (forall j, k :: 0 <= j < k < |r| ==> r[j].to <= r[k].from)
    decreases |s|
  {
    if |s| == 0 then []
    else
      assert Ranges(s) ==> Ranges(s[1..]) by {
        assert forall k :: 0 <= k < |s[1..]| ==> s[1..][k] == s[k + 1];
      }
      if s[0].from >= cursor then
        var rest := Keep(s[1..], s[0].to);
        var r := [s[0]] + rest;
        assert r[1..] == rest;
        assert forall k :: 1 <= k < |r| ==> r[k] == rest[k - 1];
        r
      else Keep(s[1..], cursor)
  }

  /**
   * Nothing is dropped without a reason: on spans ordered by `from`, a span
   * that is not kept starts before the initial cursor or inside a kept span
   * that starts no later than it.
   */
  lemma {:induction false} KeepMaximal(s: seq<PhraseInfo>, cursor: int)
    requires SortedBy(s, FromAsc)
    ensures var r := Keep(s, cursor);
      forall k :: 0 <= k < |s| ==>
        s[k] in r || s[k].from < cursor || exists j :: 0 <= j < |r| && r[j].from <= s[k].from < r[j].to
    decreases |s|
  {
    if |s| > 0 {
      var tail := s[1..];
      assert SortedBy(tail, FromAsc) by {
        assert forall k :: 0 <= k < |tail| ==> tail[k] == s[k + 1];
      }
      assert forall k :: 1 <= k < |s| ==> s[k] == tail[k - 1];
      var r := Keep(s, cursor);
      if s[0].from >= cursor {
        var rest := Keep(tail, s[0].to);
        KeepMaximal(tail, s[0].to);
        assert r == [s[0]] + rest;
        forall k | 1 <= k < |s|
          ensures s[k] in r || exists j :: 0 <= j < |r| && r[j].from <= s[k].from < r[j].to
        {
          if s[k] !in rest && s[k].from >= s[0].to {
            var j :| 0 <= j < |rest| && rest[j].from <= tail[k - 1].from < rest[j].to;
            assert r[j + 1] == rest[j];
          } else if s[k] !in rest {
            assert FromAsc(s[0]) <= FromAsc(s[k]);
            assert r[0] == s[0];
          }
        }
      } else {
        KeepMaximal(tail, cursor);
      }
    }
  }
}

=== FILE: file_map.dfy ===
/**
 * The registry of glossary files (src/core/types.ts, class DefFileMap): a
 * map from scope to glossary file that keeps insertion order, as a JS `Map`
 * does, modelled as a sequence of entries with distinct scopes.
 */
module DefFileMap {
  import opened Types
  import opened Text
  import opened Sorting
  import ScopeTree

  datatype Entry = Entry(scope: string, file: VaultFile)

  type Registry = seq<Entry>

  predicate UniqueScopes(reg: Registry) {
    forall i, j :: 0 <= i < j < |reg| ==> reg[i].scope != reg[j].scope
  }

  predicate HasScope(reg: Registry, scope: string) {
    exists i :: 0 <= i < |reg| && reg[i].scope == scope
  }

  /** `Map.prototype.get`. */
  function Get(reg: Registry, scope: string): (r: Option<VaultFile>)
    ensures r.Some? <==> HasScope(reg, scope)
    ensures r.Some? ==> Entry(scope, r.value) in reg
    decreases |reg|
  {
    if |reg| == 0 then None
    else if reg[0].scope == scope then Some(reg[0].file)
    else
      HasScopeTail(reg, scope);
      Get(reg[1..], scope)
  }

  lemma HasScopeTail(reg: Registry, scope: string)
    requires |reg| > 0
    ensures HasScope(reg, scope) <==> reg[0].scope == scope || HasScope(reg[1..], scope)
  {
    forall k | 0 <= k < |reg[1..]|
      ensures reg[1..][k] == reg[k + 1]
    {
    }
    if HasScope(reg, scope) && reg[0].scope != scope {
      var k :| 0 <= k < |reg| && reg[k].scope == scope;
      assert reg[1..][k - 1] == reg[k];
    }
  }

  /** `Map.prototype.set`: replaces the entry in place when the scope is present, appends otherwise. */
  function Put(reg: Registry, scope: string, file: VaultFile): Registry
    decreases |reg|
  {
    if |reg| == 0 then [Entry(scope, file)]
    else if reg[0].scope == scope then [Entry(scope, file)] + reg[1..]
    else [reg[0]] + Put(reg[1..], scope, file)
  }

  /** `Map.prototype.delete`. */
  function Remove(reg: Registry, scope: string): Registry
    decreases |reg|
  {
    if |reg| == 0 then []
    else if reg[0].scope == scope then Remove(reg[1..], scope)
    else [reg[0]] + Remove(reg[1..], scope)
  }

  /**
   * Setting a scope overwrites its entry where it stands, or appends a new
   * entry at the end; the scopes stay distinct.
   */
  lemma PutSpec(reg: Registry, scope: string, file: VaultFile)
    requires UniqueScopes(reg)
    ensures UniqueScopes(Put(reg, scope, file))
    ensures forall i :: 0 <= i < |reg| && reg[i].scope == scope ==>
              Put(reg, scope, file) == reg[i := Entry(scope, file)]
    ensures !HasScope(reg, scope) ==> Put(reg, scope, file) == reg + [Entry(scope, file)]
  {
    if HasScope(reg, scope) {
      var i :| 0 <= i < |reg| && reg[i].scope == scope;
      PutReplaces(reg, scope, file, i);
      var r := reg[i := Entry(scope, file)];
      assert UniqueScopes(r) by {
        forall a, b | 0 <= a < b < |r|
          ensures r[a].scope != r[b].scope
        {
          assert r[a].scope == reg[a].scope && r[b].scope == reg[b].scope;
        }
      }
    } else {
      PutAppends(reg, scope, file);
      var r := reg + [Entry(scope, file)];
      assert UniqueScopes(r) by {
        forall a, b | 0 <= a < b < |r|
          ensures r[a].scope != r[b].scope
        {
          assert r[a] == reg[a];
          if b < |reg| {
            assert r[b] == reg[b];
          }
        }
      }
    }
  }

  /** On a key that is present, `set` replaces the entry in place. */
  lemma {:induction false} PutReplaces(reg: Registry, scope: string, file: VaultFile, i: nat)
    requires i < |reg| && reg[i].scope == scope
    requires forall j :: 0 <= j < i ==> reg[j].scope != scope
    ensures Put(reg, scope, file) == reg[i := Entry(scope, file)]
    decreases i
  {
    if i > 0 {
      assert forall j :: 0 <= j < i - 1 ==> reg[1..][j] == reg[j + 1];
      PutReplaces(reg[1..], scope, file, i - 1);
      assert reg[i := Entry(scope, file)] == [reg[0]] + reg[1..][i - 1 := Entry(scope, file)];
    }
  }

  /** On a new key, `set` appends the entry. */
  lemma {:induction false} PutAppends(reg: Registry, scope: string, file: VaultFile)
    requires !HasScope(reg, scope)
    ensures Put(reg, scope, file) == reg + [Entry(scope, file)]
    decreases |reg|
  {
    if |reg| > 0 {
      HasScopeTail(reg, scope);
      PutAppends(reg[1..], scope, file);
      assert reg == [reg[0]] + reg[1..];
    }
  }

  lemma {:induction false} RemoveMembers(reg: Registry, scope: string)
    ensures forall e :: e in Remove(reg, scope) <==> e in reg && e.scope != scope
    decreases |reg|
  {
    if |reg| > 0 {
      RemoveMembers(reg[1..], scope);
      assert reg == [reg[0]] + reg[1..];
    }
  }

  lemma {:induction false} RemoveUnique(reg: Registry, scope: string)
    requires UniqueScopes(reg)
    ensures UniqueScopes(Remove(reg, scope))
    decreases |reg|
  {
    if |reg| > 0 {
      RemoveUnique(reg[1..], scope);
      RemoveMembers(reg[1..], scope);
      var rest := Remove(reg[1..], scope);
      if reg[0].scope != scope {
        var r := [reg[0]] + rest;
        forall j | 0 < j < |r|
          ensures r[0].scope != r[j].scope
        {
          assert r[j] == rest[j - 1];
          assert rest[j - 1] in reg[1..];
          var k :| 0 <= k < |reg[1..]| && reg[1..][k] == rest[j - 1];
          assert reg[k + 1] == reg[1..][k];
        }
        forall a, b | 0 < a < b < |r|
          ensures r[a].scope != r[b].scope
        {
          assert r[a] == rest[a - 1] && r[b] == rest[b - 1];
        }
      }
    }
  }

  lemma {:induction false} RemoveCount(reg: Registry, scope: string)
    requires UniqueScopes(reg)
    ensures !HasScope(reg, scope) ==> Remove(reg, scope) == reg
    ensures HasScope(reg, scope) ==> |Remove(reg, scope)| == |reg| - 1
    decreases |reg|
  {
    if |reg| > 0 {
      RemoveCount(reg[1..], scope);
      HasScopeTail(reg, scope);
      if reg[0].scope == scope {
        forall k | 0 <= k < |reg[1..]|
          ensures reg[1..][k].scope != scope
        {
          assert reg[1..][k] == reg[k + 1];
        }
      } else {
        assert reg == [reg[0]] + reg[1..];
      }
    }
  }

  /**
   * Deleting a scope removes its entry and keeps every other entry in its
   * order; the scopes stay distinct.
   */
  lemma RemoveSpec(reg: Registry, scope: string)
    requires UniqueScopes(reg)
    ensures UniqueScopes(Remove(reg, scope))
    ensures !HasScope(Remove(reg, scope), scope)
    ensures forall e :: e in Remove(reg, scope) <==> e in reg && e.scope != scope
    ensures !HasScope(reg, scope) ==> Remove(reg, scope) == reg
    ensures HasScope(reg, scope) ==> |Remove(reg, scope)| == |reg| - 1
  {
    RemoveMembers(reg, scope);
    RemoveUnique(reg, scope);
    RemoveCount(reg, scope);
    var r := Remove(reg, scope);
    forall k | 0 <= k < |r|
      ensures r[k].scope != scope
    {
      assert r[k] in r;
    }
  }

  /** `addDefFile`: registers a glossary file under its parent folder's path and returns that scope. */
  function AddDefFile(reg: Registry, file: VaultFile): (r: (Registry, string))
    requires UniqueScopes(reg)
    ensures r.1 == file.parentPath
    ensures UniqueScopes(r.0)
    ensures Get(r.0, r.1) == Some(file)
    ensures forall s :: s != r.1 ==> Get(r.0, s) == Get(reg, s)
  {
    PutSpec(reg, file.parentPath, file);
    var r := Put(reg, file.parentPath, file);
    GetAfterPut(reg, file.parentPath, file);
    (r, file.parentPath)
  }

  lemma {:induction false} GetAfterPut(reg: Registry, scope: string, file: VaultFile)
    ensures Get(Put(reg, scope, file), scope) == Some(file)
    ensures forall s :: s != scope ==> Get(Put(reg, scope, file), s) == Get(reg, s)
    decreases |reg|
  {
    if |reg| > 0 && reg[0].scope != scope {
      GetAfterPut(reg[1..], scope, file);
      var r := Put(reg, scope, file);
      assert r[1..] == Put(reg[1..], scope, file);
    } else if |reg| > 0 {
      var r := Put(reg, scope, file);
      assert r[1..] == reg[1..];
    }
  }

  lemma {:induction false} GetAfterRemove(reg: Registry, scope: string)
    ensures Get(Remove(reg, scope), scope) == None
    ensures forall s :: s != scope ==> Get(Remove(reg, scope), s) == Get(reg, s)
    decreases |reg|
  {
    if |reg| > 0 {
      GetAfterRemove(reg[1..], scope);
      if reg[0].scope != scope {
        var r := Remove(reg, scope);
        assert r[1..] == Remove(reg[1..], scope);
      }
    }
  }

  /**
   * `popDefFile`: unregisters the scope named by the `dirname` of the file's
   * path and returns it. For a file at the vault root that is `"."`, not the
   * `"/"` under which `addDefFile` registered it.
   */
  function PopDefFile(reg: Registry, file: VaultFile): (r: (Registry, string))
    requires UniqueScopes(reg)
    ensures r.1 == Dirname(file.path)
    ensures UniqueScopes(r.0)
    ensures Get(r.0, r.1) == None
    ensures forall s :: s != r.1 ==> Get(r.0, s) == Get(reg, s)
  {
    var scope := Dirname(file.path);
    RemoveSpec(reg, scope);
    GetAfterRemove(reg, scope);
    (Remove(reg, scope), scope)
  }

  /** The number of components of a scope, as the scope tree splits it. */
  function Depth(e: Entry): int {
    |ScopeTree.Cmps(e.scope)|
  }

  /** `sortByDepth`: the entries in a stable ascending order of depth. */
  function SortByDepth(reg: Registry): Registry {
    SortBy(reg, Depth)
  }

  lemma SortByDepthSpec(reg: Registry)
    ensures SortedBy(SortByDepth(reg), Depth)
    ensures multiset(SortByDepth(reg)) == multiset(reg)
    ensures forall d :: WithKey(SortByDepth(reg), Depth, d) == WithKey(reg, Depth, d)
  {
    SortBySpec(reg, Depth);
  }

  /**
   * Characters that would change the meaning of the pattern `filter` builds
   * from a scope; the model covers every character but these (see README).
   */
  predicate RegexMeta(c: char) {
    c in "\\^$|?*+()[]{}"
  }

  predicate NoRegexMeta(s: string) {
    forall i :: 0 <= i < |s| ==> !RegexMeta(s[i])
  }

  /** What `.` matches in a JS regular expression without the `s` flag. */
  predicate DotMatches(c: char) {
    c !in "\n\r  "
  }

  /** The pattern `^p` matches `s`, for a pattern whose only metacharacter is `.`. */
  predicate PatternPrefix(p: string, s: string) {
    |p| <= |s| && forall i :: 0 <= i < |p| ==> if p[i] == '.' then DotMatches(s[i]) else s[i] == p[i]
  }

  /** The pattern `filter` tests: the scope followed by `/`, or `/` alone for the root. */
  function FilterPattern(scope: string): string {
    if scope == "/" then scope else scope + "/"
  }

  /** `filter`: the entries, by depth, whose scope followed by `/` the pattern prefixes. */
  function Filter(reg: Registry, scope: string): (r: seq<Entry>)
    requires NoRegexMeta(scope)
  {
    KeepMatching(SortByDepth(reg), FilterPattern(scope))
  }

  function KeepMatching(s: seq<Entry>, p: string): (r: seq<Entry>)
    ensures forall e :: e in r <==> e in s && PatternPrefix(p, e.scope + "/")
    ensures |r| <= |s|
    decreases |s|
  {
    if |s| == 0 then []
    else (if PatternPrefix(p, s[0].scope + "/") then [s[0]] else []) + KeepMatching(s[1..], p)
  }

  lemma {:induction false} KeepMatchingSorted(s: seq<Entry>, p: string)
    requires SortedBy(s, Depth)
    ensures SortedBy(KeepMatching(s, p), Depth)
    decreases |s|
  {
    if |s| > 0 {
      var rest := KeepMatching(s[1..], p);
      KeepMatchingSorted(s[1..], p);
      forall k | 0 <= k < |rest|
        ensures Depth(s[0]) <= Depth(rest[k])
      {
        assert rest[k] in s[1..];
        var j :| 0 <= j < |s[1..]| && s[1..][j] == rest[k];
        assert s[j + 1] == rest[k];
      }
      SortedCons(s[0], rest);
    }
  }

  lemma SortedCons(x: Entry, t: seq<Entry>)
    requires SortedBy(t, Depth)
    requires forall k :: 0 <= k < |t| ==> Depth(x) <= Depth(t[k])
    ensures SortedBy([x] + t, Depth)
  {
    var r := [x] + t;
    forall a, b | 0 <= a < b < |r|
      ensures Depth(r[a]) <= Depth(r[b])
    {
      assert r[b] == t[b - 1];
      if a > 0 {
        assert r[a] == t[a - 1];
      }
    }
  }

  /**
   * `filter` returns exactly the registered entries whose scope the pattern
   * selects, shallow scopes first.
   */
  lemma FilterSpec(reg: Registry, scope: string)
    requires NoRegexMeta(scope)
    ensures SortedBy(Filter(reg, scope), Depth)
    ensures forall e :: e in Filter(reg, scope) <==> e in reg && PatternPrefix(FilterPattern(scope), e.scope + "/")
  {
    SortByDepthSpec(reg);
    KeepMatchingSorted(SortByDepth(reg), FilterPattern(scope));
    forall e
      ensures e in SortByDepth(reg) <==> e in reg
    {
      assert e in SortByDepth(reg) <==> e in multiset(SortByDepth(reg));
    }
  }

  /** Without a `.` the pattern is a literal prefix test. */
  lemma PlainPatternIsPrefix(p: string, s: string)
    requires '.' !in p
    ensures PatternPrefix(p, s) <==> StartsWith(s, p)
  {
    if PatternPrefix(p, s) {
      assert s[..|p|] == p;
    }
    if StartsWith(s, p) {
      forall i | 0 <= i < |p|
        ensures s[i] == p[i]
      {
        assert s[..|p|][i] == s[i];
      }
    }
  }

  /**
   * For a scope other than the root and without a `.`, `filter` selects the
   * scope itself and the scopes below it.
   */
  lemma FilterSelectsSubtree(reg: Registry, scope: string)
    requires NoRegexMeta(scope) && '.' !in scope && scope != "/"
    ensures forall e :: e in Filter(reg, scope) <==>
              e in reg && (e.scope == scope || StartsWith(e.scope, scope + "/"))
  {
    FilterSpec(reg, scope);
    forall e | e in reg
      ensures PatternPrefix(scope + "/", e.scope + "/") <==> (e.scope == scope || StartsWith(e.scope, scope + "/"))
    {
      PlainPatternIsPrefix(scope + "/", e.scope + "/");
      var a, p := e.scope + "/", scope + "/";
      if StartsWith(a, p) {
        assert a[..|scope|] == p[..|scope|] == scope;
        assert |e.scope| == |scope| ==> e.scope == a[..|scope|];
        if e.scope != scope {
          assert e.scope[..|p|] == a[..|p|];
        }
      }
      if StartsWith(e.scope, p) {
        assert a[..|p|] == e.scope[..|p|];
      }
      if e.scope == scope {
        assert a[..|p|] == p;
      }
    }
  }

  /**
   * For the root, `filter` selects only the root entry and scopes written
   * with a leading `/`; folder scopes, which the host writes without one,
   * are not selected.
   */
  lemma FilterRootSelectsAbsolute(reg: Registry)
    ensures forall e :: e in Filter(reg, "/") <==> e in reg && (e.scope == "" || e.scope[0] == '/')
  {
    FilterSpec(reg, "/");
    forall e | e in reg
      ensures PatternPrefix("/", e.scope + "/") <==> (e.scope == "" || e.scope[0] == '/')
    {
      assert (e.scope + "/")[0] == if e.scope == "" then '/' else e.scope[0];
    }
  }

  /**
   * The scope `"."` (the `dirname` of a file at the vault root) is read as a
   * pattern: its `.` matches the `/` of the root entry, so `filter(".")`
   * selects the root glossary.
   */
  lemma FilterDotSelectsRoot(reg: Registry, file: VaultFile)
    requires Entry("/", file) in reg
    ensures Entry("/", file) in Filter(reg, ".")
  {
    FilterSpec(reg, ".");
    assert PatternPrefix("./", "//");
  }
}

=== FILE: forest.dfy ===
/**
 * The definition forest (src/core/types.ts, class DefForest): a character
 * trie over definition keys. The source keeps the definition stored for a
 * key under a reserved `"\n"` child of the node the key leads to; here that
 * child is the explicit `terminal` field, and no node has a `'\n'` child.
 */
module DefForest {
  import opened Types
  import opened Text

  datatype Forest = Forest(children: map<char, Forest>, terminal: Option<Def>)

  const Empty: Forest := Forest(map[], None)

  /**
   * The part of a key the trie stores: `set` walks `key + "\n"` and stops at
   * the first line feed, so a key holding a line feed is stored under the
   * text before it.
   */
  function Cut(k: string): (r: string)
    ensures r <= k && '\n' !in r
    ensures '\n' !in k ==> r == k
    ensures |k| > 0 && k[0] != '\n' ==> |r| > 0
    decreases |k|
  {
    if |k| == 0 || k[0] == '\n' then "" else [k[0]] + Cut(k[1..])
  }

  /**
   * `getDef`: follows `path` exactly, one child per character, and returns
   * the terminal of the node it reaches; nothing when a child is missing.
   */
  function Lookup(f: Forest, path: string): Option<Def>
    decreases |path|
  {
    if |path| == 0 then f.terminal
    else if path[0] != '\n' && path[0] in f.children then Lookup(f.children[path[0]], path[1..])
    else None
  }

  /**
   * The override rule: a definition replaces the stored one only when its
   * glossary file's parent path is a strictly longer string.
   */
  predicate Overrides(d: Def, prior: Option<Def>) {
    prior.None? || |prior.value.file.parentPath| < |d.file.parentPath|
  }

  /** `setDef`: walks `path` up to its end or first line feed, creating nodes, and applies the override rule there. */
  function InsertAt(f: Forest, path: string, d: Def): (Forest, bool)
    decreases |path|
  {
    if |path| == 0 || path[0] == '\n' then
      if Overrides(d, f.terminal) then (f.(terminal := Some(d)), true) else (f, false)
    else
      var child := if path[0] in f.children then f.children[path[0]] else Empty;
      var (c', changed) := InsertAt(child, path[1..], d);
      (f.(children := f.children[path[0] := c']), changed)
  }

  /** `set`: stores `d` under its key; the flag says whether the stored definition changed. */
  function Insert(f: Forest, d: Def): (Forest, bool) {
    InsertAt(f, d.key, d)
  }

  /** `get`: trims and lower-cases the query, then looks it up exactly. */
  function Get(f: Forest, key: string): Option<Def> {
    Lookup(f, LowerStr(Trim(key)))
  }

  /**
   * `get` ignores case and surrounding white space: a query answers as its
   * own normal form does, and a normal-form query is looked up as it is.
   */
  lemma GetNormalises(f: Forest, key: string)
    ensures Get(f, key) == Get(f, LowerStr(Trim(key)))
    ensures (IsTrimmed(key) && LowerStr(key) == key) ==> Get(f, key) == Lookup(f, key)
  {
    var n := LowerStr(Trim(key));
    TrimFixesTrimmed(key);
    TrimFixesTrimmed(Trim(key));
    LowerKeepsTrimmed(Trim(key));
    TrimFixesTrimmed(n);
    LowerStrTwice(Trim(key));
  }

  /**
   * `match`: follows the lower-cased characters of `text` from `ptr` through
   * the children as far as they exist and returns the terminal of the node
   * where the walk stops. There is no backtracking to a shorter key.
   */
  function Match(f: Forest, text: string, ptr: nat): Option<Def>
    decreases |text| - ptr
  {
    if ptr < |text| && Lower(text[ptr]) != '\n' && Lower(text[ptr]) in f.children then
      Match(f.children[Lower(text[ptr])], text, ptr + 1)
    else f.terminal
  }

  /** The number of characters the walk of `Match` consumes. */
  function MatchLen(f: Forest, text: string, ptr: nat): (n: nat)
    ensures ptr <= |text| ==> ptr + n <= |text|
    ensures ptr >= |text| ==> n == 0
    decreases |text| - ptr
  {
    if ptr < |text| && Lower(text[ptr]) != '\n' && Lower(text[ptr]) in f.children then
      1 + MatchLen(f.children[Lower(text[ptr])], text, ptr + 1)
    else 0
  }

  /** `clone`: a deep copy, node by node, sharing the stored definitions. */
  function Clone(f: Forest): (r: Forest)
    ensures r == f
  {
    Forest(map c | c in f.children :: Clone(f.children[c]), f.terminal)
  }

  /** `clear`: drops every child, and with them every stored definition. */
  function Clear(f: Forest): (r: Forest)
    ensures forall p :: Lookup(r, p).None?
  {
    Empty
  }

  /**
   * The shape every forest built by `Insert` has: no node has a line-feed
   * child, and the terminal reached by path `p` holds a definition whose key
   * is stored under `p`.
   */
  ghost predicate Valid(f: Forest, p: string) {
    && (f.terminal.Some? ==> Cut(f.terminal.value.key) == p)
    && forall c :: c in f.children ==> c != '\n' && Valid(f.children[c], p + [c])
  }

  // ---------------------------------------------------------------------------
  // Override rule and set/get
  // ---------------------------------------------------------------------------

  /**
   * Inserting changes the definition stored under `Cut(path)` exactly when the
   * override rule allows it, and changes nothing else a lookup can see; an
   * insert that reports no change leaves the trie as it was.
   */
  lemma {:induction false} InsertAtSpec(f: Forest, path: string, d: Def)
    ensures InsertAt(f, path, d).1 <==> Overrides(d, Lookup(f, Cut(path)))
    ensures Lookup(InsertAt(f, path, d).0, Cut(path))
         == if InsertAt(f, path, d).1 then Some(d) else Lookup(f, Cut(path))
    ensures !InsertAt(f, path, d).1 ==> InsertAt(f, path, d).0 == f
    decreases |path|
  {
    if |path| == 0 || path[0] == '\n' {
    } else {
      var c := path[0];
      var child := if c in f.children then f.children[c] else Empty;
      InsertAtSpec(child, path[1..], d);
      assert Cut(path) == [c] + Cut(path[1..]);
      assert Cut(path)[1..] == Cut(path[1..]);
      if c !in f.children {
        EmptyLookup(Cut(path[1..]));
      }
    }
  }

  lemma {:induction false} EmptyLookup(p: string)
    ensures Lookup(Empty, p) == None
  {
  }

  /** Inserting leaves the lookup of every other path unchanged. */
  lemma {:induction false} InsertAtOther(f: Forest, path: string, d: Def, q: string)
    requires q != Cut(path)
    ensures Lookup(InsertAt(f, path, d).0, q) == Lookup(f, q)
    decreases |path|
  {
    if |path| == 0 || path[0] == '\n' {
      assert |q| > 0;
    } else if |q| > 0 && q[0] == path[0] {
      var c := path[0];
      var child := if c in f.children then f.children[c] else Empty;
      assert Cut(path) == [c] + Cut(path[1..]);
      assert q == [c] + q[1..];
      InsertAtOther(child, path[1..], d, q[1..]);
      if c !in f.children {
        EmptyLookup(q[1..]);
      }
    }
  }

  /**
   * The override rule as `set` applies it: the definition goes in when the key
   * is free or the new definition's folder path is strictly longer, and the
   * stored definition is then `d`; otherwise the trie is unchanged and keeps a
   * definition whose folder path is at least as long.
   */
  lemma InsertOverride(f: Forest, d: Def)
    ensures var (r, changed) := Insert(f, d);
      && (changed <==> (Lookup(f, Cut(d.key)).None?
                        || |Lookup(f, Cut(d.key)).value.file.parentPath| < |d.file.parentPath|))
      && (changed ==> Lookup(r, Cut(d.key)) == Some(d))
      && (!changed ==> r == f && Lookup(f, Cut(d.key)).Some?
                       && |Lookup(f, Cut(d.key)).value.file.parentPath| >= |d.file.parentPath|)
      && (forall q :: q != Cut(d.key) ==> Lookup(r, q) == Lookup(f, q))
  {
    InsertAtSpec(f, d.key, d);
    forall q | q != Cut(d.key)
      ensures Lookup(Insert(f, d).0, q) == Lookup(f, q)
    {
      InsertAtOther(f, d.key, d, q);
    }
  }

  /** Equal folder-path lengths never override, whatever the paths are. */
  lemma EqualLengthsNeverOverride(f: Forest, d: Def)
    requires Lookup(f, Cut(d.key)).Some?
    requires |Lookup(f, Cut(d.key)).value.file.parentPath| == |d.file.parentPath|
    ensures Insert(f, d) == (f, false)
  {
    InsertAtSpec(f, d.key, d);
  }

  /**
   * Set then get: for a key already trimmed, lower-cased and free of line
   * feeds, `get(key)` after `set(d)` is `d` when the insert reported a change,
   * and otherwise the earlier definition, whose folder path is at least as long.
   */
  lemma SetThenGet(f: Forest, d: Def)
    requires '\n' !in d.key && d.key == LowerStr(Trim(d.key))
    ensures var (r, changed) := Insert(f, d);
      && Get(r, d.key).Some?
      && (changed ==> Get(r, d.key) == Some(d))
      && (!changed ==> Get(r, d.key) == Lookup(f, d.key)
                       && |Get(r, d.key).value.file.parentPath| >= |d.file.parentPath|)
  {
    InsertOverride(f, d);
  }

  /** The forest stores, under `d`'s key, a definition that `d` would not override. */
  predicate Holds(f: Forest, d: Def) {
    !Overrides(d, Lookup(f, Cut(d.key)))
  }

  /**
   * After `set(d)` the forest holds `d`; a definition the forest holds stays
   * held through every later `set`, since a stored folder path only ever
   * gets longer; and setting a definition the forest already holds changes
   * nothing.
   */
  lemma InsertHolds(f: Forest, d: Def, e: Def)
    ensures Holds(Insert(f, d).0, d)
    ensures Holds(f, e) ==> Holds(Insert(f, d).0, e)
    ensures Holds(f, d) ==> Insert(f, d) == (f, false)
  {
    InsertOverride(f, d);
  }

  // ---------------------------------------------------------------------------
  // Valid forests
  // ---------------------------------------------------------------------------

  lemma {:induction false} InsertAtValid(f: Forest, p: string, path: string, d: Def)
    requires Valid(f, p)
    requires Cut(d.key) == p + Cut(path)
    ensures Valid(InsertAt(f, path, d).0, p)
    decreases |path|
  {
    if |path| == 0 || path[0] == '\n' {
      assert p + Cut(path) == p;
    } else {
      var c := path[0];
      var child := if c in f.children then f.children[c] else Empty;
      assert Cut(path) == [c] + Cut(path[1..]);
      assert p + Cut(path) == (p + [c]) + Cut(path[1..]);
      if c !in f.children {
        EmptyValid(p + [c]);
      }
      InsertAtValid(child, p + [c], path[1..], d);
      var r := InsertAt(child, path[1..], d).0;
      var f' := InsertAt(f, path, d).0;
      assert f'.children == f.children[c := r];
      assert f'.terminal == f.terminal;
      forall k | k in f'.children
        ensures k != '\n' && Valid(f'.children[k], p + [k])
      {
        if k != c {
          assert f'.children[k] == f.children[k];
        }
      }
    }
  }

  /** A definition whose key is non-empty and does not start with a line feed is stored below the root, whose terminal stays as it was. */
  lemma InsertKeepsRoot(f: Forest, d: Def)
    requires |d.key| > 0 && d.key[0] != '\n'
    ensures Insert(f, d).0.terminal == f.terminal
    ensures Lookup(Insert(f, d).0, "") == Lookup(f, "")
  {
  }

  /** Every insert keeps a forest valid. */
  lemma InsertValid(f: Forest, d: Def)
    requires Valid(f, "")
    ensures Valid(Insert(f, d).0, "")
  {
    assert "" + Cut(d.key) == Cut(d.key);
    InsertAtValid(f, "", d.key, d);
  }

  /** The empty forest is valid, and a valid forest keeps under `p + q` only keys stored under `p + q`. */
  lemma EmptyValid(p: string)
    ensures Valid(Empty, p)
  {
  }

  lemma {:induction false} LookupValid(f: Forest, p: string, q: string)
    requires Valid(f, p)
    requires Lookup(f, q).Some?
    ensures Cut(Lookup(f, q).value.key) == p + q
    decreases |q|
  {
    if |q| == 0 {
      assert p + q == p;
    } else {
      assert p + q == (p + [q[0]]) + q[1..];
      LookupValid(f.children[q[0]], p + [q[0]], q[1..]);
    }
  }

  // ---------------------------------------------------------------------------
  // Matching
  // ---------------------------------------------------------------------------

  /** `match` returns the terminal of the node reached by the lower-cased text it walked. */
  lemma {:induction false} MatchIsLookup(f: Forest, text: string, ptr: nat)
    requires ptr <= |text|
    ensures Match(f, text, ptr) == Lookup(f, LowerStr(text[ptr..ptr + MatchLen(f, text, ptr)]))
    decreases |text| - ptr
  {
    var n := MatchLen(f, text, ptr);
    if ptr < |text| && Lower(text[ptr]) != '\n' && Lower(text[ptr]) in f.children {
      var c := Lower(text[ptr]);
      MatchIsLookup(f.children[c], text, ptr + 1);
      var w := LowerStr(text[ptr..ptr + n]);
      assert w[0] == c;
      assert w[1..] == LowerStr(text[ptr + 1..ptr + 1 + (n - 1)]);
    } else {
      assert LowerStr(text[ptr..ptr]) == "";
    }
  }

  /**
   * No stored key that is a prefix of the lower-cased text at `ptr` is longer
   * than the walk: `match` never stops short of a longer stored key.
   */
  lemma {:induction false} MatchWalksPastPrefixes(f: Forest, text: string, ptr: nat, q: string)
    requires ptr + |q| <= |text|
    requires Lookup(f, q).Some?
    requires q == LowerStr(text[ptr..ptr + |q|])
    ensures |q| <= MatchLen(f, text, ptr)
    decreases |q|
  {
    if |q| > 0 {
      assert q[0] == Lower(text[ptr]);
      assert q[1..] == LowerStr(text[ptr + 1..ptr + 1 + |q[1..]|]);
      MatchWalksPastPrefixes(f.children[q[0]], text, ptr + 1, q[1..]);
    }
  }

  /**
   * What `match` returns in a valid forest: nothing, or the definition whose
   * key (up to any line feed) is the lower-cased text of the walked length,
   * stored under that key, and at least as long as every stored key that is a
   * prefix of the lower-cased text. At the root, a walk of length zero returns
   * the definition stored under the empty key.
   */
  lemma MatchSound(f: Forest, text: string, ptr: nat)
    requires Valid(f, "")
    requires ptr <= |text|
    ensures var n := MatchLen(f, text, ptr);
      && (Match(f, text, ptr).Some? ==>
            && Cut(Match(f, text, ptr).value.key) == LowerStr(text[ptr..ptr + n])
            && Lookup(f, LowerStr(text[ptr..ptr + n])) == Match(f, text, ptr))
      && (forall q :: ptr + |q| <= |text| && Lookup(f, q).Some? && q == LowerStr(text[ptr..ptr + |q|]) ==> |q| <= n)
      && (n == 0 ==> Match(f, text, ptr) == f.terminal)
  {
    var n := MatchLen(f, text, ptr);
    MatchIsLookup(f, text, ptr);
    if Match(f, text, ptr).Some? {
      LookupValid(f, "", LowerStr(text[ptr..ptr + n]));
      assert "" + LowerStr(text[ptr..ptr + n]) == LowerStr(text[ptr..ptr + n]);
    }
    forall q | ptr + |q| <= |text| && Lookup(f, q).Some? && q == LowerStr(text[ptr..ptr + |q|])
      ensures |q| <= n
    {
      MatchWalksPastPrefixes(f, text, ptr, q);
    }
    if n == 0 {
      assert LowerStr(text[ptr..ptr]) == "";
    }
  }

  /** No stored definition's key holds a line feed. */
  ghost predicate KeysLineFree(f: Forest) {
    && (f.terminal.Some? ==> '\n' !in f.terminal.value.key)
    && forall c :: c in f.children ==> KeysLineFree(f.children[c])
  }

  /** `match` returns a definition stored in the trie, so one whose key holds no line feed. */
  lemma {:induction false} MatchLineFree(f: Forest, text: string, ptr: nat)
    requires KeysLineFree(f)
    ensures Match(f, text, ptr).Some? ==> '\n' !in Match(f, text, ptr).value.key
    decreases |text| - ptr
  {
    if ptr < |text| && Lower(text[ptr]) != '\n' && Lower(text[ptr]) in f.children {
      MatchLineFree(f.children[Lower(text[ptr])], text, ptr + 1);
    }
  }

  /**
   * With no key holding a line feed, the key `match` returns is exactly the
   * text it walked, so it fits in the text from the match position on.
   */
  lemma MatchKeyFits(f: Forest, text: string, ptr: nat)
    requires Valid(f, "") && KeysLineFree(f)
    requires ptr <= |text|
    ensures Match(f, text, ptr).Some? ==> |Match(f, text, ptr).value.key| == MatchLen(f, text, ptr)
    ensures Match(f, text, ptr).Some? ==> ptr + |Match(f, text, ptr).value.key| <= |text|
  {
    MatchSound(f, text, ptr);
    MatchLineFree(f, text, ptr);
  }

  /** A valid forest with nothing stored under the empty key only ever matches a non-empty key. */
  lemma MatchKeyNonEmpty(f: Forest, text: string, ptr: nat)
    requires Valid(f, "") && f.terminal.None?
    requires ptr <= |text|
    ensures Match(f, text, ptr).Some? ==> |Cut(Match(f, text, ptr).value.key)| >= 1
    ensures Match(f, text, ptr).Some? ==> |Match(f, text, ptr).value.key| >= 1
  {
    MatchSound(f, text, ptr);
  }

  /**
   * `match` does not backtrack: with keys `ab` and `abcd` stored, the text
   * `abcx` walks to the node for `abc`, which has no terminal, so the stored
   * prefix `ab` is missed.
   */
  lemma MatchDoesNotBacktrack(d1: Def, d2: Def)
    requires d1.key == "ab" && d2.key == "abcd"
    ensures var f := Insert(Insert(Empty, d1).0, d2).0;
      && Lookup(f, "ab") == Some(d1)
      && "ab" == LowerStr("abcx"[..2])
      && Match(f, "abcx", 0) == None
  {
    var f1 := Insert(Empty, d1).0;
    var f := Insert(f1, d2).0;
    assert Lookup(f, "ab") == Some(d1) by {
      InsertOverride(Empty, d1);
      EmptyLookup("ab");
      InsertOverride(f1, d2);
    }
    var leafD1 := Forest(map[], Some(d1));
    var fc := Forest(map['d' := Forest(map[], Some(d2))], None);
    assert f == Forest(map['a' := Forest(map['b' := Forest(map['c' := fc], Some(d1))], None)], None) by {
      assert f1 == Forest(map['a' := Forest(map['b' := leafD1], None)], None);
      assert "abcd"[1..] == "bcd" && "bcd"[1..] == "cd" && "cd"[1..] == "d" && "d"[1..] == "";
      assert InsertAt(Empty, "d", d2).0 == fc;
      assert InsertAt(leafD1, "cd", d2).0 == Forest(map['c' := fc], Some(d1));
      assert InsertAt(Forest(map['b' := leafD1], None), "bcd", d2).0
          == Forest(map['b' := Forest(map['c' := fc], Some(d1))], None);
    }
    assert Match(f, "abcx", 0) == Match(fc, "abcx", 3);
  }
}

=== FILE: live.dfy ===
/**
 * The editor decorator's scan (src/decor/live.ts, `LiveDecorator.scan`):
 * split a visible range into lines, search each line at its offset in the
 * document, sort the spans and keep the non-overlapping ones.
 */
module Live {
  import opened Types
  import opened Text
  import opened DefForest
  import opened Searcher
  import opened Sorting
  import opened Decor
  import Core

  /** The characters the lines take up, counting one separator after each line. */
  function Width(lines: seq<string>): nat
    decreases |lines|
  {
    if |lines| == 0 then 0 else |lines[0]| + 1 + Width(lines[1..])
  }

  /**
   * The offset at which line `k` is searched: `offset`, plus the length of
   * each earlier line and one separator character after it (one even where
   * the separator was `"\r\n"`).
   */
  function LineStart(lines: seq<string>, offset: int, k: nat): int
    requires k <= |lines|
  {
    offset + Width(lines[..k])
  }

  /** The spans of every line, each line searched from the offset after the previous one. */
  function ScanLines(f: Forest, lines: seq<string>, offset: int): seq<PhraseInfo>
    requires Valid(f, "") && f.terminal.None?
    decreases |lines|
  {
    if |lines| == 0 then [] else Find(f, lines[0], offset) + ScanLines(f, lines[1..], offset + |lines[0]| + 1)
  }

  /** Every span found starts at or after `offset` and is not empty. */
  lemma {:induction false} ScanLinesSpans(f: Forest, lines: seq<string>, offset: int)
    requires Valid(f, "") && f.terminal.None?
    ensures forall k :: 0 <= k < |ScanLines(f, lines, offset)| ==>
              offset <= ScanLines(f, lines, offset)[k].from < ScanLines(f, lines, offset)[k].to
    decreases |lines|
  {
    if |lines| > 0 {
      var here := Find(f, lines[0], offset);
      var rest := ScanLines(f, lines[1..], offset + |lines[0]| + 1);
      ScanLinesSpans(f, lines[1..], offset + |lines[0]| + 1);
      var r := here + rest;
      assert ScanLines(f, lines, offset) == r;
      forall k | 0 <= k < |r|
        ensures offset <= r[k].from < r[k].to
      {
        if k >= |here| {
          assert r[k] == rest[k - |here|];
        } else {
          assert r[k] == here[k];
        }
      }
    }
  }

  /**
   * Line `k` is searched at `LineStart(lines, offset, k)`: the spans of the
   * whole range are those of the lines before it, then its own, then those
   * of the lines after it.
   */
  lemma ScanLinesAt(f: Forest, lines: seq<string>, offset: int, k: nat)
    requires Valid(f, "") && f.terminal.None?
    requires k < |lines|
    ensures var at := LineStart(lines, offset, k);
      ScanLines(f, lines, offset)
      == ScanLines(f, lines[..k], offset) + Find(f, lines[k], at) + ScanLines(f, lines[k + 1..], at + |lines[k]| + 1)
  {
    var rest := lines[k..];
    assert lines == lines[..k] + rest;
    ScanLinesAppend(f, lines[..k], rest, offset);
    assert rest[0] == lines[k] && rest[1..] == lines[k + 1..];
    ScanLinesCons(f, rest, LineStart(lines, offset, k));
  }

  /** The spans of two runs of lines are those of the first, then those of the second from where the first ends. */
  lemma {:induction false} ScanLinesAppend(f: Forest, a: seq<string>, b: seq<string>, offset: int)
    requires Valid(f, "") && f.terminal.None?
    ensures ScanLines(f, a + b, offset) == ScanLines(f, a, offset) + ScanLines(f, b, offset + Width(a))
    decreases |a|
  {
    if |a| == 0 {
      assert a + b == b;
    } else {
      var next := offset + |a[0]| + 1;
      assert next + Width(a[1..]) == offset + Width(a);
      ScanLinesConsAppend(f, a, b, offset);
      ScanLinesCons(f, a, offset);
      ScanLinesAppend(f, a[1..], b, next);
      Regroup(ScanLines(f, a + b, offset), Find(f, a[0], offset), ScanLines(f, a[1..] + b, next),
              ScanLines(f, a[1..], next), ScanLines(f, b, offset + Width(a)), ScanLines(f, a, offset));
    }
  }

  lemma ScanLinesConsAppend(f: Forest, a: seq<string>, b: seq<string>, offset: int)
    requires Valid(f, "") && f.terminal.None?
    requires |a| > 0
    ensures ScanLines(f, a + b, offset) == Find(f, a[0], offset) + ScanLines(f, a[1..] + b, offset + |a[0]| + 1)
  {
    ConsAppend(a, b);
    ScanLinesCons(f, a + b, offset);
  }

  lemma ScanLinesCons(f: Forest, lines: seq<string>, offset: int)
    requires Valid(f, "") && f.terminal.None?
    requires |lines| > 0
    ensures ScanLines(f, lines, offset) == Find(f, lines[0], offset) + ScanLines(f, lines[1..], offset + |lines[0]| + 1)
  {
  }

  /** `scan`: nothing without a searcher; otherwise the kept spans of the sorted search results. */
  function Scan(content: string, offset: int, searcher: Option<Forest>): (r: seq<PhraseInfo>)
    requires searcher.Some? ==> Valid(searcher.value, "") && searcher.value.terminal.None?
    ensures searcher.None? ==> r == []
  {
    match searcher
    case None => []
    case Some(f) => Keep(SortSpans(ScanLines(f, SplitLines(content), offset)), 0)
  }

  /**
   * What `scan` returns with a searcher: a subsequence of the search results
   * sorted by `from` and then by `to` descending; its spans do not overlap,
   * so it is ordered as the binary search of the phrase under the cursor
   * needs; and, for a non-negative offset, every search result left out
   * starts inside a kept span that starts no later than it.
   */
  lemma ScanSpec(content: string, offset: int, f: Forest)
    requires Valid(f, "") && f.terminal.None?
    ensures var found := ScanLines(f, SplitLines(content), offset);
      var sorted := SortSpans(found);
      var r := Scan(content, offset, Some(f));
      && LexSortedBy(sorted, FromAsc, ToDesc)
      && multiset(sorted) == multiset(found)
      && IsSubseq(r, sorted)
      && Core.Ordered(r)
      && (offset >= 0 ==> forall k :: 0 <= k < |sorted| ==>
            sorted[k] in r || exists j :: 0 <= j < |r| && r[j].from <= sorted[k].from < r[j].to)
  {
    ScanLinesSpans(f, SplitLines(content), offset);
    KeptOfSorted(ScanLines(f, SplitLines(content), offset), offset);
  }

  /** The sorting and keeping of `scan`, for spans that start at or after `offset` and are not empty. */
  lemma KeptOfSorted(found: seq<PhraseInfo>, offset: int)
    requires forall k :: 0 <= k < |found| ==> offset <= found[k].from < found[k].to
    ensures var sorted := SortSpans(found);
      var r := Keep(sorted, 0);
      && LexSortedBy(sorted, FromAsc, ToDesc)
      && multiset(sorted) == multiset(found)
      && IsSubseq(r, sorted)
      && Core.Ordered(r)
      && (offset >= 0 ==> forall k :: 0 <= k < |sorted| ==>
            sorted[k] in r || exists j :: 0 <= j < |r| && r[j].from <= sorted[k].from < r[j].to)
  {
    var sorted := SortSpans(found);
    assert LexSortedBy(sorted, FromAsc, ToDesc) && multiset(sorted) == multiset(found) by {
      SortSpansSpec(found);
    }
    assert Ranges(sorted) && forall k :: 0 <= k < |sorted| ==> offset <= sorted[k].from by {
      SortSpansAll(found, (x: PhraseInfo) => offset <= x.from < x.to);
    }
    assert SortedBy(sorted, FromAsc);
    assert Core.Ordered(Keep(sorted, 0)) by {
      KeptOrdered(sorted, 0);
    }
    KeepMaximal(sorted, 0);
  }

  /** The kept spans of ranges are ordered. */
  lemma KeptOrdered(s: seq<PhraseInfo>, cursor: int)
    requires Ranges(s)
    ensures Core.Ordered(Keep(s, cursor))
  {
    var r := Keep(s, cursor);
    forall k | 0 <= k < |r|
      ensures r[k].from <= r[k].to
    {
      assert r[k] in s;
    }
  }
}

=== FILE: modal.dfy ===
/**
 * The editing dialogs (src/modal/utils.ts, src/modal/add-def-modal.ts,
 * src/modal/edit-def-modal.ts): rendering a definition as glossary lines,
 * appending a new block to a glossary file, and replacing an existing block.
 * The dialogs' form fields and the file reads and writes are parameters and
 * results here.
 */
module Modal {
  import opened Types
  import opened Text
  import opened Parser
  import opened DefFileMap

  /** The index of the last non-blank line before `i`, or -1. */
  function LastNonBlank(lines: seq<string>, i: nat): (r: int)
    requires i <= |lines|
    ensures -1 <= r < i
    ensures r >= 0 ==> !IsBlank(lines[r])
    ensures forall k :: r < k < i && k >= 0 ==> IsBlank(lines[k])
    decreases i
  {
    if i == 0 then -1
    else if !IsBlank(lines[i - 1]) then i - 1
    else LastNonBlank(lines, i - 1)
  }

  /**
   * `removeTrailingBlankNewlines`: drop the blank lines after the last
   * non-blank line. When every line is blank nothing is dropped.
   */
  function RemoveTrailingBlankLines(lines: seq<string>): (r: seq<string>)
    ensures |r| <= |lines| && r == lines[..|r|]
    ensures (exists j :: 0 <= j < |lines| && !IsBlank(lines[j])) ==>
              && |r| > 0
              && !IsBlank(r[|r| - 1])
              && forall k :: |r| <= k < |lines| ==> IsBlank(lines[k])
    ensures (forall j :: 0 <= j < |lines| ==> IsBlank(lines[j])) ==> r == lines
    ensures |lines| > 0 ==> |r| > 0
  {
    var n := LastNonBlank(lines, |lines|);
    if n < 0 then lines else lines[..n + 1]
  }

  /** `constructLinesFromDef`: a definition as the lines of a glossary block. */
  function ConstructLines(d: Def): (r: seq<string>)
    ensures |r| >= 4 && r[0] == "# " + d.word
    ensures |d.aliases| > 0 ==> |r| == 6 && r[1] == "" && r[2] == "*" + Join(d.aliases, ", ") + "*"
    ensures |d.aliases| == 0 ==> |r| == 4
    ensures r[|r| - 3] == "" && r[|r| - 2] == TrimEnd(d.contents) && r[|r| - 1] == ""
  {
    ["# " + d.word]
    + (if |d.aliases| > 0 then ["", "*" + Join(d.aliases, ", ") + "*"] else [])
    + ["", TrimEnd(d.contents), ""]
  }

  /** `updateFile` before joining: the lines before `from`, the new block, the lines after `to`. */
  function UpdateLines(fileLines: seq<string>, pos: Position, newDef: Def): (r: seq<string>)
    ensures 0 <= pos.from <= pos.to < |fileLines| ==>
              r == fileLines[..pos.from] + ConstructLines(newDef) + fileLines[pos.to + 1..]
  {
    Slice(fileLines, 0, pos.from) + ConstructLines(newDef) + Slice(fileLines, pos.to + 1, |fileLines|)
  }

  /** `updateFile`. */
  function UpdateFile(fileLines: seq<string>, pos: Position, newDef: Def): string {
    JoinLines(UpdateLines(fileLines, pos, newDef))
  }

  /** The comma-separated alias field of both dialogs: split on `,` and trim; an empty field is no aliases. */
  function AliasField(text: string): (r: seq<string>)
    ensures text == "" ==> r == []
    ensures text != "" ==> |r| == 1 + CountWhere(text, IsComma)
    ensures forall k :: 0 <= k < |r| ==> IsTrimmed(r[k])
  {
    if text == "" then []
    else
      SplitByCount(text, IsComma);
      var pieces := SplitBy(text, IsComma);
      forall k | 0 <= k < |pieces|
        ensures IsTrimmed(Trim(pieces[k]))
      {
        TrimFixesTrimmed(pieces[k]);
      }
      TrimEach(pieces)
  }

  predicate IsComma(c: char) {
    c == ','
  }

  /**
   * The save button of the add dialog: the definition it builds from the
   * phrase, alias and definition fields and the chosen scope, or `None` when
   * it shows a notice instead (an empty phrase or definition, no chosen
   * scope) or when the chosen scope is not in the offered registry.
   */
  function NewDefFromForm(phrase: string, aliasText: string, defText: string, picked: string, files: Registry): (r: Option<Def>)
    ensures r.Some? <==> phrase != "" && defText != "" && picked != "" && Get(files, picked).Some?
    ensures r.Some? ==>
              && r.value.word == phrase
              && r.value.key == LowerStr(phrase)
              && r.value.contents == defText
              && Get(files, picked) == Some(r.value.file)
              && r.value.linkText == r.value.file.path + "#" + phrase
              && r.value.aliases == AliasField(aliasText)
              && r.value.position.None?
  {
    if phrase == "" || defText == "" then None
    else if picked == "" then None
    else
      var file := Get(files, picked);
      if file.None? then None
      else Some(Def(
        LowerStr(phrase),
        phrase,
        AliasField(aliasText),
        defText,
        file.value,
        file.value.path + (if phrase != "" then "#" + phrase else ""),
        None))
  }

  /**
   * The lines `addDef` keeps of the old file: the old lines without trailing
   * blank lines, followed by an empty line and a separator unless the last
   * kept line already starts one.
   */
  function AddDefPrefix(fileLines: seq<string>): (r: seq<string>)
    requires |fileLines| > 0
    ensures |r| > 0 && IsEndOfBlock(r[|r| - 1])
    ensures RemoveTrailingBlankLines(fileLines) <= r
    ensures var kept := RemoveTrailingBlankLines(fileLines);
      && (r == kept || r == kept + ["", "---"])
      && (r == kept <==> StartsWith(kept[|kept| - 1], "---"))
  {
    var kept := RemoveTrailingBlankLines(fileLines);
    if !StartsWith(kept[|kept| - 1], "---") then kept + ["", "---"] else kept
  }

  /** `addDef`: the new text of the glossary file. */
  function AddDefText(text: string, newDef: Def): string {
    JoinLines(AddDefPrefix(SplitLines(text)) + ConstructLines(newDef))
  }

  /** The save button of the edit dialog: the edited definition keeps everything but its aliases and contents. */
  function EditedDef(d: Def, aliasText: string, defText: string): (r: Def)
    ensures r.aliases == AliasField(aliasText) && r.contents == defText
    ensures r.(aliases := d.aliases, contents := d.contents) == d
  {
    d.(aliases := AliasField(aliasText), contents := defText)
  }

  /** The first record with the given key (`Array.prototype.find`). */
  function FindByKey(defs: seq<Def>, key: string): (r: Option<Def>)
    ensures r.Some? ==> r.value in defs && r.value.key == key
    ensures r.None? <==> forall k :: 0 <= k < |defs| ==> defs[k].key != key
    ensures r.Some? ==> exists i :: 0 <= i < |defs| && defs[i] == r.value && forall j :: 0 <= j < i ==> defs[j].key != key
    decreases |defs|
  {
    if |defs| == 0 then None
    else if defs[0].key == key then Some(defs[0])
    else
      var r := FindByKey(defs[1..], key);
      assert forall k :: 1 <= k < |defs| ==> defs[k] == defs[1..][k - 1];
      if r.Some? then
        ghost var i :| 0 <= i < |defs[1..]| && defs[1..][i] == r.value && forall j :: 0 <= j < i ==> defs[1..][j].key != key;
        assert defs[i + 1] == r.value;
        r
      else r
  }

  /** The first record with a key, found among a text's records, is well formed with respect to that text's lines. */
  lemma FoundWellFormed(file: VaultFile, text: string, key: string)
    ensures var found := FindByKey(Parse(file, text), key);
      found.Some? ==> WellFormed(AsWritten, found.value, file, SplitLines(text))
  {
    var defs := Parse(file, text);
    var found := FindByKey(defs, key);
    if found.Some? {
      var i :| 0 <= i < |defs| && defs[i] == found.value;
      ParseWellFormed(file, text);
    }
  }

  /**
   * `editDef` on the text the parser reads: find the first record with the
   * edited key and replace the lines of its block by the rendered
   * definition. `None` means the file is left as it is.
   */
  function EditDefText(text: string, newDef: Def): (r: Option<string>)
    ensures r.None? <==> forall k :: 0 <= k < |Parse(newDef.file, text)| ==> Parse(newDef.file, text)[k].key != newDef.key
    ensures r.Some? ==> EditsBlock(text, newDef, FindByKey(Parse(newDef.file, text), newDef.key).value, r.value)
  {
    var found := FindByKey(Parse(newDef.file, text), newDef.key);
    FoundWellFormed(newDef.file, text, newDef.key);
    if found.None? || found.value.position.None? then None
    else Some(UpdateFile(SplitLines(text), found.value.position.value, newDef))
  }

  /**
   * `editDef` as written: the records come from the text after the front
   * matter (`fileParser.run()` reads through `build`), but their positions
   * are applied to the lines of the whole file (`vault.read`).
   */
  function EditDefFileAsWritten(text: string, fmEnd: Option<nat>, newDef: Def): Option<string> {
    var found := FindByKey(Build(newDef.file, text, fmEnd), newDef.key);
    if found.None? || found.value.position.None? then None
    else Some(UpdateFile(SplitLines(text), found.value.position.value, newDef))
  }

  /**
   * `editDef` as intended: the positions are applied to the text they were
   * computed from, and the front matter is kept in front of it.
   */
  function EditDefFile(text: string, fmEnd: Option<nat>, newDef: Def): Option<string> {
    var body := AfterFrontMatter(text, fmEnd);
    match EditDefText(body, newDef)
    case None => None
    case Some(t) => Some(text[..|text| - |body|] + t)
  }

  /** An example glossary file: front matter (`tags: x`) and then one block, `# a` with body `b`. */
  const ExampleBody: string := "# a" + "\n" + "b"
  const ExampleFrontMatter: string := "---" + "\n" + "tags: x" + "\n" + "---"
  const ExampleText: string := "---" + "\n" + ("tags: x" + "\n" + ("---" + "\n" + ExampleBody))

  /** The lines of the example file, and of the text after its front matter. */
  lemma FrontMatterExampleLines()
    ensures SplitLines(ExampleBody) == ["# a", "b"]
    ensures SplitLines(ExampleText) == ["---", "tags: x", "---", "# a", "b"]
  {
    SplitLinesCons("# a", "b");
    SplitLinesSingle("b");
    assert DropCR("# a") == "# a";
    SplitLinesCons("---", ExampleBody);
    assert DropCR("---") == "---";
    SplitLinesCons("tags: x", "---" + "\n" + ExampleBody);
    assert DropCR("tags: x") == "tags: x";
    SplitLinesCons("---", "tags: x" + "\n" + ("---" + "\n" + ExampleBody));
  }

  /** The parser's two steps over the example's block: the heading opens it, the body line starts its contents. */
  lemma FrontMatterExampleSteps(file: VaultFile)
    ensures Step(file, Start, "# a", 0) == ParseState(Buffer(Some("a"), [], None, Some(0), None), false, [])
    ensures Step(file, Step(file, Start, "# a", 0), "b", 1)
         == ParseState(Buffer(Some("a"), [], Some("b" + "\n"), Some(0), None), true, [])
  {
    assert ExtractWord("# a") == "a" by { ExtractWordOfHeading("# a"); }
    assert !IsEndOfBlock("# a") && IsDefWord("# a");
    assert !IsEndOfBlock("b") && !IsDefWord("b") && !IsDefAliases("b");
  }

  /** The text after the example's front matter holds one record, `a`, on lines 0 to 1. */
  lemma FrontMatterExampleParse(file: VaultFile)
    ensures Parse(file, ExampleBody) == [Def("a", "a", [], "b", file, file.path + "#a", Some(Position(0, 1)))]
  {
    FrontMatterExampleLines();
    FrontMatterExampleSteps(file);
    var lines := ["# a", "b"];
    var st2 := ParseState(Buffer(Some("a"), [], Some("b" + "\n"), Some(0), None), true, []);
    assert Run(file, lines, 0, Start) == st2 by {
      assert Run(file, lines, 2, st2) == st2;
      assert Run(file, lines, 1, Step(file, Start, "# a", 0)) == Run(file, lines, 2, st2);
    }
    var b := st2.buf.(to := Some(1));
    assert Trim("b" + "\n") == "b";
    assert LowerStr("a") == "a";
    assert "#" + "a" == "#a";
    assert BuildDef(b, file) == Def("a", "a", [], "b", file, file.path + "#a", Some(Position(0, 1)));
    assert AliasCopies(BuildDef(b, file), []) == [];
  }

  /**
   * A glossary file with front matter: the records are found in the text
   * after it, where the block `# a` starts at line 0, and the as-written edit
   * replaces lines 0 and 1 of the whole file, that is the front matter,
   * leaving the old block in place; the intended edit keeps the front matter
   * and replaces the block.
   */
  lemma EditDefFrontMatterCounterexample()
    ensures var file := VaultFile("g/concepts.md", "concepts.md", "g");
      var text := ExampleText;
      var d := Def("a", "a", [], "c", file, "g/concepts.md#a", None);
      && EditDefFileAsWritten(text, Some(15), d) == Some(JoinLines(ConstructLines(d) + ["---", "# a", "b"]))
      && EditDefFile(text, Some(15), d) == Some(ExampleFrontMatter + "\n" + JoinLines(ConstructLines(d)))
  {
    var file := VaultFile("g/concepts.md", "concepts.md", "g");
    var d := Def("a", "a", [], "c", file, "g/concepts.md#a", None);
    FrontMatterExampleAsWritten(d);
    FrontMatterExampleIntended(d);
  }

  /** The example's record `a` is found in the text after the front matter, on its lines 0 to 1. */
  lemma FrontMatterExampleFound(file: VaultFile)
    ensures AfterFrontMatter(ExampleText, Some(15)) == ExampleBody
    ensures ExampleText[..|ExampleText| - |ExampleBody|] == ExampleFrontMatter + "\n"
    ensures FindByKey(Build(file, ExampleText, Some(15)), "a")
         == Some(Def("a", "a", [], "b", file, file.path + "#a", Some(Position(0, 1))))
  {
    assert AfterFrontMatter(ExampleText, Some(15)) == ExampleBody;
    FrontMatterExampleParse(file);
  }

  /** Replacing a block on the first two lines keeps the lines after it. */
  lemma UpdateFirstBlock(lines: seq<string>, d: Def)
    requires |lines| >= 2
    ensures UpdateLines(lines, Position(0, 1), d) == ConstructLines(d) + lines[2..]
  {
    assert lines[..0] == [];
  }

  /** The as-written edit of the example splices into the lines of the whole file. */
  lemma FrontMatterExampleAsWritten(d: Def)
    requires d.key == "a"
    ensures EditDefFileAsWritten(ExampleText, Some(15), d) == Some(JoinLines(ConstructLines(d) + ["---", "# a", "b"]))
  {
    FrontMatterExampleFound(d.file);
    var full := SplitLines(ExampleText);
    assert full[2..] == ["---", "# a", "b"] by {
      FrontMatterExampleLines();
    }
    UpdateFirstBlock(full, d);
  }

  /** The intended edit of the example splices into the text after the front matter and keeps the front matter. */
  lemma FrontMatterExampleIntended(d: Def)
    requires d.key == "a"
    ensures EditDefFile(ExampleText, Some(15), d) == Some(ExampleFrontMatter + "\n" + JoinLines(ConstructLines(d)))
  {
    FrontMatterExampleFound(d.file);
    var lines := SplitLines(ExampleBody);
    assert |lines| == 2 && lines[2..] == [] by {
      FrontMatterExampleLines();
    }
    UpdateFirstBlock(lines, d);
    assert ConstructLines(d) + lines[2..] == ConstructLines(d);
  }

  /**
   * The intended `editDef` leaves the file alone exactly when no record has
   * the key; otherwise it keeps everything up to the end of the front matter
   * and replaces, in the rest, the block of the first record with the key.
   */
  lemma EditDefFileSpec(text: string, fmEnd: Option<nat>, newDef: Def)
    ensures var body := AfterFrontMatter(text, fmEnd);
      var defs := Build(newDef.file, text, fmEnd);
      var r := EditDefFile(text, fmEnd, newDef);
      && (r.None? <==> forall k :: 0 <= k < |defs| ==> defs[k].key != newDef.key)
      && (r.Some? ==> exists t :: r.value == text[..|text| - |body|] + t
                                 && EditsBlock(body, newDef, FindByKey(defs, newDef.key).value, t))
  {
  }

  /**
   * `result` is `text` with the lines of `prior`'s block, a range inside the
   * file that starts at its heading, replaced by the rendering of `newDef`.
   */
  predicate EditsBlock(text: string, newDef: Def, prior: Def, result: string) {
    var lines := SplitLines(text);
    && prior.position.Some?
    && 0 <= prior.position.value.from <= prior.position.value.to < |lines|
    && lines[prior.position.value.from] == "# " + prior.word
    && result == JoinLines(lines[..prior.position.value.from] + ConstructLines(newDef) + lines[prior.position.value.to + 1..])
  }
}

=== FILE: parser.dfy ===
/**
 * The glossary-file parser (src/core/parser/index.ts and
 * src/core/parser/types.ts): splits a glossary file into lines and turns
 * each block into one definition record plus one copy per alias.
 *
 * A block is a `# word` heading, optionally an alias line `*a, b*`, and body
 * text; blocks are separated by lines starting with `---`. The parser is a
 * line-by-line state machine over a buffer (`DefBuffer`).
 */
module Parser {
  import opened Types
  import opened Text

  /** `isEndOfBlock`: the line starts with `---`. */
  predicate IsEndOfBlock(line: string) {
    StartsWith(line, "---")
  }

  /** `istDefWord`: a heading line, starting with `"# "`. */
  predicate IsDefWord(line: string) {
    StartsWith(line, "# ")
  }

  /** `isDefAliases`: after trimming the end, the line starts and ends with `*` (a lone `*` does both). */
  predicate IsDefAliases(line: string) {
    var t := TrimEnd(line);
    StartsWith(t, "*") && EndsWith(t, "*")
  }

  predicate IsSpace(c: char) {
    c == ' '
  }

  /** `extractDefWord`: split on spaces and re-join everything after the first piece. */
  function ExtractWord(line: string): string {
    var pieces := SplitBy(line, IsSpace);
    if |pieces| <= 1 then "" else Join(pieces[1..], " ")
  }

  /** On a heading line the extracted word is everything after `"# "`. */
  lemma ExtractWordOfHeading(line: string)
    requires IsDefWord(line)
    ensures line == "# " + ExtractWord(line)
  {
    assert line == "#" + [' '] + line[2..];
    SplitByConcat("#", ' ', line[2..], IsSpace);
    JoinSplit(line[2..], IsSpace, ' ');
  }

  /** `replace(/\*+/g, "")`: every asterisk removed, everything else kept in order. */
  function RemoveStars(s: string): (r: string)
    ensures forall i :: 0 <= i < |r| ==> r[i] != '*'
    ensures (forall i :: 0 <= i < |s| ==> s[i] != '*') ==> r == s
    decreases |s|
  {
    if |s| == 0 then ""
    else (if s[0] == '*' then "" else [s[0]]) + RemoveStars(s[1..])
  }

  predicate IsAliasSep(c: char) {
    c == ',' || c == '|'
  }

  function TrimEach(pieces: seq<string>): (r: seq<string>)
    ensures |r| == |pieces|
    ensures forall k :: 0 <= k < |r| ==> r[k] == Trim(pieces[k])
  {
    seq(|pieces|, k requires 0 <= k < |pieces| => Trim(pieces[k]))
  }

  /**
   * `extractDefAliases` as written: drop trailing white space and every
   * asterisk, split on `,` and `|`, and trim each piece. Empty pieces are
   * kept, so `*`, `***` or `*a,*` yield the empty alias.
   */
  function ExtractAliasesAsWritten(line: string): (r: seq<string>)
    ensures |r| == 1 + CountWhere(RemoveStars(TrimEnd(line)), IsAliasSep)
    ensures forall k :: 0 <= k < |r| ==> IsTrimmed(r[k])
  {
    var pieces := SplitBy(RemoveStars(TrimEnd(line)), IsAliasSep);
    SplitByCount(RemoveStars(TrimEnd(line)), IsAliasSep);
    forall k | 0 <= k < |pieces|
      ensures IsTrimmed(Trim(pieces[k]))
    {
      TrimFixesTrimmed(pieces[k]);
    }
    TrimEach(pieces)
  }

  /** The non-empty pieces, in order. */
  function DropEmpty(pieces: seq<string>): (r: seq<string>)
    ensures |r| <= |pieces|
    ensures forall k :: 0 <= k < |r| ==> r[k] != ""
    ensures forall a :: a in r <==> a in pieces && a != ""
    ensures multiset(r) == multiset(pieces)["" := 0]
    ensures (forall k :: 0 <= k < |pieces| ==> pieces[k] != "") ==> r == pieces
    ensures (forall k :: 0 <= k < |pieces| ==> IsTrimmed(pieces[k])) ==> forall k :: 0 <= k < |r| ==> IsTrimmed(r[k])
  {
    if |pieces| == 0 then []
    else
      var head := if pieces[0] == "" then [] else [pieces[0]];
      assert multiset(head) == multiset([pieces[0]])["" := 0];
      assert multiset(pieces) == multiset([pieces[0]]) + multiset(pieces[1..]) by {
        assert pieces == [pieces[0]] + pieces[1..];
      }
      head + DropEmpty(pieces[1..])
  }

  /**
   * Dropping empty pieces keeps the order: it distributes over
   * concatenation and keeps a single non-empty piece (`DropEmptySingle`),
   * which together determine it on every list of pieces.
   */
  lemma {:induction false} DropEmptyAppend(a: seq<string>, b: seq<string>)
    ensures DropEmpty(a + b) == DropEmpty(a) + DropEmpty(b)
    decreases |a|
  {
    if |a| == 0 {
      assert a + b == b;
    } else {
      var head := if a[0] == "" then [] else [a[0]];
      assert (a + b)[0] == a[0] && (a + b)[1..] == a[1..] + b;
      var x, y := DropEmpty(a[1..]), DropEmpty(b);
      assert DropEmpty(a + b) == head + DropEmpty(a[1..] + b);
      assert DropEmpty(a[1..] + b) == x + y by { DropEmptyAppend(a[1..], b); }
      assert DropEmpty(a) == head + x;
      AppendAssoc(head, x, y);
    }
  }

  /** A single piece is kept exactly when it is non-empty. */
  lemma DropEmptySingle(p: string)
    ensures DropEmpty([p]) == if p == "" then [] else [p]
  {
    assert [p][1..] == [];
  }

  /** The aliases a block can register: non-empty and trimmed. */
  predicate AliasesOk(aliases: seq<string>) {
    forall k :: 0 <= k < |aliases| ==> aliases[k] != "" && IsTrimmed(aliases[k])
  }

  /**
   * `extractDefAliases` as intended: the trimmed pieces of the alias line,
   * empty ones dropped, so that no record is keyed by the empty string.
   */
  function ExtractAliases(line: string): (r: seq<string>)
    ensures AliasesOk(r)
    ensures forall a :: a in r <==> a in ExtractAliasesAsWritten(line) && a != ""
    ensures multiset(r) == multiset(ExtractAliasesAsWritten(line))["" := 0]
    ensures (forall k :: 0 <= k < |ExtractAliasesAsWritten(line)| ==> ExtractAliasesAsWritten(line)[k] != "") ==>
              r == ExtractAliasesAsWritten(line)
  {
    DropEmpty(ExtractAliasesAsWritten(line))
  }

  /** How alias lines are read: as `extractDefAliases` does, or with empty aliases dropped. */
  datatype Extraction = AsWritten | DropEmptyAliases

  /** The aliases a buffer may hold under an extraction: trimmed, and non-empty when empty ones are dropped. */
  predicate AliasesFit(x: Extraction, aliases: seq<string>) {
    forall k :: 0 <= k < |aliases| ==> IsTrimmed(aliases[k]) && (x == DropEmptyAliases ==> aliases[k] != "")
  }

  /** The aliases of an alias line under an extraction. */
  function Extract(x: Extraction, line: string): (r: seq<string>)
    ensures AliasesFit(x, r)
    ensures x == AsWritten ==> r == ExtractAliasesAsWritten(line)
    ensures x == DropEmptyAliases ==> r == ExtractAliases(line)
  {
    if x == AsWritten then ExtractAliasesAsWritten(line) else ExtractAliases(line)
  }

  /** The static `DefBuffer`: what the parser has collected for the current block. */
  datatype Buffer = Buffer(
    word: Option<string>,
    aliases: seq<string>,
    contents: Option<string>,
    from: Option<int>,
    to: Option<int>)

  /** `DefBuffer.clear`. */
  const Cleared := Buffer(None, [], None, None, None)

  function OrElse<T>(o: Option<T>, d: T): T {
    if o.Some? then o.value else d
  }

  /** A block counts only when it has a non-empty word (`valid`). */
  predicate Registers(b: Buffer) {
    b.word.Some? && b.word.value != ""
  }

  /** `DefBuffer.build`: the record for the block's word. */
  function BuildDef(b: Buffer, file: VaultFile): Def {
    var word := OrElse(b.word, "");
    Def(
      LowerStr(word),
      word,
      b.aliases,
      Trim(OrElse(b.contents, "")),
      file,
      file.path + (if word != "" then "#" + word else ""),
      Some(Position(OrElse(b.from, 0), OrElse(b.to, 0))))
  }

  /** One copy of `d` per alias, keyed by the lower-cased alias; everything else, the alias list included, is kept. */
  function AliasCopies(d: Def, aliases: seq<string>): (r: seq<Def>)
    ensures |r| == |aliases|
    ensures forall k :: 0 <= k < |r| ==> r[k] == d.(key := LowerStr(aliases[k]))
  {
    seq(|aliases|, k requires 0 <= k < |aliases| => d.(key := LowerStr(aliases[k])))
  }

  /** `DefBuffer.register`: the records a finished block contributes. */
  function Register(b: Buffer, file: VaultFile): (r: seq<Def>)
    ensures Registers(b) ==> |r| == 1 + |b.aliases| && r[0] == BuildDef(b, file)
    ensures Registers(b) ==> forall k :: 1 <= k < |r| ==> r[k] == r[0].(key := LowerStr(b.aliases[k - 1]))
    ensures !Registers(b) ==> r == []
  {
    if Registers(b) then
      var d := BuildDef(b, file);
      [d] + AliasCopies(d, b.aliases)
    else []
  }

  /** `DefBuffer.register` once the block's last line is known: the records the block contributes. */
  function Flush(b: Buffer, to: int, file: VaultFile): seq<Def> {
    Register(b.(to := Some(to)), file)
  }

  datatype ParseState = ParseState(buf: Buffer, inContents: bool, defs: seq<Def>)

  const Start := ParseState(Cleared, false, [])

  /** One iteration of the loop in `build`, for the line with index `idx`, reading alias lines with `x`. */
  function StepWith(x: Extraction, file: VaultFile, st: ParseState, line: string, idx: int): ParseState {
    if IsEndOfBlock(line) then
      ParseState(Cleared, false, st.defs + Flush(st.buf, idx - 1, file))
    else if st.inContents then
      st.(buf := st.buf.(contents := Some(OrElse(st.buf.contents, "") + line + "\n")))
    else if line == "" then
      st
    else if IsDefWord(line) then
      st.(buf := st.buf.(from := Some(idx), word := Some(ExtractWord(line))))
    else if IsDefAliases(line) then
      st.(buf := st.buf.(aliases := Extract(x, line)))
    else
      ParseState(st.buf.(contents := Some(line + "\n")), true, st.defs)
  }

  /** One iteration of the loop in `build` as written. */
  function Step(file: VaultFile, st: ParseState, line: string, idx: int): ParseState {
    StepWith(AsWritten, file, st, line, idx)
  }

  /** The loop of `build` from line `i` on, reading alias lines with `x`. */
  function RunWith(x: Extraction, file: VaultFile, lines: seq<string>, i: nat, st: ParseState): ParseState
    decreases |lines| - i
  {
    if i >= |lines| then st else RunWith(x, file, lines, i + 1, StepWith(x, file, st, lines[i], i))
  }

  /** The loop of `build` as written. */
  function Run(file: VaultFile, lines: seq<string>, i: nat, st: ParseState): ParseState {
    RunWith(AsWritten, file, lines, i, st)
  }

  /** `build` on the lines of a file: the loop, then the final block ending at the last line. */
  function ParseLinesWith(x: Extraction, file: VaultFile, lines: seq<string>): seq<Def> {
    var st := RunWith(x, file, lines, 0, Start);
    st.defs + Flush(st.buf, |lines| - 1, file)
  }

  /** `build` on the lines of a file, as written. */
  function ParseLines(file: VaultFile, lines: seq<string>): seq<Def> {
    ParseLinesWith(AsWritten, file, lines)
  }

  /** `build` on a file's text once front matter is removed. */
  function Parse(file: VaultFile, text: string): seq<Def> {
    ParseLines(file, SplitLines(text))
  }

  /** `build` as intended: empty aliases are dropped. */
  function ParseIntended(file: VaultFile, text: string): seq<Def> {
    ParseLinesWith(DropEmptyAliases, file, SplitLines(text))
  }

  /**
   * The text `build` parses: when the metadata cache reports front matter
   * ending at offset `fmEnd`, everything after the character that follows it
   * (`slice(fmEnd + 1)`, empty past the end).
   */
  function AfterFrontMatter(text: string, fmEnd: Option<nat>): (r: string)
    ensures |r| <= |text| && text == text[..|text| - |r|] + r
  {
    match fmEnd
    case None => text
    case Some(e) => if e + 1 <= |text| then text[e + 1..] else ""
  }

  /** `build(fileContent)`: front matter removed, then parsed. */
  function Build(file: VaultFile, text: string, fmEnd: Option<nat>): seq<Def> {
    Parse(file, AfterFrontMatter(text, fmEnd))
  }

  /**
   * What every record the parser emits satisfies, relative to the lines of
   * its file: a non-empty word, trimmed contents, a link to the word's
   * heading, a position whose first line is that heading and whose range
   * holds no separator, and a key that is the word or one of the aliases,
   * lower-cased.
   */
  predicate WellFormed(x: Extraction, d: Def, file: VaultFile, lines: seq<string>) {
    && d.file == file
    && |d.word| > 0
    && IsTrimmed(d.contents)
    && d.linkText == file.path + "#" + d.word
    && d.position.Some?
    && 0 <= d.position.value.from <= d.position.value.to < |lines|
    && lines[d.position.value.from] == "# " + d.word
    && (forall k :: d.position.value.from < k <= d.position.value.to ==> !IsEndOfBlock(lines[k]))
    && AliasesFit(x, d.aliases)
    && (d.key == LowerStr(d.word) || exists a :: a in d.aliases && d.key == LowerStr(a))
  }

  /** What holds of the buffer before the line with index `n` is read. */
  predicate BufInv(x: Extraction, st: ParseState, lines: seq<string>, n: int) {
    && st.buf.to.None?
    && AliasesFit(x, st.buf.aliases)
    && (st.inContents ==> st.buf.contents.Some?)
    && (st.buf.word.Some? ==>
          && st.buf.from.Some?
          && 0 <= st.buf.from.value < n
          && st.buf.from.value < |lines|
          && lines[st.buf.from.value] == "# " + st.buf.word.value
          && forall k :: st.buf.from.value < k < n && k < |lines| ==> !IsEndOfBlock(lines[k]))
  }

  predicate AllWellFormed(x: Extraction, defs: seq<Def>, file: VaultFile, lines: seq<string>) {
    forall k :: 0 <= k < |defs| ==> WellFormed(x, defs[k], file, lines)
  }

  /** The heading facts a buffer carries when its block is closed at line `to`. */
  predicate Closable(x: Extraction, b: Buffer, lines: seq<string>, to: int) {
    && AliasesFit(x, b.aliases)
    && (b.word.Some? ==>
          && b.from.Some? && 0 <= b.from.value <= to < |lines|
          && lines[b.from.value] == "# " + b.word.value
          && forall k :: b.from.value < k <= to ==> !IsEndOfBlock(lines[k]))
  }

  lemma BuildWellFormed(x: Extraction, b: Buffer, file: VaultFile, lines: seq<string>)
    requires Registers(b) && b.to.Some? && Closable(x, b, lines, b.to.value)
    ensures WellFormed(x, BuildDef(b, file), file, lines)
  {
    TrimFixesTrimmed(OrElse(b.contents, ""));
  }

  lemma CopyWellFormed(x: Extraction, d: Def, a: string, file: VaultFile, lines: seq<string>)
    requires WellFormed(x, d, file, lines) && a in d.aliases
    ensures WellFormed(x, d.(key := LowerStr(a)), file, lines)
  {
  }

  /** Closing a block whose heading is at or before `to` and whose lines after the heading hold no separator. */
  lemma RegisterWellFormed(x: Extraction, b: Buffer, file: VaultFile, lines: seq<string>, to: int)
    requires Closable(x, b, lines, to)
    ensures AllWellFormed(x, Flush(b, to, file), file, lines)
  {
    var b' := b.(to := Some(to));
    if Registers(b') {
      var d := BuildDef(b', file);
      assert WellFormed(x, d, file, lines) by {
        BuildWellFormed(x, b', file, lines);
      }
      assert Register(b', file) == [d] + AliasCopies(d, d.aliases);
      CopiesWellFormed(x, d, file, lines);
    }
  }

  /** A well-formed record and its copies under each of its aliases are all well formed. */
  lemma CopiesWellFormed(x: Extraction, d: Def, file: VaultFile, lines: seq<string>)
    requires WellFormed(x, d, file, lines)
    ensures AllWellFormed(x, [d] + AliasCopies(d, d.aliases), file, lines)
  {
    var r := [d] + AliasCopies(d, d.aliases);
    forall k | 0 <= k < |r|
      ensures WellFormed(x, r[k], file, lines)
    {
      if k > 0 {
        assert r[k] == d.(key := LowerStr(d.aliases[k - 1]));
        CopyWellFormed(x, d, d.aliases[k - 1], file, lines);
      }
    }
  }

  lemma AppendWellFormed(x: Extraction, defs: seq<Def>, r: seq<Def>, file: VaultFile, lines: seq<string>)
    requires AllWellFormed(x, defs, file, lines) && AllWellFormed(x, r, file, lines)
    ensures AllWellFormed(x, defs + r, file, lines)
  {
    forall k | 0 <= k < |defs + r|
      ensures WellFormed(x, (defs + r)[k], file, lines)
    {
      if k >= |defs| {
        assert (defs + r)[k] == r[k - |defs|];
      }
    }
  }

  lemma StepInv(x: Extraction, file: VaultFile, lines: seq<string>, i: nat, st: ParseState)
    requires i < |lines|
    requires BufInv(x, st, lines, i) && AllWellFormed(x, st.defs, file, lines)
    ensures BufInv(x, StepWith(x, file, st, lines[i], i), lines, i + 1)
    ensures AllWellFormed(x, StepWith(x, file, st, lines[i], i).defs, file, lines)
  {
    if IsEndOfBlock(lines[i]) {
      EndStepInv(x, file, lines, i, st);
    } else {
      assert StepWith(x, file, st, lines[i], i).defs == st.defs;
      BufStepInv(x, file, lines, i, st);
    }
  }

  /** A line other than a separator keeps the buffer invariant. */
  lemma BufStepInv(x: Extraction, file: VaultFile, lines: seq<string>, i: nat, st: ParseState)
    requires i < |lines| && !IsEndOfBlock(lines[i])
    requires BufInv(x, st, lines, i)
    ensures BufInv(x, StepWith(x, file, st, lines[i], i), lines, i + 1)
  {
    var line := lines[i];
    if st.inContents || line == "" {
    } else if IsDefWord(line) {
      assert line == "# " + ExtractWord(line) by {
        ExtractWordOfHeading(line);
      }
    } else if IsDefAliases(line) {
      assert StepWith(x, file, st, line, i).buf == st.buf.(aliases := Extract(x, line));
    }
  }

  /** A separator registers the buffer's records, which are well formed, and clears the buffer. */
  lemma EndStepInv(x: Extraction, file: VaultFile, lines: seq<string>, i: nat, st: ParseState)
    requires i < |lines| && IsEndOfBlock(lines[i])
    requires BufInv(x, st, lines, i) && AllWellFormed(x, st.defs, file, lines)
    ensures BufInv(x, StepWith(x, file, st, lines[i], i), lines, i + 1)
    ensures AllWellFormed(x, StepWith(x, file, st, lines[i], i).defs, file, lines)
  {
    var r := Flush(st.buf, i - 1, file);
    assert AllWellFormed(x, r, file, lines) by {
      assert Closable(x, st.buf, lines, i - 1);
      RegisterWellFormed(x, st.buf, file, lines, i - 1);
    }
    AppendWellFormed(x, st.defs, r, file, lines);
  }

  lemma {:induction false} RunInv(x: Extraction, file: VaultFile, lines: seq<string>, i: nat, st: ParseState)
    requires i <= |lines|
    requires BufInv(x, st, lines, i) && AllWellFormed(x, st.defs, file, lines)
    ensures BufInv(x, RunWith(x, file, lines, i, st), lines, |lines|)
    ensures AllWellFormed(x, RunWith(x, file, lines, i, st).defs, file, lines)
    decreases |lines| - i
  {
    if i < |lines| {
      StepInv(x, file, lines, i, st);
      RunInv(x, file, lines, i + 1, StepWith(x, file, st, lines[i], i));
    }
  }

  /** Every record the parser returns is well formed with respect to the file's lines. */
  lemma ParseLinesWellFormed(x: Extraction, file: VaultFile, lines: seq<string>)
    requires |lines| >= 1
    ensures AllWellFormed(x, ParseLinesWith(x, file, lines), file, lines)
  {
    RunInv(x, file, lines, 0, Start);
    var st := RunWith(x, file, lines, 0, Start);
    assert Closable(x, st.buf, lines, |lines| - 1);
    RegisterWellFormed(x, st.buf, file, lines, |lines| - 1);
    AppendWellFormed(x, st.defs, Flush(st.buf, |lines| - 1, file), file, lines);
  }

  /** Every record `build` returns on a file's text is well formed with respect to its lines. */
  lemma ParseWellFormed(file: VaultFile, text: string)
    ensures AllWellFormed(AsWritten, Parse(file, text), file, SplitLines(text))
  {
    ParseLinesWellFormed(AsWritten, file, SplitLines(text));
  }

  /**
   * With empty aliases dropped, every record has a non-empty key that does
   * not start with a line feed: the word comes from a heading line, which
   * holds no line feed, and every alias is non-empty and trimmed.
   */
  lemma ParseKeysNonEmpty(file: VaultFile, text: string)
    ensures forall k :: 0 <= k < |ParseIntended(file, text)| ==>
              |ParseIntended(file, text)[k].key| > 0 && ParseIntended(file, text)[k].key[0] != '\n'
  {
    var defs := ParseIntended(file, text);
    var lines := SplitLines(text);
    ParseLinesWellFormed(DropEmptyAliases, file, lines);
    SplitLinesNoNewline(text);
    forall k | 0 <= k < |defs|
      ensures |defs[k].key| > 0 && defs[k].key[0] != '\n'
    {
      var d := defs[k];
      assert WellFormed(DropEmptyAliases, d, file, lines);
      if d.key == LowerStr(d.word) {
        var line := lines[d.position.value.from];
        assert line[2] == d.word[0];
      } else {
        var a :| a in d.aliases && d.key == LowerStr(a);
        var i :| 0 <= i < |d.aliases| && d.aliases[i] == a;
        assert a != "" && IsTrimmed(a);
      }
    }
  }

  /** The alias line `*` is read as the single empty alias as written, and as no alias once empty ones are dropped. */
  lemma StarAliases()
    ensures IsDefAliases("*")
    ensures ExtractAliasesAsWritten("*") == [""]
    ensures ExtractAliases("*") == []
  {
    assert TrimEnd("*") == "*";
    assert RemoveStars("*") == "";
    assert SplitBy("", IsAliasSep) == [""];
  }

  /** The three steps over the block `# w`, `*`, `x` under an extraction: heading, alias line, body. */
  lemma EmptyAliasExampleSteps(x: Extraction, file: VaultFile)
    ensures StepWith(x, file, Start, "# w", 0) == ParseState(Buffer(Some("w"), [], None, Some(0), None), false, [])
    ensures StepWith(x, file, ParseState(Buffer(Some("w"), [], None, Some(0), None), false, []), "*", 1)
         == ParseState(Buffer(Some("w"), Extract(x, "*"), None, Some(0), None), false, [])
    ensures StepWith(x, file, ParseState(Buffer(Some("w"), Extract(x, "*"), None, Some(0), None), false, []), "x", 2)
         == ParseState(Buffer(Some("w"), Extract(x, "*"), Some("x" + "\n"), Some(0), None), true, [])
  {
    assert StepWith(x, file, Start, "# w", 0) == ParseState(Buffer(Some("w"), [], None, Some(0), None), false, []) by {
      assert ExtractWord("# w") == "w" by { ExtractWordOfHeading("# w"); }
      assert !IsEndOfBlock("# w") && IsDefWord("# w");
    }
    var st1 := ParseState(Buffer(Some("w"), [], None, Some(0), None), false, []);
    assert StepWith(x, file, st1, "*", 1) == ParseState(Buffer(Some("w"), Extract(x, "*"), None, Some(0), None), false, []) by {
      assert !IsEndOfBlock("*") && !IsDefWord("*") && IsDefAliases("*") by { StarAliases(); }
    }
    var st2 := ParseState(Buffer(Some("w"), Extract(x, "*"), None, Some(0), None), false, []);
    assert StepWith(x, file, st2, "x", 2) == ParseState(Buffer(Some("w"), Extract(x, "*"), Some("x" + "\n"), Some(0), None), true, []) by {
      assert !IsEndOfBlock("x") && !IsDefWord("x") && !IsDefAliases("x");
    }
  }

  /** The loop over the block `# w`, `*`, `x` under an extraction. */
  lemma EmptyAliasExampleRun(x: Extraction, file: VaultFile)
    ensures RunWith(x, file, ["# w", "*", "x"], 0, Start)
         == ParseState(Buffer(Some("w"), Extract(x, "*"), Some("x" + "\n"), Some(0), None), true, [])
  {
    var lines := ["# w", "*", "x"];
    var st1 := ParseState(Buffer(Some("w"), [], None, Some(0), None), false, []);
    var st2 := ParseState(Buffer(Some("w"), Extract(x, "*"), None, Some(0), None), false, []);
    var st3 := ParseState(Buffer(Some("w"), Extract(x, "*"), Some("x" + "\n"), Some(0), None), true, []);
    EmptyAliasExampleSteps(x, file);
    assert RunWith(x, file, lines, 3, st3) == st3;
    assert RunWith(x, file, lines, 2, st2) == RunWith(x, file, lines, 3, st3);
    assert RunWith(x, file, lines, 1, st1) == RunWith(x, file, lines, 2, st2);
    assert RunWith(x, file, lines, 0, Start) == RunWith(x, file, lines, 1, st1);
  }

  /** Closing the example block at line 2, with aliases `al`. */
  lemma EmptyAliasExampleFlush(file: VaultFile, al: seq<string>)
    ensures var d := Def("w", "w", al, "x", file, file.path + "#w", Some(Position(0, 2)));
      Flush(Buffer(Some("w"), al, Some("x" + "\n"), Some(0), None), 2, file) == [d] + AliasCopies(d, al)
  {
    var b := Buffer(Some("w"), al, Some("x" + "\n"), Some(0), Some(2));
    assert Registers(b);
    assert Trim("x" + "\n") == "x" by {
      var t := "x" + "\n";
      assert IsWhite(t[1]) && t[..1] == "x";
      assert TrimEnd(t) == TrimEnd("x") == "x";
      assert TrimStart("x") == "x";
    }
    assert LowerStr("w") == "w";
    assert "#" + "w" == "#w";
    assert BuildDef(b, file) == Def("w", "w", al, "x", file, file.path + "#w", Some(Position(0, 2)));
  }

  /**
   * The block `# w`, `*`, `x`: as written it yields the record for `w` and
   * a copy keyed by the empty string; with empty aliases dropped it yields
   * the record for `w` only.
   */
  lemma EmptyAliasExample(file: VaultFile)
    ensures var d := Def("w", "w", [""], "x", file, file.path + "#w", Some(Position(0, 2)));
      ParseLines(file, ["# w", "*", "x"]) == [d, d.(key := "")]
    ensures ParseLinesWith(DropEmptyAliases, file, ["# w", "*", "x"])
         == [Def("w", "w", [], "x", file, file.path + "#w", Some(Position(0, 2)))]
  {
    StarAliases();
    var d := Def("w", "w", [""], "x", file, file.path + "#w", Some(Position(0, 2)));
    assert ParseLines(file, ["# w", "*", "x"]) == [d, d.(key := "")] by {
      EmptyAliasExampleRun(AsWritten, file);
      EmptyAliasExampleFlush(file, [""]);
      assert AliasCopies(d, [""]) == [d.(key := LowerStr(""))];
    }
    assert ParseLinesWith(DropEmptyAliases, file, ["# w", "*", "x"]) == [d.(aliases := [])] by {
      EmptyAliasExampleRun(DropEmptyAliases, file);
      EmptyAliasExampleFlush(file, []);
    }
  }
}

=== FILE: read.dfy ===
/**
 * The reading-view decorator (src/decor/read.ts, `ReadDecorator.buildDecors`)
 * for one text node: the node's text is cut into plain pieces and marked
 * pieces, one marked piece per kept span, which the source appends to a
 * wrapper element that replaces the node. The element tree, the walk over
 * it and the elements themselves are not modelled; the pieces are.
 */
module Read {
  import opened Types
  import opened Text
  import opened DefForest
  import opened Searcher
  import opened Sorting
  import opened Decor

  /** Text appended as it is, or the text of a span wrapped in a decorated element for its key. */
  datatype Piece = Plain(text: string) | Marked(key: string, text: string)

  /**
   * The pieces the loop appends from `cursor` on, spans in the given order: a
   * span starting before the cursor is skipped; otherwise the text from the
   * cursor to the span's start and then the span's text are appended and the
   * cursor moves to the span's end; the text after the cursor comes last.
   */
  function Pieces(content: string, spans: seq<PhraseInfo>, cursor: int): seq<Piece>
    decreases |spans|
  {
    if |spans| == 0 then [Plain(Slice(content, cursor, |content|))]
    else if spans[0].from < cursor then Pieces(content, spans[1..], cursor)
    else
      [Plain(Slice(content, cursor, spans[0].from)), Marked(spans[0].key, Slice(content, spans[0].from, spans[0].to))]
      + Pieces(content, spans[1..], spans[0].to)
  }

  /** The text of the pieces one after another, as the wrapper element shows it. */
  function Flatten(pieces: seq<Piece>): string
    decreases |pieces|
  {
    if |pieces| == 0 then "" else pieces[0].text + Flatten(pieces[1..])
  }

  /** Only the marked pieces. */
  function MarkedOnly(pieces: seq<Piece>): seq<Piece>
    decreases |pieces|
  {
    if |pieces| == 0 then [] else MarkedHead(pieces[0]) + MarkedOnly(pieces[1..])
  }

  function MarkedHead(p: Piece): seq<Piece> {
    if p.Marked? then [p] else []
  }

  /** The marked piece for each span. */
  function MarkAll(content: string, spans: seq<PhraseInfo>): (r: seq<Piece>)
    ensures |r| == |spans|
    ensures forall k :: 0 <= k < |r| ==> r[k] == Marked(spans[k].key, Slice(content, spans[k].from, spans[k].to))
    decreases |spans|
  {
    if |spans| == 0 then []
    else [Marked(spans[0].key, Slice(content, spans[0].from, spans[0].to))] + MarkAll(content, spans[1..])
  }

  lemma {:induction false} FlattenAppend(a: seq<Piece>, b: seq<Piece>)
    ensures Flatten(a + b) == Flatten(a) + Flatten(b)
    decreases |a|
  {
    if |a| == 0 {
      assert a + b == b;
    } else {
      ConsAppend(a, b);
      assert Flatten(a + b) == a[0].text + Flatten(a[1..] + b);
      FlattenAppend(a[1..], b);
      Regroup(Flatten(a + b), a[0].text, Flatten(a[1..] + b), Flatten(a[1..]), Flatten(b), Flatten(a));
    }
  }

  lemma {:induction false} MarkedOnlyAppend(a: seq<Piece>, b: seq<Piece>)
    ensures MarkedOnly(a + b) == MarkedOnly(a) + MarkedOnly(b)
    decreases |a|
  {
    if |a| == 0 {
      assert a + b == b;
    } else {
      var h := MarkedHead(a[0]);
      ConsAppend(a, b);
      assert MarkedOnly(a + b) == h + MarkedOnly(a[1..] + b);
      MarkedOnlyAppend(a[1..], b);
      Regroup(MarkedOnly(a + b), h, MarkedOnly(a[1..] + b), MarkedOnly(a[1..]), MarkedOnly(b), MarkedOnly(a));
    }
  }

  lemma FlattenPair(x: string, key: string, y: string, rest: seq<Piece>)
    ensures Flatten([Plain(x), Marked(key, y)] + rest) == x + y + Flatten(rest)
  {
    var head := [Plain(x), Marked(key, y)];
    FlattenAppend(head, rest);
    assert head[1..][1..] == [];
    assert Flatten(head[1..]) == y + Flatten([]);
  }

  /** Every span lies within the text. */
  predicate InBounds(spans: seq<PhraseInfo>, content: string) {
    forall k :: 0 <= k < |spans| ==> 0 <= spans[k].from <= spans[k].to <= |content|
  }

  /**
   * Nothing is lost or repeated: when every span lies within the text, the
   * pieces from the cursor on spell out the text from the cursor on.
   */
  lemma {:induction false} PiecesSpellContent(content: string, spans: seq<PhraseInfo>, cursor: int)
    requires InBounds(spans, content)
    requires 0 <= cursor <= |content|
    ensures Flatten(Pieces(content, spans, cursor)) == content[cursor..]
    decreases |spans|
  {
    if |spans| == 0 {
      assert Flatten([Plain(content[cursor..])]) == content[cursor..] + Flatten([]);
    } else {
      var tail := spans[1..];
      assert InBounds(tail, content) by {
        assert forall k :: 0 <= k < |tail| ==> tail[k] == spans[k + 1];
      }
      if spans[0].from >= cursor {
        var s := spans[0];
        var rest := Pieces(content, tail, s.to);
        assert Pieces(content, spans, cursor) == [Plain(content[cursor..s.from]), Marked(s.key, content[s.from..s.to])] + rest;
        PiecesSpellContent(content, tail, s.to);
        FlattenPair(content[cursor..s.from], s.key, content[s.from..s.to], rest);
        assert content[cursor..s.from] + content[s.from..s.to] + content[s.to..] == content[cursor..];
      } else {
        PiecesSpellContent(content, tail, cursor);
      }
    }
  }

  /**
   * The marked pieces are those of the spans the greedy filter keeps, in
   * order: the same filter as the editor decorator's, so they do not
   * overlap, and each holds the text of its span.
   */
  lemma {:induction false} MarkedAreKept(content: string, spans: seq<PhraseInfo>, cursor: int)
    ensures MarkedOnly(Pieces(content, spans, cursor)) == MarkAll(content, Keep(spans, cursor))
    decreases |spans|
  {
    if |spans| == 0 {
      assert MarkedOnly([Plain(Slice(content, cursor, |content|))]) == [] + MarkedOnly([]);
    } else if spans[0].from >= cursor {
      var s := spans[0];
      var head := [Plain(Slice(content, cursor, s.from)), Marked(s.key, Slice(content, s.from, s.to))];
      var rest := Pieces(content, spans[1..], s.to);
      assert MarkedOnly(head + rest) == MarkedOnly(head) + MarkedOnly(rest) by {
        MarkedOnlyAppend(head, rest);
      }
      assert MarkedOnly(head) == [head[1]] by {
        assert head[1..][1..] == [];
        assert MarkedOnly(head[1..]) == [head[1]] + MarkedOnly([]);
        assert MarkedOnly(head) == [] + MarkedOnly(head[1..]);
      }
      MarkedAreKept(content, spans[1..], s.to);
      var kept := Keep(spans[1..], s.to);
      assert Keep(spans, cursor) == [s] + kept;
      assert MarkAll(content, [s] + kept) == [head[1]] + MarkAll(content, kept) by {
        assert ([s] + kept)[1..] == kept;
      }
    } else {
      MarkedAreKept(content, spans[1..], cursor);
    }
  }

  /**
   * The decoration of one text node: `None` when the node is left as it is
   * (an empty or `"\n"` text, or a text without matches), otherwise the
   * pieces of the sorted spans from position 0. When the spans lie within
   * the text, as they do when no stored key holds a line feed, the pieces
   * spell it out exactly.
   */
  function Decorate(content: string, f: Forest): (r: Option<seq<Piece>>)
    requires Valid(f, "") && f.terminal.None?
    ensures content == "" || content == "\n" || |Find(f, content, 0)| == 0 <==> r.None?
    ensures r.Some? ==> MarkedOnly(r.value) == MarkAll(content, Keep(SortSpans(Find(f, content, 0)), 0))
    ensures r.Some? && InBounds(Find(f, content, 0), content) ==> Flatten(r.value) == content
    ensures r.Some? && KeysLineFree(f) ==> Flatten(r.value) == content
  {
    if content == "" || content == "\n" then None
    else
      var spans := Find(f, content, 0);
      if |spans| == 0 then None
      else
        var sorted := SortSpans(spans);
        assert MarkedOnly(Pieces(content, sorted, 0)) == MarkAll(content, Keep(sorted, 0)) by {
          MarkedAreKept(content, sorted, 0);
        }
        assert KeysLineFree(f) ==> InBounds(spans, content) by {
          if KeysLineFree(f) {
            FindFromWithinLine(f, content, 0, 0);
          }
        }
        assert InBounds(spans, content) ==> Flatten(Pieces(content, sorted, 0)) == content by {
          if InBounds(spans, content) {
            SortSpansAll(spans, (x: PhraseInfo) => 0 <= x.from <= x.to <= |content|);
            PiecesSpellContent(content, sorted, 0);
          }
        }
        Some(Pieces(content, sorted, 0))
  }
}

=== FILE: roundtrip.dfy ===
/**
 * Rendering and parsing agree: a definition written out by
 * `constructLinesFromDef` (src/modal/utils.ts) parses back
 * (src/core/parser/index.ts) to the record for its word and one copy per
 * alias, with its word, aliases and trimmed contents; and appending a block
 * with `addDef` (src/modal/add-def-modal.ts) adds exactly those records after
 * the records of the old file.
 */
module RoundTrip {
  import opened Types
  import opened Text
  import opened Parser
  import opened Modal

  /** The records the parser emits for a block rendered from `d` whose heading is line `from` and whose last line is `to`. */
  function Records(d: Def, file: VaultFile, from: int, to: int): seq<Def> {
    var c := Def(LowerStr(d.word), d.word, d.aliases, Trim(d.contents), file, file.path + ("#" + d.word), Some(Position(from, to)));
    [c] + AliasCopies(c, d.aliases)
  }

  /** An alias the alias line can carry: non-empty, trimmed, without separators, asterisks or line feeds. */
  predicate AliasRenderable(a: string) {
    a != "" && IsTrimmed(a) && forall i :: 0 <= i < |a| ==> a[i] != ',' && a[i] != '|' && a[i] != '*' && a[i] != '\n'
  }

  function AliasLine(aliases: seq<string>): string {
    "*" + Join(aliases, ", ") + "*"
  }

  /** The lines of the rendered block before the body. */
  function HeaderLines(d: Def): seq<string> {
    ["# " + d.word] + (if |d.aliases| > 0 then ["", AliasLine(d.aliases)] else []) + [""]
  }

  /** The lines of the rendered body, the final empty line included. */
  function BodyLines(d: Def): seq<string> {
    SplitLines(TrimEnd(d.contents) + "\n")
  }

  /** Body lines the parser reads as contents: no separator, and the first non-empty one is neither a heading nor an alias line. */
  predicate BodyParsesAsContents(body: seq<string>) {
    forall k :: 0 <= k < |body| ==> ContentLine(body, k)
  }

  /** Line `k` of a body is not a separator, and if it is the first non-empty line it is neither a heading nor an alias line. */
  predicate ContentLine(body: seq<string>, k: int)
    requires 0 <= k < |body|
  {
    && !IsEndOfBlock(body[k])
    && (body[k] != "" && (forall j :: 0 <= j < k ==> body[j] == "") ==> !IsDefWord(body[k]) && !IsDefAliases(body[k]))
  }

  /** A word and aliases the header lines carry back to the parser. */
  predicate HeaderRenderable(d: Def) {
    d.word != "" && forall k :: 0 <= k < |d.aliases| ==> AliasRenderable(d.aliases[k])
  }

  /** A definition whose rendering the parser reads back as written. */
  predicate Renderable(d: Def) {
    && HeaderRenderable(d) && '\n' !in d.word && '\r' !in d.word
    && '\r' !in d.contents
    && BodyParsesAsContents(BodyLines(d))
  }

  lemma {:induction false} ConstructLinesSplit(d: Def)
    ensures ConstructLines(d) == HeaderLines(d) + [TrimEnd(d.contents), ""]
  {
  }

  /** Splitting the rendered text gives the header lines followed by the lines of the body. */
  lemma {:induction false} RenderedLines(d: Def)
    requires Renderable(d)
    ensures SplitLines(JoinLines(ConstructLines(d))) == HeaderLines(d) + BodyLines(d)
  {
    var h := HeaderLines(d);
    var t := TrimEnd(d.contents);
    ConstructLinesSplit(d);
    JoinAppend(h, [t, ""], "\n");
    assert JoinLines([t, ""]) == t + "\n";
    assert "# " + d.word == "#" + " " + d.word;
    assert '\n' !in "# " + d.word;
    if |d.aliases| > 0 {
      JoinKeeps(d.aliases, ", ", (c: char) => c != '\n');
      var line := AliasLine(d.aliases);
      assert line[|line| - 1] == '*';
      assert '\n' !in line by {
        var j := Join(d.aliases, ", ");
        forall i | 0 <= i < |line|
          ensures line[i] != '\n'
        {
          if 1 <= i < 1 + |j| {
            assert line[i] == j[i - 1];
          }
        }
      }
    }
    SplitLinesAppend(h, t + "\n");
  }

  lemma {:induction false} JoinedAliasesStarFree(aliases: seq<string>)
    requires forall k :: 0 <= k < |aliases| ==> AliasRenderable(aliases[k])
    ensures RemoveStars(Join(aliases, ", ")) == Join(aliases, ", ")
  {
    JoinKeeps(aliases, ", ", (c: char) => c != '*');
  }

  lemma {:induction false} AliasLineTrimmed(aliases: seq<string>)
    ensures TrimEnd(AliasLine(aliases)) == AliasLine(aliases)
    ensures IsDefAliases(AliasLine(aliases))
  {
    var line := AliasLine(aliases);
    assert line[|line| - 1] == '*';
    TrimEndOfTrimmed(line);
    assert line[..1] == "*";
    assert line[|line| - 1..] == "*";
  }

  lemma {:induction false} RemoveStarsOfAliasLine(j: string)
    requires RemoveStars(j) == j
    ensures RemoveStars("*" + j + "*") == j
  {
    RemoveStarsAppend("*", j + "*");
    RemoveStarsAppend(j, "*");
    assert "*" + j + "*" == "*" + (j + "*");
    assert RemoveStars("*") == "";
  }

  /** The alias line is recognised as one, and removing its asterisks leaves the joined aliases. */
  lemma {:induction false} AliasLineShape(aliases: seq<string>)
    requires forall k :: 0 <= k < |aliases| ==> AliasRenderable(aliases[k])
    ensures IsDefAliases(AliasLine(aliases))
    ensures RemoveStars(TrimEnd(AliasLine(aliases))) == Join(aliases, ", ")
  {
    AliasLineTrimmed(aliases);
    JoinedAliasesStarFree(aliases);
    RemoveStarsOfAliasLine(Join(aliases, ", "));
  }

  /** Reading the rendered alias line gives back the aliases. */
  lemma {:induction false} ExtractAliasesRoundTrip(aliases: seq<string>)
    requires |aliases| >= 1
    requires forall k :: 0 <= k < |aliases| ==> AliasRenderable(aliases[k])
    ensures IsDefAliases(AliasLine(aliases))
    ensures ExtractAliasesAsWritten(AliasLine(aliases)) == aliases
    ensures ExtractAliases(AliasLine(aliases)) == aliases
  {
    var j := Join(aliases, ", ");
    AliasLineShape(aliases);
    SplitJoinedAliases([], aliases);
    assert [] + j == j;
    TrimmedPieces(SplitBy(j, IsAliasSep), aliases);
  }

  /** Trimming the pieces of the split alias text leaves the aliases. */
  lemma {:induction false} TrimmedPieces(pieces: seq<string>, aliases: seq<string>)
    requires |pieces| == |aliases| >= 1
    requires pieces[0] == aliases[0] && forall k :: 1 <= k < |aliases| ==> pieces[k] == " " + aliases[k]
    requires forall k :: 0 <= k < |aliases| ==> IsTrimmed(aliases[k])
    ensures TrimEach(pieces) == aliases
  {
    forall k | 0 <= k < |aliases|
      ensures Trim(pieces[k]) == aliases[k]
    {
      TrimPiece(pieces[k], aliases[k]);
    }
    var r := TrimEach(pieces);
    assert |r| == |aliases|;
    assert forall k :: 0 <= k < |r| ==> r[k] == aliases[k];
  }

  lemma {:induction false} TrimPiece(p: string, a: string)
    requires IsTrimmed(a) && (p == a || p == " " + a)
    ensures Trim(p) == a
  {
    TrimFixesTrimmed(a);
    if p != a {
      TrimDropsWhitePrefix(" ", a);
    }
  }

  lemma {:induction false} RemoveStarsAppend(a: string, b: string)
    ensures RemoveStars(a + b) == RemoveStars(a) + RemoveStars(b)
    decreases |a|
  {
    if |a| > 0 {
      RemoveStarsAppend(a[1..], b);
      assert (a + b)[1..] == a[1..] + b;
    } else {
      assert a + b == b;
    }
  }

  /** Splitting `pre` followed by the aliases joined with `", "`: the pieces after the first keep the space. */
  lemma {:induction false} SplitJoinedAliases(pre: string, aliases: seq<string>)
    requires |aliases| >= 1
    requires forall i :: 0 <= i < |pre| ==> !IsAliasSep(pre[i])
    requires forall k :: 0 <= k < |aliases| ==> AliasRenderable(aliases[k])
    ensures |SplitBy(pre + Join(aliases, ", "), IsAliasSep)| == |aliases|
    ensures SplitBy(pre + Join(aliases, ", "), IsAliasSep)[0] == pre + aliases[0]
    ensures forall k :: 1 <= k < |aliases| ==> SplitBy(pre + Join(aliases, ", "), IsAliasSep)[k] == " " + aliases[k]
    decreases |aliases|
  {
    if |aliases| == 1 {
      SplitByNoSep(pre + aliases[0], IsAliasSep);
    } else {
      var rest := Join(aliases[1..], ", ");
      assert pre + Join(aliases, ", ") == (pre + aliases[0]) + [','] + (" " + rest);
      SplitByConcat(pre + aliases[0], ',', " " + rest, IsAliasSep);
      SplitJoinedAliases(" ", aliases[1..]);
    }
  }

  /** One iteration of the loop, whose outcome is known. */
  lemma {:induction false} RunStep(file: VaultFile, lines: seq<string>, i: nat, st: ParseState, st': ParseState)
    requires i < |lines| && Step(file, st, lines[i], i) == st'
    ensures Run(file, lines, i, st) == Run(file, lines, i + 1, st')
  {
  }

  /** An empty line outside a body changes nothing. */
  lemma {:induction false} EmptyRun(file: VaultFile, lines: seq<string>, i: nat, st: ParseState)
    requires i < |lines| && lines[i] == "" && !st.inContents
    ensures Run(file, lines, i, st) == Run(file, lines, i + 1, st)
  {
    RunStep(file, lines, i, st, st);
  }

  /** Empty lines outside a body are skipped. */
  lemma {:induction false} RunSkipsEmpty(file: VaultFile, lines: seq<string>, i: nat, j: nat, st: ParseState)
    requires i <= j <= |lines| && !st.inContents
    requires forall k :: i <= k < j ==> lines[k] == ""
    ensures Run(file, lines, i, st) == Run(file, lines, j, st)
    decreases j - i
  {
    if i < j {
      EmptyRun(file, lines, i, st);
      RunSkipsEmpty(file, lines, i + 1, j, st);
    }
  }

  /** Each line followed by a line feed. */
  function ConcatLines(lines: seq<string>): string
    decreases |lines|
  {
    if |lines| == 0 then "" else lines[0] + "\n" + ConcatLines(lines[1..])
  }

  lemma {:induction false} ConcatIsJoin(lines: seq<string>)
    requires |lines| >= 1
    ensures ConcatLines(lines) == JoinLines(lines) + "\n"
    decreases |lines|
  {
    if |lines| > 1 {
      ConcatIsJoin(lines[1..]);
    }
  }

  /** Inside a body every line up to the end is appended to the contents. */
  lemma {:induction false} RunBody(file: VaultFile, lines: seq<string>, i: nat, st: ParseState)
    requires i <= |lines| && st.inContents && st.buf.contents.Some?
    requires forall k :: i <= k < |lines| ==> !IsEndOfBlock(lines[k])
    ensures Run(file, lines, i, st) == st.(buf := st.buf.(contents := Some(st.buf.contents.value + ConcatLines(lines[i..]))))
    decreases |lines| - i
  {
    if i < |lines| {
      var st' := st.(buf := st.buf.(contents := Some(st.buf.contents.value + lines[i] + "\n")));
      RunStep(file, lines, i, st, st');
      RunBody(file, lines, i + 1, st');
      assert lines[i..][1..] == lines[i + 1..];
      assert ConcatLines(lines[i..]) == lines[i] + "\n" + ConcatLines(lines[i + 1..]);
      var c := st.buf.contents.value;
      assert c + lines[i] + "\n" + ConcatLines(lines[i + 1..]) == c + ConcatLines(lines[i..]);
    } else {
      assert st.buf.contents.value + "" == st.buf.contents.value;
    }
  }

  function Newlines(n: nat): string {
    seq(n, _ => '\n')
  }

  lemma {:induction false} JoinLinesEmptyPrefix(lines: seq<string>, k: nat)
    requires k < |lines| && forall j :: 0 <= j < k ==> lines[j] == ""
    ensures JoinLines(lines) == Newlines(k) + JoinLines(lines[k..])
    decreases k
  {
    if k > 0 {
      JoinLinesEmptyPrefix(lines[1..], k - 1);
      assert lines[1..][k - 1..] == lines[k..];
      assert Newlines(k) == "\n" + Newlines(k - 1);
    }
  }

  /** `trim` sees only what `trimEnd` keeps, whatever white space follows. */
  lemma {:induction false} TrimOfTrimEnd(s: string, post: string)
    requires IsBlank(post)
    ensures Trim(s) == Trim(TrimEnd(s) + post)
  {
    var t := TrimEnd(s);
    var tail := s[|t|..];
    assert IsBlank(tail) by {
      forall i | 0 <= i < |tail|
        ensures IsWhite(tail[i])
      {
        assert tail[i] == s[|t| + i];
      }
    }
    assert s == t + tail;
    TrimDropsWhiteSuffix(t, tail);
    TrimDropsWhiteSuffix(t, post);
  }

  /** The rendered body lines, joined again, trim to the trimmed contents of the definition. */
  lemma {:induction false} BodyTrims(d: Def)
    requires '\r' !in d.contents
    ensures Trim(JoinLines(BodyLines(d))) == Trim(d.contents)
  {
    var t := TrimEnd(d.contents);
    assert '\r' !in t + "\n" by {
      assert forall i :: 0 <= i < |t| ==> t[i] == d.contents[i];
    }
    JoinLinesSplit(t + "\n");
    TrimOfTrimEnd(d.contents, "\n");
  }

  /** Leading empty lines do not change what the collected lines trim to. */
  lemma {:induction false} TrimOfLinesFrom(b: seq<string>, k: nat)
    requires k < |b| && forall j :: 0 <= j < k ==> b[j] == ""
    ensures Trim(ConcatLines(b[k..])) == Trim(JoinLines(b))
  {
    var x := JoinLines(b[k..]);
    assert JoinLines(b) == Newlines(k) + x by {
      JoinLinesEmptyPrefix(b, k);
    }
    assert Trim(ConcatLines(b[k..])) == Trim(x) by {
      ConcatIsJoin(b[k..]);
      TrimDropsWhiteSuffix(x, "\n");
    }
    TrimDropsWhitePrefix(Newlines(k), x);
  }

  /** Empty lines joined trim to nothing. */
  lemma {:induction false} EmptyLinesTrim(b: seq<string>)
    requires forall j :: 0 <= j < |b| ==> b[j] == ""
    ensures Trim(JoinLines(b)) == ""
  {
    assert |TrimEnd("")| == 0 && Trim("") == "";
    if |b| > 0 {
      JoinLinesEmptyPrefix(b, |b| - 1);
      assert b[|b| - 1..] == [""];
      var n := Newlines(|b| - 1);
      assert JoinLines(b) == n + "";
      TrimDropsWhitePrefix(n, "");
    }
  }

  /** A heading outside a body sets the word and the first line of the block. */
  lemma {:induction false} HeadingStep(file: VaultFile, st: ParseState, word: string, i: int)
    requires !st.inContents
    ensures Step(file, st, "# " + word, i) == st.(buf := st.buf.(from := Some(i), word := Some(word)))
  {
    var heading := "# " + word;
    assert heading[0] == '#' && heading[1] == ' ';
    ExtractWordOfHeading(heading);
    assert heading[2..] == word;
  }

  /** The rendered alias line outside a body sets the aliases. */
  lemma {:induction false} AliasStep(file: VaultFile, st: ParseState, aliases: seq<string>, i: int)
    requires !st.inContents
    requires |aliases| >= 1 && forall k :: 0 <= k < |aliases| ==> AliasRenderable(aliases[k])
    ensures Step(file, st, AliasLine(aliases), i) == st.(buf := st.buf.(aliases := aliases))
  {
    AliasLineNotOther(aliases);
    ExtractAliasesRoundTrip(aliases);
  }

  /** The alias line is neither empty, nor a separator, nor a heading. */
  lemma {:induction false} AliasLineNotOther(aliases: seq<string>)
    ensures var line := AliasLine(aliases); line != "" && !IsEndOfBlock(line) && !IsDefWord(line)
  {
    var line := AliasLine(aliases);
    assert line[0] == '*';
  }

  /** The header of a rendered block fills the buffer with the word, its line and the aliases. */
  lemma {:induction false} RunHeader(file: VaultFile, lines: seq<string>, i: nat, defs: seq<Def>, d: Def)
    requires forall k :: 0 <= k < |d.aliases| ==> AliasRenderable(d.aliases[k])
    requires i + |HeaderLines(d)| <= |lines| && lines[i..i + |HeaderLines(d)|] == HeaderLines(d)
    ensures Run(file, lines, i, ParseState(Cleared, false, defs))
         == Run(file, lines, i + |HeaderLines(d)|, ParseState(Buffer(Some(d.word), d.aliases, None, Some(i), None), false, defs))
  {
    var h := HeaderLines(d);
    var st0 := ParseState(Cleared, false, defs);
    var st1 := ParseState(Buffer(Some(d.word), [], None, Some(i), None), false, defs);
    assert Run(file, lines, i, st0) == Run(file, lines, i + 1, st1) by {
      assert lines[i] == "# " + d.word by {
        assert lines[i..i + |h|][0] == lines[i];
      }
      HeadingStep(file, st0, d.word, i);
      RunStep(file, lines, i, st0, st1);
    }
    if |d.aliases| > 0 {
      assert lines[i + 1] == "" && lines[i + 2] == AliasLine(d.aliases) && lines[i + 3] == "" by {
        assert h == ["# " + d.word, "", AliasLine(d.aliases), ""];
        assert lines[i..i + |h|][1] == lines[i + 1];
        assert lines[i..i + |h|][2] == lines[i + 2];
        assert lines[i..i + |h|][3] == lines[i + 3];
      }
      RunAliasLines(file, lines, i + 1, st1, d.aliases);
    } else {
      assert lines[i + 1] == "" by {
        assert h == ["# " + d.word, ""];
        assert lines[i..i + |h|][1] == lines[i + 1];
      }
      EmptyRun(file, lines, i + 1, st1);
    }
  }

  /** The empty line, alias line and empty line of a rendered header set the aliases. */
  lemma {:induction false} RunAliasLines(file: VaultFile, lines: seq<string>, i: nat, st: ParseState, aliases: seq<string>)
    requires !st.inContents
    requires |aliases| >= 1 && forall k :: 0 <= k < |aliases| ==> AliasRenderable(aliases[k])
    requires i + 3 <= |lines| && lines[i] == "" && lines[i + 1] == AliasLine(aliases) && lines[i + 2] == ""
    ensures Run(file, lines, i, st) == Run(file, lines, i + 3, st.(buf := st.buf.(aliases := aliases)))
  {
    var st2 := st.(buf := st.buf.(aliases := aliases));
    EmptyRun(file, lines, i, st);
    AliasStep(file, st, aliases, i + 1);
    RunStep(file, lines, i + 1, st, st2);
    EmptyRun(file, lines, i + 2, st2);
  }

  /**
   * A block rendered from `d`'s header and the body lines `b`, starting at
   * line `i` right after a separator (or at the start of the file) and
   * running to the end of the file, adds no record during the loop and
   * leaves in the buffer exactly the records of `d` with the body lines as
   * its contents.
   */
  lemma {:induction false} RunBlock(file: VaultFile, lines: seq<string>, i: nat, defs: seq<Def>, d: Def, b: seq<string>, last: ParseState)
    requires HeaderRenderable(d) && BodyParsesAsContents(b) && Trim(JoinLines(b)) == Trim(d.contents)
    requires i <= |lines| && lines[i..] == HeaderLines(d) + b
    requires last == Run(file, lines, i, ParseState(Cleared, false, defs))
    ensures last.defs == defs
    ensures Flush(last.buf, |lines| - 1, file) == Records(d, file, i, |lines| - 1)
  {
    BlockState(file, lines, i, defs, d, b);
    FinishedBlock(last, defs, d, JoinLines(b), file, i, |lines| - 1);
  }

  /** The buffer after a block: `d`'s word, aliases and first line, and contents that trim like the body lines joined. */
  lemma {:induction false} BlockState(file: VaultFile, lines: seq<string>, i: nat, defs: seq<Def>, d: Def, b: seq<string>)
    requires HeaderRenderable(d) && BodyParsesAsContents(b)
    requires i <= |lines| && lines[i..] == HeaderLines(d) + b
    ensures BodyRead(Run(file, lines, i, ParseState(Cleared, false, defs)),
                     ParseState(Buffer(Some(d.word), d.aliases, None, Some(i), None), false, defs), JoinLines(b))
  {
    var m := i + |HeaderLines(d)|;
    var sth := ParseState(Buffer(Some(d.word), d.aliases, None, Some(i), None), false, defs);
    BlockSplit(lines, i, HeaderLines(d), b);
    RunHeader(file, lines, i, defs, d);
    RunRenderedBody(file, lines, m, sth, b);
  }

  /** A state that read a block's header and body registers the block's records. */
  lemma {:induction false} FinishedBlock(r: ParseState, defs: seq<Def>, d: Def, text: string, file: VaultFile, from: int, to: int)
    requires d.word != "" && Trim(text) == Trim(d.contents)
    requires BodyRead(r, ParseState(Buffer(Some(d.word), d.aliases, None, Some(from), None), false, defs), text)
    ensures r.defs == defs
    ensures Flush(r.buf, to, file) == Records(d, file, from, to)
  {
    assert r.buf.word == Some(d.word) && r.buf.aliases == d.aliases && r.buf.from == Some(from) by {
      assert r.buf.(contents := None) == Buffer(Some(d.word), d.aliases, None, Some(from), None);
    }
    RegisterRecords(r.buf, d, file, from, to);
  }

  /** Lines from `i` on that are `h` followed by `b`: `h` first, then `b`. */
  lemma {:induction false} BlockSplit(lines: seq<string>, i: nat, h: seq<string>, b: seq<string>)
    requires i <= |lines| && lines[i..] == h + b
    ensures i + |h| <= |lines| && lines[i..i + |h|] == h && lines[i + |h|..] == b
  {
    assert lines[i..i + |h|] == lines[i..][..|h|];
    assert lines[i + |h|..] == lines[i..][|h|..];
  }

  /** A finished buffer holding `d`'s word, aliases and first line, and contents that trim like `d`'s, registers `d`'s records. */
  lemma {:induction false} RegisterRecords(b: Buffer, d: Def, file: VaultFile, from: int, to: int)
    requires d.word != ""
    requires b.word == Some(d.word) && b.aliases == d.aliases && b.from == Some(from)
    requires Trim(OrElse(b.contents, "")) == Trim(d.contents)
    ensures Flush(b, to, file) == Records(d, file, from, to)
  {
    var b' := b.(to := Some(to));
    var c := BuildDef(b', file);
    assert Register(b', file) == [c] + AliasCopies(c, d.aliases);
    BuildRecord(b', d, file, from, to);
  }

  lemma {:induction false} BuildRecord(b: Buffer, d: Def, file: VaultFile, from: int, to: int)
    requires d.word != ""
    requires b.word == Some(d.word) && b.aliases == d.aliases && b.from == Some(from) && b.to == Some(to)
    requires Trim(OrElse(b.contents, "")) == Trim(d.contents)
    ensures BuildDef(b, file) == Def(LowerStr(d.word), d.word, d.aliases, Trim(d.contents), file, file.path + ("#" + d.word), Some(Position(from, to)))
  {
  }

  /** After a body: the records and the rest of the buffer are as before, and the contents trim like `text`. */
  predicate BodyRead(r: ParseState, st: ParseState, text: string) {
    && r.defs == st.defs
    && r.buf.(contents := None) == st.buf
    && Trim(OrElse(r.buf.contents, "")) == Trim(text)
  }

  /**
   * The body lines `b`, from line `m` to the end of the file, put into the
   * buffer contents that trim like the lines joined, and touch nothing else.
   */
  lemma {:induction false} RunRenderedBody(file: VaultFile, lines: seq<string>, m: nat, st: ParseState, b: seq<string>)
    requires BodyParsesAsContents(b) && !st.inContents && st.buf.contents.None?
    requires m <= |lines| && lines[m..] == b
    ensures BodyRead(Run(file, lines, m, st), st, JoinLines(b))
  {
    var k := FirstNonEmpty(b);
    if k < |b| {
      SkipLeadingEmpty(file, lines, m, st, b, k);
      RunFirstContentLine(file, lines, m + k, st, b, k);
    } else {
      EmptyRenderedBody(file, lines, m, st, b);
      assert |TrimEnd("")| == 0 && Trim("") == "";
    }
  }

  /** The index of the first non-empty line, or the number of lines when all are empty. */
  function FirstNonEmpty(b: seq<string>): (k: nat)
    ensures k <= |b|
    ensures forall j :: 0 <= j < k ==> b[j] == ""
    ensures k < |b| ==> b[k] != ""
    decreases |b|
  {
    if |b| == 0 then 0
    else if b[0] != "" then 0
    else
      var k := FirstNonEmpty(b[1..]);
      assert forall j :: 1 <= j < k + 1 ==> b[j] == b[1..][j - 1];
      k + 1
  }

  /** The empty body lines before line `k` of the body are skipped. */
  lemma {:induction false} SkipLeadingEmpty(file: VaultFile, lines: seq<string>, m: nat, st: ParseState, b: seq<string>, k: nat)
    requires !st.inContents
    requires m <= |lines| && lines[m..] == b
    requires k <= |b| && forall j :: 0 <= j < k ==> b[j] == ""
    ensures Run(file, lines, m, st) == Run(file, lines, m + k, st)
  {
    forall j | m <= j < m + k
      ensures lines[j] == ""
    {
      assert lines[m..][j - m] == lines[j];
    }
    RunSkipsEmpty(file, lines, m, m + k, st);
  }

  /** Empty body lines leave the state as it is, and join to text that trims to nothing. */
  lemma {:induction false} EmptyRenderedBody(file: VaultFile, lines: seq<string>, m: nat, st: ParseState, b: seq<string>)
    requires !st.inContents
    requires m <= |lines| && lines[m..] == b
    requires forall j :: 0 <= j < |b| ==> b[j] == ""
    ensures Run(file, lines, m, st) == st && Trim(JoinLines(b)) == ""
  {
    forall j | m <= j < |lines|
      ensures lines[j] == ""
    {
      assert lines[m..][j - m] == lines[j];
    }
    RunSkipsEmpty(file, lines, m, |lines|, st);
    EmptyLinesTrim(b);
  }

  /** From the first non-empty body line on, every line goes into the contents. */
  lemma {:induction false} RunFirstContentLine(file: VaultFile, lines: seq<string>, n: nat, st: ParseState, b: seq<string>, k: nat)
    requires BodyParsesAsContents(b) && !st.inContents && st.buf.contents.None?
    requires k <= n < |lines| && lines[n - k..] == b
    requires b[k] != "" && forall j :: 0 <= j < k ==> b[j] == ""
    ensures BodyRead(Run(file, lines, n, st), st, JoinLines(b))
  {
    assert lines[n..] == b[k..] by {
      assert lines[n..] == lines[n - k..][k..];
    }
    var line := lines[n];
    var stc := ParseState(st.buf.(contents := Some(line + "\n")), true, st.defs);
    assert Run(file, lines, n, st) == Run(file, lines, n + 1, stc) by {
      assert line == b[k] && ContentLine(b, k);
      RunStep(file, lines, n, st, stc);
    }
    assert Run(file, lines, n + 1, stc) == stc.(buf := stc.buf.(contents := Some(ConcatLines(b[k..])))) by {
      assert forall j :: n + 1 <= j < |lines| ==> !IsEndOfBlock(lines[j]) by {
        forall j | n + 1 <= j < |lines|
          ensures !IsEndOfBlock(lines[j])
        {
          assert lines[j] == b[k..][j - n] == b[k + j - n];
          assert ContentLine(b, k + j - n);
        }
      }
      RunBody(file, lines, n + 1, stc);
      assert lines[n + 1..] == b[k + 1..] by {
        assert lines[n + 1..] == lines[n..][1..];
      }
      assert line + "\n" + ConcatLines(b[k + 1..]) == ConcatLines(b[k..]) by {
        assert b[k..][1..] == b[k + 1..];
      }
    }
    TrimOfLinesFrom(b, k);
  }

  /**
   * The parse of a rendered definition is the record for its word, with its
   * aliases and trimmed contents, followed by one copy per alias.
   */
  lemma {:induction false} ParseRendered(file: VaultFile, d: Def)
    requires Renderable(d)
    ensures Parse(file, JoinLines(ConstructLines(d))) == Records(d, file, 0, |HeaderLines(d)| + |BodyLines(d)| - 1)
  {
    RenderedParse(file, d, JoinLines(ConstructLines(d)), BodyLines(d));
  }

  /** `ParseRendered`, with the rendered text and the body lines named. */
  lemma {:induction false} RenderedParse(file: VaultFile, d: Def, text: string, b: seq<string>)
    requires Renderable(d) && text == JoinLines(ConstructLines(d)) && b == BodyLines(d)
    ensures Parse(file, text) == Records(d, file, 0, |HeaderLines(d)| + |b| - 1)
  {
    RenderedWindow(d);
    BodyTrims(d);
    ParseBlock(file, SplitLines(text), d, b);
  }

  /** The lines of a rendered definition, as a window from the first line. */
  lemma {:induction false} RenderedWindow(d: Def)
    requires Renderable(d)
    ensures Window(SplitLines(JoinLines(ConstructLines(d))), 0, HeaderLines(d) + BodyLines(d))
    ensures |SplitLines(JoinLines(ConstructLines(d)))| - 1 == |HeaderLines(d)| + |BodyLines(d)| - 1
  {
    RenderedLines(d);
    AppendWindows(SplitLines(JoinLines(ConstructLines(d))), [], HeaderLines(d) + BodyLines(d));
  }

  /** A file that is one block, `d`'s header and then the body lines `b` whose join trims like `d`'s contents, parses to `d`'s records. */
  lemma {:induction false} ParseBlock(file: VaultFile, lines: seq<string>, d: Def, b: seq<string>)
    requires HeaderRenderable(d) && BodyParsesAsContents(b) && Trim(JoinLines(b)) == Trim(d.contents)
    requires Window(lines, 0, HeaderLines(d) + b)
    ensures ParseLines(file, lines) == Records(d, file, 0, |lines| - 1)
  {
    BlockInWindow(file, lines, 0, [], d, b);
    ParseFromStart(file, lines, Records(d, file, 0, |lines| - 1));
  }

  /** `ParseFrom` the first line with no records yet is the parse of the file. */
  lemma {:induction false} ParseFromStart(file: VaultFile, lines: seq<string>, recs: seq<Def>)
    requires ParseFrom(file, lines, 0, []) == [] + recs
    ensures ParseLines(file, lines) == recs
  {
    EmptyPrefix(recs);
  }

  /** Lines that end with a separator leave the buffer cleared and the parser outside a body. */
  lemma {:induction false} RunEndsCleared(file: VaultFile, a: seq<string>, i: nat, st: ParseState)
    requires i < |a| && IsEndOfBlock(a[|a| - 1])
    ensures Run(file, a, i, st).buf == Cleared && !Run(file, a, i, st).inContents
    decreases |a| - i
  {
    var st' := Step(file, st, a[i], i);
    RunStep(file, a, i, st, st');
    if i < |a| - 1 {
      RunEndsCleared(file, a, i + 1, st');
    } else {
      assert Run(file, a, i + 1, st') == st';
    }
  }

  /**
   * `addDef` appends a block after the old text: the new file parses to the
   * records of the kept old lines followed by the records of the new
   * definition, positioned after them.
   */
  lemma {:induction false} ParseAddedDef(file: VaultFile, text: string, d: Def)
    requires Renderable(d) && NoLineEndsInCR(SplitLines(text))
    ensures (var a := AddDefPrefix(SplitLines(text));
             Parse(file, AddDefText(text, d))
             == ParseLines(file, a) + Records(d, file, |a|, |a| + |HeaderLines(d)| + |BodyLines(d)| - 1))
  {
    var a := AddDefPrefix(SplitLines(text));
    var lines := a + (HeaderLines(d) + BodyLines(d));
    var recs := ParseLines(file, a) + Records(d, file, |a|, |a| + |HeaderLines(d)| + |BodyLines(d)| - 1);
    assert SplitLines(AddDefText(text, d)) == lines by {
      AddedLines(text, d);
    }
    assert ParseLines(file, lines) == recs by {
      ParseAppendedBlock(file, a, d);
    }
    ParseOfLines(file, AddDefText(text, d), lines, recs);
  }

  /** A rendered block after lines that end with a separator adds its records after theirs. */
  lemma {:induction false} ParseAppendedBlock(file: VaultFile, a: seq<string>, d: Def)
    requires Renderable(d) && |a| > 0 && IsEndOfBlock(a[|a| - 1])
    ensures ParseLines(file, a + (HeaderLines(d) + BodyLines(d)))
         == ParseLines(file, a) + Records(d, file, |a|, |a| + |HeaderLines(d)| + |BodyLines(d)| - 1)
  {
    AppendedWindows(a, HeaderLines(d), BodyLines(d));
    RenderableParts(d);
    BlockAfterWindow(file, a + (HeaderLines(d) + BodyLines(d)), a, d, BodyLines(d));
  }

  /** A text whose lines parse to `recs` parses to `recs`. */
  lemma ParseOfLines(file: VaultFile, text: string, lines: seq<string>, recs: seq<Def>)
    requires SplitLines(text) == lines && ParseLines(file, lines) == recs
    ensures Parse(file, text) == recs
  {
  }

  /** What the block lemmas need of a renderable definition. */
  lemma {:induction false} RenderableParts(d: Def)
    requires Renderable(d)
    ensures HeaderRenderable(d) && BodyParsesAsContents(BodyLines(d)) && Trim(JoinLines(BodyLines(d))) == Trim(d.contents)
  {
    BodyTrims(d);
  }

  /** The lines `a` followed by `h` and `b`, as windows. */
  lemma AppendedWindows(a: seq<string>, h: seq<string>, b: seq<string>)
    ensures Starts(a + (h + b), a) && Window(a + (h + b), |a|, h + b)
    ensures |a + (h + b)| - 1 == |a| + |h| + |b| - 1
  {
  }

  /** `lines` holds the lines `c` from line `i` to its end. */
  predicate Window<T(==)>(lines: seq<T>, i: int, c: seq<T>) {
    0 <= i && i + |c| == |lines| && forall k {:trigger c[k]} :: 0 <= k < |c| ==> lines[i + k] == c[k]
  }

  /** `lines` starts with the lines `a`. */
  predicate Starts<T(==)>(lines: seq<T>, a: seq<T>) {
    |a| <= |lines| && forall k {:trigger a[k]} :: 0 <= k < |a| ==> lines[k] == a[k]
  }

  lemma AppendWindows<T>(s: seq<T>, a: seq<T>, c: seq<T>)
    requires s == a + c
    ensures Starts(s, a) && Window(s, |a|, c)
  {
  }

  lemma WindowSlices<T>(s: seq<T>, a: seq<T>, c: seq<T>)
    requires Starts(s, a) && Window(s, |a|, c)
    ensures s[..|a|] == a && s[|a|..] == c
  {
  }

  lemma {:induction false} BlockAfterWindow(file: VaultFile, lines: seq<string>, a: seq<string>, d: Def, b: seq<string>)
    requires HeaderRenderable(d) && BodyParsesAsContents(b) && Trim(JoinLines(b)) == Trim(d.contents)
    requires 0 < |a| && IsEndOfBlock(a[|a| - 1])
    requires Starts(lines, a) && Window(lines, |a|, HeaderLines(d) + b)
    ensures ParseLines(file, lines) == ParseLines(file, a) + Records(d, file, |a|, |lines| - 1)
  {
    WindowSlices(lines, a, HeaderLines(d) + b);
    BlockAfterPrefix(file, lines, a, d, b);
  }

  /** Lines that start with `a`, which ends with a separator, and go on with `d`'s rendered block add `d`'s records after `a`'s. */
  lemma {:induction false} BlockAfterPrefix(file: VaultFile, lines: seq<string>, a: seq<string>, d: Def, b: seq<string>)
    requires HeaderRenderable(d) && BodyParsesAsContents(b) && Trim(JoinLines(b)) == Trim(d.contents)
    requires 0 < |a| <= |lines| && IsEndOfBlock(a[|a| - 1])
    requires lines[..|a|] == a && lines[|a|..] == HeaderLines(d) + b
    ensures ParseLines(file, lines) == ParseLines(file, a) + Records(d, file, |a|, |lines| - 1)
  {
    ParseAfterSeparator(file, lines, a);
    ParseFromBlock(file, lines, |a|, [], d, b);
    EmptyPrefix(Records(d, file, |a|, |lines| - 1));
  }

  /** The parse of the lines from `i` on, after the lines before it registered `defs` and left the buffer cleared. */
  function ParseFrom(file: VaultFile, lines: seq<string>, i: nat, defs: seq<Def>): seq<Def> {
    var st := Run(file, lines, i, ParseState(Cleared, false, defs));
    st.defs + Flush(st.buf, |lines| - 1, file)
  }

  /** When the lines start with lines `a` that end with a separator, `a` parses on its own and the lines after it start afresh. */
  lemma {:induction false} ParseAfterSeparator(file: VaultFile, lines: seq<string>, a: seq<string>)
    requires 0 < |a| <= |lines| && IsEndOfBlock(a[|a| - 1]) && lines[..|a|] == a
    ensures ParseLines(file, lines) == ParseLines(file, a) + ParseFrom(file, lines, |a|, [])
  {
    ParseEndingInSeparator(file, a);
    RunPrefix(file, lines, a, 0, Start);
    RunPrepend(file, lines, |a|, ParseLines(file, a), ParseState(Cleared, false, []));
    assert ParseLines(file, a) + [] == ParseLines(file, a);
    PrependedParse(file, lines, ParseLines(file, a), Run(file, lines, 0, Start), Run(file, lines, |a|, ParseState(Cleared, false, [])));
  }

  /** Running over lines that start with `a` passes through the state reached at the end of `a`. */
  lemma {:induction false} RunPrefix(file: VaultFile, lines: seq<string>, a: seq<string>, i: nat, st: ParseState)
    requires i <= |a| <= |lines| && lines[..|a|] == a
    ensures Run(file, lines, i, st) == Run(file, lines, |a|, Run(file, a, i, st))
    decreases |a| - i
  {
    if i < |a| {
      var st' := Step(file, st, a[i], i);
      assert lines[i] == lines[..|a|][i];
      RunStep(file, lines, i, st, st');
      RunStep(file, a, i, st, st');
      RunPrefix(file, lines, a, i + 1, st');
    }
  }

  /** The parse of a final state whose records were prepended with `defs`. */
  lemma {:induction false} PrependedParse(file: VaultFile, lines: seq<string>, defs: seq<Def>, r0: ParseState, r: ParseState)
    requires r0 == Prepend(defs, r)
    ensures r0.defs + Flush(r0.buf, |lines| - 1, file) == defs + (r.defs + Flush(r.buf, |lines| - 1, file))
  {
    AppendAssoc(defs, r.defs, Flush(r.buf, |lines| - 1, file));
  }

  /** A rendered block from line `i` to the end of the file adds `d`'s records to the ones before it. */
  lemma {:induction false} ParseFromBlock(file: VaultFile, lines: seq<string>, i: nat, defs: seq<Def>, d: Def, b: seq<string>)
    requires HeaderRenderable(d) && BodyParsesAsContents(b) && Trim(JoinLines(b)) == Trim(d.contents)
    requires i <= |lines| && lines[i..] == HeaderLines(d) + b
    ensures ParseFrom(file, lines, i, defs) == defs + Records(d, file, i, |lines| - 1)
  {
    RunBlock(file, lines, i, defs, d, b, Run(file, lines, i, ParseState(Cleared, false, defs)));
  }

  /** The loop only ever appends to the records it starts with. */
  /** `ParseFromBlock`, with the block given as the window of `lines` from line `i`. */
  lemma {:induction false} BlockInWindow(file: VaultFile, lines: seq<string>, i: nat, defs: seq<Def>, d: Def, b: seq<string>)
    requires HeaderRenderable(d) && BodyParsesAsContents(b) && Trim(JoinLines(b)) == Trim(d.contents)
    requires Window(lines, i, HeaderLines(d) + b)
    ensures ParseFrom(file, lines, i, defs) == defs + Records(d, file, i, |lines| - 1)
  {
    WindowDrop(lines, i, HeaderLines(d) + b);
    ParseFromBlock(file, lines, i, defs, d, b);
  }

  lemma WindowDrop<T>(s: seq<T>, i: int, c: seq<T>)
    requires Window(s, i, c)
    ensures s[i..] == c
  {
  }

  /** The loop only ever appends to the records: records already there stay in front. */
  lemma {:induction false} RunPrepend(file: VaultFile, lines: seq<string>, i: nat, defs: seq<Def>, st: ParseState)
    ensures Run(file, lines, i, Prepend(defs, st)) == Prepend(defs, Run(file, lines, i, st))
    decreases |lines| - i
  {
    if i < |lines| {
      var s := Step(file, st, lines[i], i);
      StepPrepend(file, defs, st, lines[i], i);
      RunStep(file, lines, i, Prepend(defs, st), Prepend(defs, s));
      RunStep(file, lines, i, st, s);
      RunPrepend(file, lines, i + 1, defs, s);
    }
  }

  /** `st` with `defs` put before its records. */
  function Prepend(defs: seq<Def>, st: ParseState): ParseState {
    ParseState(st.buf, st.inContents, defs + st.defs)
  }

  /** One step only ever appends to the records. */
  lemma {:induction false} StepPrepend(file: VaultFile, defs: seq<Def>, st: ParseState, line: string, idx: int)
    ensures Step(file, Prepend(defs, st), line, idx) == Prepend(defs, Step(file, st, line, idx))
  {
    if IsEndOfBlock(line) {
      AppendAssoc(defs, st.defs, Flush(st.buf, idx - 1, file));
    }
  }

  lemma EmptyPrefix<T>(s: seq<T>)
    ensures [] + s == s
  {
  }

  /** Lines that end with a separator leave nothing in the buffer: their parse is what the loop registered. */
  lemma {:induction false} ParseEndingInSeparator(file: VaultFile, a: seq<string>)
    requires |a| > 0 && IsEndOfBlock(a[|a| - 1])
    ensures Run(file, a, 0, Start) == ParseState(Cleared, false, ParseLines(file, a))
  {
    var sta := Run(file, a, 0, Start);
    RunEndsCleared(file, a, 0, Start);
    assert Flush(sta.buf, |a| - 1, file) == [];
    assert sta.defs + [] == sta.defs;
  }

  /** The lines of the text `addDef` writes: the kept old lines, then the rendered block. */
  lemma {:induction false} AddedLines(text: string, d: Def)
    requires Renderable(d) && NoLineEndsInCR(SplitLines(text))
    ensures SplitLines(AddDefText(text, d)) == AddDefPrefix(SplitLines(text)) + (HeaderLines(d) + BodyLines(d))
  {
    var a := AddDefPrefix(SplitLines(text));
    var c := ConstructLines(d);
    SplitLinesNoNewline(text);
    var kept := RemoveTrailingBlankLines(SplitLines(text));
    assert forall k :: 0 <= k < |a| ==> '\n' !in a[k] && DropCR(a[k]) == a[k] by {
      forall k | 0 <= k < |a|
        ensures '\n' !in a[k] && DropCR(a[k]) == a[k]
      {
        if k < |kept| {
          assert a[k] == kept[k] == SplitLines(text)[k];
        } else {
          assert a[k] == "" || a[k] == "---";
        }
      }
    }
    JoinAppend(a, c, "\n");
    SplitLinesAppend(a, JoinLines(c));
    RenderedLines(d);
  }
}

=== FILE: scope_tree.dfy ===
/**
 * The scope tree (src/core/types.ts, class DefScopeTree): one node per path
 * component, each with its own forest and key set. A node's forest and key
 * set are copied from its parent the first time the node is reached; an
 * insert that changes a node's forest is pushed into the node's existing
 * children, and `clear` resets a node and drops everything below it.
 *
 * The source mutates nodes in place; here every operation returns the new
 * tree. Reaching a node (`get`) initialises every node on the way, so even
 * the lookups return the tree they leave behind.
 */
module ScopeTree {
  import opened Types
  import opened Text
  import opened DefForest

  datatype Node = Node(children: map<string, Node>, forest: Forest, keys: set<string>, init: bool)

  /** A node just created, or one that `clearAll` has reset. */
  const Fresh: Node := Node(map[], Empty, {}, false)

  // ---------------------------------------------------------------------------
  // Scope strings
  // ---------------------------------------------------------------------------

  predicate IsPathSep(c: char) {
    c == '/' || c == '\\'
  }

  /** The components of a scope: none for `"/"`, otherwise the pieces between separators. */
  function Cmps(scope: string): seq<string> {
    if scope == "/" then [] else SplitBy(scope, IsPathSep)
  }

  /**
   * `getScopeCmps`: an empty scope stands for the folder of the active file
   * (`activeDir`, which is `dirname` of its path), and there is no scope when
   * no file is active.
   */
  function ScopeCmps(scope: string, activeDir: Option<string>): (r: Option<seq<string>>)
    ensures scope != "" ==> r == Some(Cmps(scope))
    ensures scope == "" ==> (r.Some? <==> activeDir.Some?)
  {
    if scope == "" then
      match activeDir
      case None => None
      case Some(dir) => Some(Cmps(dir))
    else Some(Cmps(scope))
  }

  // ---------------------------------------------------------------------------
  // Reaching a node (`get` / `getChild`)
  // ---------------------------------------------------------------------------

  /**
   * The initialisation step of `getChild`: a node reached for the first time
   * copies its parent's key set and a clone of its parent's forest; the root,
   * which has no parent, keeps its own (empty) ones.
   */
  function Init(n: Node, parent: Option<Node>): Node {
    if n.init then n
    else
      match parent
      case None => n.(init := true)
      case Some(p) => n.(keys := p.keys, forest := Clone(p.forest), init := true)
  }

  /** The child for component `c`, or a fresh node when there is none yet. */
  function ChildOr(n: Node, c: string): Node {
    if c in n.children then n.children[c] else Fresh
  }

  /** `getChild`: the tree after every node on the path `cmps` has been created and initialised. */
  function Resolve(n: Node, parent: Option<Node>, cmps: seq<string>): Node
    decreases |cmps|
  {
    var m := Init(n, parent);
    if |cmps| == 0 then m
    else m.(children := m.children[cmps[0] := Resolve(ChildOr(m, cmps[0]), Some(m), cmps[1..])])
  }

  /** The node `getChild` returns. */
  function ResolvedNode(n: Node, parent: Option<Node>, cmps: seq<string>): Node
    decreases |cmps|
  {
    var m := Init(n, parent);
    if |cmps| == 0 then m else ResolvedNode(ChildOr(m, cmps[0]), Some(m), cmps[1..])
  }

  /** The node at a path, if the path exists. */
  function NodeAt(n: Node, path: seq<string>): Option<Node>
    decreases |path|
  {
    if |path| == 0 then Some(n)
    else if path[0] in n.children then NodeAt(n.children[path[0]], path[1..])
    else None
  }

  // ---------------------------------------------------------------------------
  // Inserting (`setDef` / `setDefs`)
  // ---------------------------------------------------------------------------

  /**
   * The insert `setDef` performs at a node it has reached: the node inserts
   * into its forest and, only if that changed the forest, records the key and
   * pushes the same definition into each of its existing children, each of
   * which is initialised from the updated node first.
   */
  function Push(n: Node, parent: Option<Node>, d: Def): Node
    decreases n
  {
    var m := Init(n, parent);
    var (f', changed) := Insert(m.forest, d);
    if !changed then m
    else
      var m' := m.(forest := f', keys := m.keys + {d.key});
      m'.(children := map c | c in n.children :: Push(n.children[c], Some(m'), d))
  }

  /** `setDef(def, scope)` on the path `cmps`. */
  function SetDefAt(n: Node, parent: Option<Node>, cmps: seq<string>, d: Def): Node
    decreases |cmps|
  {
    var m := Init(n, parent);
    if |cmps| == 0 then Push(m, parent, d)
    else m.(children := m.children[cmps[0] := SetDefAt(ChildOr(m, cmps[0]), Some(m), cmps[1..], d)])
  }

  /** `setDef(def, scope)`: nothing happens when the scope cannot be resolved. */
  function SetDef(t: Node, d: Def, scope: string, activeDir: Option<string>): Node {
    match ScopeCmps(scope, activeDir)
    case None => t
    case Some(cmps) => SetDefAt(t, None, cmps, d)
  }

  /** `setDefs`: the inserts one after another, in list order. */
  function SetDefs(t: Node, defs: seq<Def>, scope: string, activeDir: Option<string>): Node
    decreases |defs|
  {
    if |defs| == 0 then t
    else SetDefs(SetDef(t, defs[0], scope, activeDir), defs[1..], scope, activeDir)
  }

  // ---------------------------------------------------------------------------
  // Clearing (`clear` / `clearAll`)
  // ---------------------------------------------------------------------------

  /** `clear(scope)` on the path `cmps`: the node reached is reset by `clearAll`. */
  function ClearAt(n: Node, parent: Option<Node>, cmps: seq<string>): Node
    decreases |cmps|
  {
    var m := Init(n, parent);
    if |cmps| == 0 then Fresh
    else m.(children := m.children[cmps[0] := ClearAt(ChildOr(m, cmps[0]), Some(m), cmps[1..])])
  }

  function Clear(t: Node, scope: string, activeDir: Option<string>): Node {
    match ScopeCmps(scope, activeDir)
    case None => t
    case Some(cmps) => ClearAt(t, None, cmps)
  }

  // ---------------------------------------------------------------------------
  // Queries (`getDef` / `getDefs`)
  // ---------------------------------------------------------------------------

  /**
   * `getDef(key, scope)`: the key must be in the node's key set literally; only
   * then is the forest asked, and `get` trims and lower-cases it.
   */
  function GetDef(t: Node, key: string, scope: string, activeDir: Option<string>): (Node, Option<Def>) {
    match ScopeCmps(scope, activeDir)
    case None => (t, None)
    case Some(cmps) =>
      var node := ResolvedNode(t, None, cmps);
      (Resolve(t, None, cmps), if key in node.keys then Get(node.forest, key) else None)
  }

  /** `getDefs(scope)`: the forest of the scope's node. */
  function GetDefs(t: Node, scope: string, activeDir: Option<string>): (Node, Option<Forest>) {
    match ScopeCmps(scope, activeDir)
    case None => (t, None)
    case Some(cmps) => (Resolve(t, None, cmps), Some(ResolvedNode(t, None, cmps).forest))
  }

  // ---------------------------------------------------------------------------
  // The key-set invariant
  // ---------------------------------------------------------------------------

  /** A node's forest is valid and every key in its key set has a terminal in its forest. */
  ghost predicate NodeInv(n: Node) {
    && Valid(n.forest, "")
    && forall k :: k in n.keys ==> Lookup(n.forest, Cut(k)).Some?
  }

  ghost predicate TreeInv(n: Node) {
    && NodeInv(n)
    && forall c :: c in n.children ==> TreeInv(n.children[c])
  }

  lemma FreshInv()
    ensures TreeInv(Fresh)
  {
    EmptyValid("");
  }

  lemma InitInv(n: Node, parent: Option<Node>)
    requires TreeInv(n)
    requires parent.Some? ==> NodeInv(parent.value)
    ensures TreeInv(Init(n, parent))
  {
  }

  /** An insert keeps a node's invariant once the key joins the key set. */
  lemma InsertKeepsNodeInv(m: Node, d: Def)
    requires NodeInv(m)
    ensures NodeInv(m.(forest := Insert(m.forest, d).0))
    ensures Insert(m.forest, d).1 ==> NodeInv(m.(forest := Insert(m.forest, d).0, keys := m.keys + {d.key}))
  {
    InsertOverride(m.forest, d);
    InsertValid(m.forest, d);
  }

  lemma {:induction false} PushInv(n: Node, parent: Option<Node>, d: Def)
    requires TreeInv(n)
    requires parent.Some? ==> NodeInv(parent.value)
    ensures TreeInv(Push(n, parent, d))
    decreases n
  {
    var m := Init(n, parent);
    InitInv(n, parent);
    var (f', changed) := Insert(m.forest, d);
    if changed {
      InsertKeepsNodeInv(m, d);
      var m' := m.(forest := f', keys := m.keys + {d.key});
      forall c | c in n.children
        ensures TreeInv(Push(n.children[c], Some(m'), d))
      {
        PushInv(n.children[c], Some(m'), d);
      }
    }
  }

  lemma {:induction false} ResolveInv(n: Node, parent: Option<Node>, cmps: seq<string>)
    requires TreeInv(n)
    requires parent.Some? ==> NodeInv(parent.value)
    ensures TreeInv(Resolve(n, parent, cmps))
    ensures NodeInv(ResolvedNode(n, parent, cmps))
    decreases |cmps|
  {
    var m := Init(n, parent);
    InitInv(n, parent);
    if |cmps| > 0 {
      if cmps[0] !in m.children { FreshInv(); }
      ResolveInv(ChildOr(m, cmps[0]), Some(m), cmps[1..]);
    }
  }

  lemma {:induction false} SetDefAtInv(n: Node, parent: Option<Node>, cmps: seq<string>, d: Def)
    requires TreeInv(n)
    requires parent.Some? ==> NodeInv(parent.value)
    ensures TreeInv(SetDefAt(n, parent, cmps, d))
    decreases |cmps|
  {
    var m := Init(n, parent);
    InitInv(n, parent);
    if |cmps| == 0 {
      PushInv(m, parent, d);
    } else {
      if cmps[0] !in m.children { FreshInv(); }
      SetDefAtInv(ChildOr(m, cmps[0]), Some(m), cmps[1..], d);
    }
  }

  lemma {:induction false} ClearAtInv(n: Node, parent: Option<Node>, cmps: seq<string>)
    requires TreeInv(n)
    requires parent.Some? ==> NodeInv(parent.value)
    ensures TreeInv(ClearAt(n, parent, cmps))
    decreases |cmps|
  {
    var m := Init(n, parent);
    InitInv(n, parent);
    if |cmps| == 0 {
      FreshInv();
    } else {
      if cmps[0] !in m.children { FreshInv(); }
      ClearAtInv(ChildOr(m, cmps[0]), Some(m), cmps[1..]);
    }
  }

  /**
   * Every operation that changes the tree keeps the invariant: each key in a
   * node's key set has a terminal in that node's forest.
   */
  lemma OperationsKeepInv(t: Node, d: Def, scope: string, activeDir: Option<string>)
    requires TreeInv(t)
    ensures TreeInv(SetDef(t, d, scope, activeDir))
    ensures TreeInv(Clear(t, scope, activeDir))
    ensures TreeInv(GetDef(t, d.key, scope, activeDir).0)
    ensures TreeInv(GetDefs(t, scope, activeDir).0)
  {
    var cmps := ScopeCmps(scope, activeDir);
    if cmps.Some? {
      SetDefAtInv(t, None, cmps.value, d);
      ClearAtInv(t, None, cmps.value);
      ResolveInv(t, None, cmps.value);
    }
  }

  lemma {:induction false} SetDefsInv(t: Node, defs: seq<Def>, scope: string, activeDir: Option<string>)
    requires TreeInv(t)
    ensures TreeInv(SetDefs(t, defs, scope, activeDir))
    decreases |defs|
  {
    if |defs| > 0 {
      OperationsKeepInv(t, defs[0], scope, activeDir);
      SetDefsInv(SetDef(t, defs[0], scope, activeDir), defs[1..], scope, activeDir);
    }
  }

  // ---------------------------------------------------------------------------
  // Lookups
  // ---------------------------------------------------------------------------

  /**
   * `getDef` finds nothing unless the key is literally in the node's key set;
   * for a key in the set that is already trimmed, lower-cased and free of line
   * feeds, it always finds a definition stored under that key.
   */
  lemma GetDefNeedsKey(t: Node, key: string, scope: string, activeDir: Option<string>)
    requires TreeInv(t)
    ensures var cmps := ScopeCmps(scope, activeDir);
      && (GetDef(t, key, scope, activeDir).1.Some? ==>
            cmps.Some? && key in ResolvedNode(t, None, cmps.value).keys)
      && (cmps.Some? && key in ResolvedNode(t, None, cmps.value).keys
          && '\n' !in key && key == LowerStr(Trim(key))
          ==> GetDef(t, key, scope, activeDir).1 == Lookup(ResolvedNode(t, None, cmps.value).forest, key)
              && GetDef(t, key, scope, activeDir).1.Some?)
  {
    var cmps := ScopeCmps(scope, activeDir);
    if cmps.Some? {
      ResolveInv(t, None, cmps.value);
    }
  }

  // ---------------------------------------------------------------------------
  // Materialisation
  // ---------------------------------------------------------------------------

  /** The tree `get` leaves behind holds the node it returned, initialised, at the end of the path. */
  lemma {:induction false} ResolveReaches(n: Node, parent: Option<Node>, cmps: seq<string>)
    ensures NodeAt(Resolve(n, parent, cmps), cmps) == Some(ResolvedNode(n, parent, cmps))
    ensures ResolvedNode(n, parent, cmps).init
    ensures ResolvedNode(n, parent, cmps).children
         == (if NodeAt(n, cmps).Some? then NodeAt(n, cmps).value.children else map[])
    decreases |cmps|
  {
    if |cmps| > 0 {
      var m := Init(n, parent);
      ResolveReaches(ChildOr(m, cmps[0]), Some(m), cmps[1..]);
      if cmps[0] !in n.children {
        NodeAtFresh(cmps[1..]);
      }
    }
  }

  lemma {:induction false} NodeAtFresh(p: seq<string>)
    ensures |p| > 0 ==> NodeAt(Fresh, p).None?
  {
  }

  /**
   * Materialisation: every node on the path is initialised by `get`, and a
   * node on it that was not initialised before (or did not exist) gets the key
   * set and forest of its parent as `get` left the parent. The root, having no
   * parent, keeps its own.
   */
  lemma {:induction false} ResolveCopiesParent(n: Node, parent: Option<Node>, cmps: seq<string>)
    requires |cmps| > 0
    ensures var old_ := NodeAt(n, cmps);
      var node := ResolvedNode(n, parent, cmps);
      var above := ResolvedNode(n, parent, cmps[..|cmps| - 1]);
      && (old_.Some? && old_.value.init ==> node.forest == old_.value.forest && node.keys == old_.value.keys)
      && (!(old_.Some? && old_.value.init) ==> node.forest == above.forest && node.keys == above.keys)
    decreases |cmps|
  {
    var m := Init(n, parent);
    var child := ChildOr(m, cmps[0]);
    if |cmps| == 1 {
      assert cmps[..0] == [];
    } else {
      ResolveCopiesParent(child, Some(m), cmps[1..]);
      assert cmps[1..][..|cmps[1..]| - 1] == cmps[..|cmps| - 1][1..];
      if cmps[0] !in n.children {
        NodeAtFresh(cmps[1..]);
      }
    }
  }

  /** The root as `get` leaves it: initialised, keeping its own forest and key set. */
  lemma ResolveRoot(t: Node, cmps: seq<string>)
    ensures NodeAt(Resolve(t, None, cmps), []) == Some(Resolve(t, None, cmps))
    ensures Resolve(t, None, cmps).init
    ensures Resolve(t, None, cmps).forest == t.forest && Resolve(t, None, cmps).keys == t.keys
  {
  }

  /** `get` changes no node off its path. */
  lemma {:induction false} ResolveFrame(n: Node, parent: Option<Node>, cmps: seq<string>, q: seq<string>)
    requires !(q <= cmps)
    ensures NodeAt(Resolve(n, parent, cmps), q) == NodeAt(n, q)
    decreases |q|
  {
    var m := Init(n, parent);
    if |cmps| > 0 && q[0] == cmps[0] {
      ResolveFrame(ChildOr(m, cmps[0]), Some(m), cmps[1..], q[1..]);
      if cmps[0] !in n.children {
        NodeAtFresh(q[1..]);
      }
    }
  }

  // ---------------------------------------------------------------------------
  // Clearing
  // ---------------------------------------------------------------------------

  /**
   * `clear(scope)` leaves, at the scope's node, an uninitialised node with an
   * empty forest and key set and no descendants.
   */
  lemma {:induction false} ClearAtResets(n: Node, parent: Option<Node>, cmps: seq<string>, q: seq<string>)
    ensures NodeAt(ClearAt(n, parent, cmps), cmps) == Some(Fresh)
    ensures |q| > 0 ==> NodeAt(ClearAt(n, parent, cmps), cmps + q).None?
    decreases |cmps|
  {
    if |cmps| == 0 {
      assert cmps + q == q;
      NodeAtFresh(q);
    } else {
      var m := Init(n, parent);
      assert (cmps + q)[1..] == cmps[1..] + q;
      ClearAtResets(ChildOr(m, cmps[0]), Some(m), cmps[1..], q);
    }
  }

  /** `clear(scope)` changes no node off the path to the scope's node and outside its subtree. */
  lemma {:induction false} ClearAtFrame(n: Node, parent: Option<Node>, cmps: seq<string>, q: seq<string>)
    requires !(q <= cmps) && !(cmps <= q)
    ensures NodeAt(ClearAt(n, parent, cmps), q) == NodeAt(n, q)
    decreases |cmps|
  {
    var m := Init(n, parent);
    if q[0] == cmps[0] {
      ClearAtFrame(ChildOr(m, cmps[0]), Some(m), cmps[1..], q[1..]);
      if cmps[0] !in n.children {
        NodeAtFresh(q[1..]);
      }
    }
  }

  /**
   * After `clear(scope)`, the next access to the scope re-copies the forest and
   * key set its parent has at that time.
   */
  lemma ClearThenResolve(t: Node, cmps: seq<string>)
    requires |cmps| > 0
    ensures var c := ClearAt(t, None, cmps);
      && ResolvedNode(c, None, cmps).forest == ResolvedNode(c, None, cmps[..|cmps| - 1]).forest
      && ResolvedNode(c, None, cmps).keys == ResolvedNode(c, None, cmps[..|cmps| - 1]).keys
      && ResolvedNode(c, None, cmps).children == map[]
  {
    var c := ClearAt(t, None, cmps);
    ClearAtResets(t, None, cmps, []);
    ResolveCopiesParent(c, None, cmps);
    ResolveReaches(c, None, cmps);
  }

  // ---------------------------------------------------------------------------
  // Inserting
  // ---------------------------------------------------------------------------

  /** A node after its own insert and before its children are visited: the parent `Push` initialises them from. */
  function Inserted(n: Node, parent: Option<Node>, d: Def): Node {
    var m := Init(n, parent);
    var (f', changed) := Insert(m.forest, d);
    if changed then m.(forest := f', keys := m.keys + {d.key}) else m
  }

  /** The insert reaches the node at `q`: every node above it on the path took the insert (its forest changed). */
  predicate Reaches(n: Node, parent: Option<Node>, d: Def, q: seq<string>)
    decreases |q|
  {
    || |q| == 0
    || (&& Insert(Init(n, parent).forest, d).1
        && q[0] in n.children
        && Reaches(n.children[q[0]], Some(Inserted(n, parent, d)), d, q[1..]))
  }

  /**
   * The cascade of `setDef` through the existing subtree: every node below
   * the one reached keeps its place and its children. An initialised node
   * inserts the definition into its own forest when the insert reaches it,
   * and is otherwise left as it was; so no lookup of another key changes, the
   * key of `d` ends up with `d` or with what the node stored before, and a
   * node the insert reaches holds `d`.
   */
  lemma {:induction false} PushCascade(n: Node, parent: Option<Node>, d: Def, q: seq<string>)
    requires NodeAt(n, q).Some?
    ensures NodeAt(Push(n, parent, d), q).Some?
    ensures var before := NodeAt(n, q).value;
      var after := NodeAt(Push(n, parent, d), q).value;
      && after.children.Keys == before.children.Keys
      && (before.init || Reaches(n, parent, d, q) ==> after.init)
      && (before.init ==> after.forest == if Reaches(n, parent, d, q) then Insert(before.forest, d).0 else before.forest)
      && (before.init ==> forall p :: p != Cut(d.key) ==> Lookup(after.forest, p) == Lookup(before.forest, p))
      && (before.init ==> Lookup(after.forest, Cut(d.key)) == Some(d) || Lookup(after.forest, Cut(d.key)) == Lookup(before.forest, Cut(d.key)))
      && (before.init && Reaches(n, parent, d, q) ==> Holds(after.forest, d))
    decreases |q|
  {
    var m := Init(n, parent);
    var (f', changed) := Insert(m.forest, d);
    var before := NodeAt(n, q).value;
    if |q| == 0 {
      if before.init {
        InsertOverride(n.forest, d);
        InsertHolds(n.forest, d, d);
        forall p | p != Cut(d.key)
          ensures Lookup(Insert(n.forest, d).0, p) == Lookup(n.forest, p)
        {
          InsertAtOther(n.forest, d.key, d, p);
        }
      }
    } else if changed {
      var m' := Inserted(n, parent, d);
      PushCascade(n.children[q[0]], Some(m'), d, q[1..]);
    }
  }

  /** `setDef` reaches its node exactly as `get` does, and then performs the insert there. */
  lemma {:induction false} SetDefAtIsPushAtResolved(n: Node, parent: Option<Node>, cmps: seq<string>, d: Def)
    ensures NodeAt(SetDefAt(n, parent, cmps, d), cmps) == Some(Push(ResolvedNode(n, parent, cmps), None, d))
    ensures forall q :: !(q <= cmps) && !(cmps <= q) ==> NodeAt(SetDefAt(n, parent, cmps, d), q) == NodeAt(n, q)
    decreases |cmps|
  {
    var m := Init(n, parent);
    if |cmps| > 0 {
      SetDefAtIsPushAtResolved(ChildOr(m, cmps[0]), Some(m), cmps[1..], d);
      forall q | !(q <= cmps) && !(cmps <= q)
        ensures NodeAt(SetDefAt(n, parent, cmps, d), q) == NodeAt(n, q)
      {
        if |q| > 0 && q[0] == cmps[0] {
          assert !(q[1..] <= cmps[1..]) && !(cmps[1..] <= q[1..]);
          if cmps[0] !in n.children {
            NodeAtFresh(q[1..]);
          }
        }
      }
    }
  }

  // ---------------------------------------------------------------------------
  // Inserting again
  // ---------------------------------------------------------------------------

  /** Every node on the path `cmps` exists and is initialised, and the last one's forest holds `d`. */
  predicate Settled(n: Node, cmps: seq<string>, d: Def)
    decreases |cmps|
  {
    && n.init
    && if |cmps| == 0 then Holds(n.forest, d)
       else cmps[0] in n.children && Settled(n.children[cmps[0]], cmps[1..], d)
  }

  /** The scope resolves, and the tree is settled for `d` on its path. */
  predicate HeldAt(t: Node, scope: string, activeDir: Option<string>, d: Def) {
    ScopeCmps(scope, activeDir).Some? && Settled(t, ScopeCmps(scope, activeDir).value, d)
  }

  /** `setDef` of a definition the tree is already settled for changes nothing. */
  lemma {:induction false} SettledSetDefAt(n: Node, parent: Option<Node>, cmps: seq<string>, d: Def)
    requires Settled(n, cmps, d)
    ensures SetDefAt(n, parent, cmps, d) == n
    decreases |cmps|
  {
    if |cmps| == 0 {
      InsertHolds(n.forest, d, d);
    } else {
      SettledSetDefAt(n.children[cmps[0]], Some(n), cmps[1..], d);
      assert n.children[cmps[0] := n.children[cmps[0]]] == n.children;
    }
  }

  /**
   * `setDef` settles the tree for the definition it inserts, and keeps it
   * settled for every definition it was settled for on the same path.
   */
  lemma {:induction false} SetDefAtSettles(n: Node, parent: Option<Node>, cmps: seq<string>, d: Def, e: Def)
    ensures Settled(SetDefAt(n, parent, cmps, d), cmps, d)
    ensures Settled(n, cmps, e) ==> Settled(SetDefAt(n, parent, cmps, d), cmps, e)
    decreases |cmps|
  {
    var m := Init(n, parent);
    if |cmps| == 0 {
      PushCascade(m, parent, d, []);
      InsertHolds(m.forest, d, e);
    } else {
      SetDefAtSettles(ChildOr(m, cmps[0]), Some(m), cmps[1..], d, e);
    }
  }

  lemma {:induction false} SetDefsKeepsHeld(t: Node, defs: seq<Def>, scope: string, activeDir: Option<string>, e: Def)
    requires HeldAt(t, scope, activeDir, e)
    ensures HeldAt(SetDefs(t, defs, scope, activeDir), scope, activeDir, e)
    decreases |defs|
  {
    if |defs| > 0 {
      var cmps := ScopeCmps(scope, activeDir).value;
      SetDefAtSettles(t, None, cmps, defs[0], e);
      SetDefsKeepsHeld(SetDef(t, defs[0], scope, activeDir), defs[1..], scope, activeDir, e);
    }
  }

  /**
   * After `setDefs(defs, scope)` on a scope that resolves, the tree holds
   * every one of `defs` at the scope, and still holds there whatever it held
   * before: inserting never takes a definition away.
   */
  lemma {:induction false} SetDefsHolds(t: Node, defs: seq<Def>, scope: string, activeDir: Option<string>)
    requires ScopeCmps(scope, activeDir).Some?
    ensures forall k :: 0 <= k < |defs| ==> HeldAt(SetDefs(t, defs, scope, activeDir), scope, activeDir, defs[k])
    ensures forall e :: HeldAt(t, scope, activeDir, e) ==> HeldAt(SetDefs(t, defs, scope, activeDir), scope, activeDir, e)
    decreases |defs|
  {
    forall e | HeldAt(t, scope, activeDir, e)
      ensures HeldAt(SetDefs(t, defs, scope, activeDir), scope, activeDir, e)
    {
      SetDefsKeepsHeld(t, defs, scope, activeDir, e);
    }
    if |defs| > 0 {
      var cmps := ScopeCmps(scope, activeDir).value;
      var t1 := SetDef(t, defs[0], scope, activeDir);
      SetDefAtSettles(t, None, cmps, defs[0], defs[0]);
      SetDefsKeepsHeld(t1, defs[1..], scope, activeDir, defs[0]);
      SetDefsHolds(t1, defs[1..], scope, activeDir);
      assert forall k :: 1 <= k < |defs| ==> defs[k] == defs[1..][k - 1];
    }
  }

  lemma {:induction false} SetDefsOfHeld(t: Node, defs: seq<Def>, scope: string, activeDir: Option<string>)
    requires forall k :: 0 <= k < |defs| ==> HeldAt(t, scope, activeDir, defs[k])
    ensures SetDefs(t, defs, scope, activeDir) == t
    decreases |defs|
  {
    if |defs| > 0 {
      assert HeldAt(t, scope, activeDir, defs[0]);
      SettledSetDefAt(t, None, ScopeCmps(scope, activeDir).value, defs[0]);
      assert forall k :: 1 <= k < |defs| ==> defs[k] == defs[1..][k - 1];
      SetDefsOfHeld(t, defs[1..], scope, activeDir);
    }
  }

  lemma {:induction false} SetDefsUnresolved(t: Node, defs: seq<Def>, scope: string, activeDir: Option<string>)
    requires ScopeCmps(scope, activeDir).None?
    ensures SetDefs(t, defs, scope, activeDir) == t
    decreases |defs|
  {
    if |defs| > 0 {
      SetDefsUnresolved(t, defs[1..], scope, activeDir);
    }
  }

  /** Inserting the same definitions at the same scope a second time changes nothing. */
  lemma SetDefsTwice(t: Node, defs: seq<Def>, scope: string, activeDir: Option<string>)
    ensures SetDefs(SetDefs(t, defs, scope, activeDir), defs, scope, activeDir) == SetDefs(t, defs, scope, activeDir)
  {
    if ScopeCmps(scope, activeDir).Some? {
      SetDefsHolds(t, defs, scope, activeDir);
      SetDefsOfHeld(SetDefs(t, defs, scope, activeDir), defs, scope, activeDir);
    } else {
      SetDefsUnresolved(t, defs, scope, activeDir);
    }
  }

  /** `clear(scope)` forgets every definition held at the scope: its node is left uninitialised. */
  lemma {:induction false} ClearAtForgets(n: Node, parent: Option<Node>, cmps: seq<string>, d: Def)
    ensures !Settled(ClearAt(n, parent, cmps), cmps, d)
    decreases |cmps|
  {
    if |cmps| > 0 {
      var m := Init(n, parent);
      ClearAtForgets(ChildOr(m, cmps[0]), Some(m), cmps[1..], d);
    }
  }

  /**
   * After `clear(scope)` the scope's node is a fresh one, with an empty
   * forest and key set and no children, so it holds no definition.
   */
  lemma ClearForgets(t: Node, scope: string, activeDir: Option<string>, d: Def)
    requires ScopeCmps(scope, activeDir).Some?
    ensures NodeAt(Clear(t, scope, activeDir), ScopeCmps(scope, activeDir).value) == Some(Fresh)
    ensures !HeldAt(Clear(t, scope, activeDir), scope, activeDir, d)
  {
    ClearAtResets(t, None, ScopeCmps(scope, activeDir).value, []);
    ClearAtForgets(t, None, ScopeCmps(scope, activeDir).value, d);
  }
}

=== FILE: searcher.dfy ===
/**
 * The searcher (src/core/types.ts, class DefSearcher): scans one line left
 * to right against a forest and reports each match as a `PhraseInfo`.
 */
module Searcher {
  import opened Types
  import opened Text
  import opened DefForest

  /**
   * `find` from position `i`: on a match, report it and jump past the key;
   * on a miss, advance one character.
   *
   * The source loops forever when `match` returns a definition with an empty
   * key, which happens exactly when something is stored under the empty key;
   * the precondition excludes that case.
   */
  function FindFrom(f: Forest, line: string, offset: int, i: nat): (r: seq<PhraseInfo>)
    requires Valid(f, "") && f.terminal.None?
    ensures forall k :: 0 <= k < |r| ==>
              && offset + i <= r[k].from < offset + |line|
              && r[k].to == r[k].from + |r[k].key|
              && |r[k].key| >= 1
    ensures forall k :: 0 <= k < |r| ==> ReportsMatch(f, line, offset, r[k])
    ensures forall j, k :: 0 <= j < k < |r| ==> r[j].to <= r[k].from
    decreases if i <= |line| then |line| - i else 0
  {
    if i >= |line| then []
    else
      var m := Match(f, line, i);
      if m.Some? then
        MatchKeyNonEmpty(f, line, i);
        var head := PhraseInfo(m.value.key, offset + i, offset + i + |m.value.key|);
        var rest := FindFrom(f, line, offset, i + |m.value.key|);
        assert ReportsMatch(f, line, offset, head);
        ConsSpans(f, line, offset, i, head, rest);
        [head] + rest
      else
        FindFrom(f, line, offset, i + 1)
  }

  /** A reported span followed by the spans reported after it has the properties `FindFrom` promises. */
  lemma ConsSpans(f: Forest, line: string, offset: int, i: nat, head: PhraseInfo, rest: seq<PhraseInfo>)
    requires head.from == offset + i < offset + |line| && head.to == head.from + |head.key| && |head.key| >= 1
    requires ReportsMatch(f, line, offset, head)
    requires forall k :: 0 <= k < |rest| ==>
               && head.to <= rest[k].from < offset + |line|
               && rest[k].to == rest[k].from + |rest[k].key|
               && |rest[k].key| >= 1
    requires forall k :: 0 <= k < |rest| ==> ReportsMatch(f, line, offset, rest[k])
    requires forall j, k :: 0 <= j < k < |rest| ==> rest[j].to <= rest[k].from
    ensures var r := [head] + rest;
      && (forall k :: 0 <= k < |r| ==>
            && offset + i <= r[k].from < offset + |line|
            && r[k].to == r[k].from + |r[k].key|
            && |r[k].key| >= 1)
      && (forall k :: 0 <= k < |r| ==> ReportsMatch(f, line, offset, r[k]))
      && (forall j, k :: 0 <= j < k < |r| ==> r[j].to <= r[k].from)
  {
    var r := [head] + rest;
    assert forall k :: 1 <= k < |r| ==> r[k] == rest[k - 1];
  }

  /**
   * With no stored key holding a line feed, every span `find` reports from
   * position `i` ends inside the line as well: the key `match` returns is the
   * text it walked. A key with a line feed is stored under the text before
   * it, so its span can run past the end of the line.
   */
  lemma FindFromWithinLine(f: Forest, line: string, offset: int, i: nat)
    requires Valid(f, "") && f.terminal.None? && KeysLineFree(f)
    ensures forall k :: 0 <= k < |FindFrom(f, line, offset, i)| ==>
              offset + i <= FindFrom(f, line, offset, i)[k].from < FindFrom(f, line, offset, i)[k].to <= offset + |line|
  {
    var r := FindFrom(f, line, offset, i);
    forall k | 0 <= k < |r|
      ensures offset + i <= r[k].from < r[k].to <= offset + |line|
    {
      assert ReportsMatch(f, line, offset, r[k]);
      MatchKeyFits(f, line, r[k].from - offset);
    }
  }

  /** `p` is what `match` returns at its start position. */
  predicate ReportsMatch(f: Forest, line: string, offset: int, p: PhraseInfo) {
    p.from - offset >= 0
    && Match(f, line, p.from - offset).Some?
    && Match(f, line, p.from - offset).value.key == p.key
  }

  /** `find(line, offset)`; an absent offset is 0. */
  function Find(f: Forest, line: string, offset: int): (r: seq<PhraseInfo>)
    requires Valid(f, "") && f.terminal.None?
    ensures forall k :: 0 <= k < |r| ==> offset <= r[k].from < r[k].to && r[k].to == r[k].from + |r[k].key|
    ensures forall j, k :: 0 <= j < k < |r| ==> r[j].to <= r[k].from
  {
    FindFrom(f, line, offset, 0)
  }

  /** Some reported span contains position `x`. */
  predicate Covered(r: seq<PhraseInfo>, x: int) {
    exists k :: 0 <= k < |r| && r[k].from <= x < r[k].to
  }

  /**
   * `find` misses nothing it examined: every position at or after `i` that no
   * reported span covers is a position where `match` finds nothing.
   */
  lemma {:induction false} FindMissesOnlyUnmatched(f: Forest, line: string, offset: int, i: nat, j: nat)
    requires Valid(f, "") && f.terminal.None?
    requires i <= j < |line|
    requires !Covered(FindFrom(f, line, offset, i), offset + j)
    ensures Match(f, line, j).None?
    decreases j - i
  {
    var m := Match(f, line, i);
    if m.Some? {
      var n := |m.value.key|;
      assert n >= 1 by {
        MatchKeyNonEmpty(f, line, i);
      }
      var head := PhraseInfo(m.value.key, offset + i, offset + i + n);
      var rest := FindFrom(f, line, offset, i + n);
      assert FindFrom(f, line, offset, i) == [head] + rest;
      assert !(i <= j < i + n) && !Covered(rest, offset + j) by {
        UncoveredCons(head, rest, offset + j);
      }
      FindMissesOnlyUnmatched(f, line, offset, i + n, j);
    } else if j > i {
      FindMissesOnlyUnmatched(f, line, offset, i + 1, j);
    }
  }

  lemma UncoveredCons(head: PhraseInfo, rest: seq<PhraseInfo>, x: int)
    requires !Covered([head] + rest, x)
    ensures !(head.from <= x < head.to) && !Covered(rest, x)
  {
    var r := [head] + rest;
    assert r[0] == head;
    forall k | 0 <= k < |rest|
      ensures !(rest[k].from <= x < rest[k].to)
    {
      assert r[k + 1] == rest[k];
    }
  }
}

=== FILE: sorting.dfy ===
/**
 * A stable sort by an integer key, the behaviour of `Array.prototype.sort`
 * with a key-difference comparator and of lodash's `orderBy`.
 */
module Sorting {

  predicate SortedBy<T>(s: seq<T>, key: T -> int) {
    forall i, j :: 0 <= i < j < |s| ==> key(s[i]) <= key(s[j])
  }

  /** The elements of `s` whose key is `v`, in their order in `s`. */
  function WithKey<T>(s: seq<T>, key: T -> int, v: int): seq<T>
    decreases |s|
  {
    if |s| == 0 then []
    else (if key(s[0]) == v then [s[0]] else []) + WithKey(s[1..], key, v)
  }

  /** Places `x` after the leading elements with a smaller key, so before every element with an equal key. */
  function InsertByKey<T>(x: T, s: seq<T>, key: T -> int): seq<T>
    decreases |s|
  {
    if |s| == 0 || key(x) <= key(s[0]) then [x] + s
    else [s[0]] + InsertByKey(x, s[1..], key)
  }

  /** Insertion sort from the back: each element goes before the equal-key elements that followed it. */
  function SortBy<T>(s: seq<T>, key: T -> int): seq<T>
    decreases |s|
  {
    if |s| == 0 then [] else InsertByKey(s[0], SortBy(s[1..], key), key)
  }

  lemma {:induction false} InsertByKeyPerm<T>(x: T, s: seq<T>, key: T -> int)
    ensures multiset(InsertByKey(x, s, key)) == multiset([x] + s)
    decreases |s|
  {
    if |s| > 0 && key(x) > key(s[0]) {
      InsertByKeyPerm(x, s[1..], key);
      assert [x] + s == [x] + [s[0]] + s[1..];
    }
  }

  /** Every element of the result satisfies `p` when `x` and every element of `s` do. */
  lemma {:induction false} InsertByKeyAll<T>(x: T, s: seq<T>, key: T -> int, p: T -> bool)
    requires p(x) && forall k :: 0 <= k < |s| ==> p(s[k])
    ensures |InsertByKey(x, s, key)| == |s| + 1
    ensures forall k :: 0 <= k < |InsertByKey(x, s, key)| ==> p(InsertByKey(x, s, key)[k])
    decreases |s|
  {
    if |s| > 0 && key(x) > key(s[0]) {
      InsertByKeyAll(x, s[1..], key, p);
      var r := InsertByKey(x, s, key);
      var rest := InsertByKey(x, s[1..], key);
      assert forall k :: 1 <= k < |r| ==> r[k] == rest[k - 1];
    } else {
      var r := [x] + s;
      assert forall k :: 1 <= k < |r| ==> r[k] == s[k - 1];
    }
  }

  lemma {:induction false} InsertByKeySorted<T>(x: T, s: seq<T>, key: T -> int)
    requires SortedBy(s, key)
    ensures SortedBy(InsertByKey(x, s, key), key)
    decreases |s|
  {
    if |s| > 0 && key(x) > key(s[0]) {
      var rest := InsertByKey(x, s[1..], key);
      InsertByKeySorted(x, s[1..], key);
      var lo := key(s[0]);
      InsertByKeyAll(x, s[1..], key, y => lo <= key(y));
      var r := [s[0]] + rest;
      forall i, j | 0 <= i < j < |r|
        ensures key(r[i]) <= key(r[j])
      {
        assert r[j] == rest[j - 1];
        if i > 0 {
          assert r[i] == rest[i - 1];
        }
      }
    }
  }

  lemma {:induction false} InsertByKeyStable<T>(x: T, s: seq<T>, key: T -> int, v: int)
    ensures WithKey(InsertByKey(x, s, key), key, v) == WithKey([x] + s, key, v)
    decreases |s|
  {
    if |s| > 0 && key(x) > key(s[0]) {
      var rest := InsertByKey(x, s[1..], key);
      InsertByKeyStable(x, s[1..], key, v);
      var r := [s[0]] + rest;
      assert r[1..] == rest;
      assert ([x] + s)[1..] == s;
      assert ([x] + s[1..])[1..] == s[1..];
      assert WithKey(s, key, v) == (if key(s[0]) == v then [s[0]] else []) + WithKey(s[1..], key, v);
    }
  }

  /**
   * The sort is a stable sort: its result is ordered by key, is a
   * permutation of the input, and keeps the input order among equal keys.
   * (Ordered by key plus the per-key order fixes the result completely.)
   */
  lemma {:induction false} SortBySpec<T>(s: seq<T>, key: T -> int)
    ensures SortedBy(SortBy(s, key), key)
    ensures multiset(SortBy(s, key)) == multiset(s)
    ensures forall v :: WithKey(SortBy(s, key), key, v) == WithKey(s, key, v)
    decreases |s|
  {
    if |s| > 0 {
      SortBySpec(s[1..], key);
      InsertByKeySorted(s[0], SortBy(s[1..], key), key);
      InsertByKeyPerm(s[0], SortBy(s[1..], key), key);
      assert s == [s[0]] + s[1..];
      forall v
        ensures WithKey(SortBy(s, key), key, v) == WithKey(s, key, v)
      {
        var t := SortBy(s[1..], key);
        InsertByKeyStable(s[0], t, key, v);
        assert ([s[0]] + t)[1..] == t;
        assert WithKey([s[0]] + t, key, v) == (if key(s[0]) == v then [s[0]] else []) + WithKey(t, key, v);
      }
    }
  }

  /** Every element of the sorted sequence satisfies `p` when every element of the input does. */
  lemma {:induction false} SortByAll<T>(s: seq<T>, key: T -> int, p: T -> bool)
    requires forall k :: 0 <= k < |s| ==> p(s[k])
    ensures |SortBy(s, key)| == |s|
    ensures forall k :: 0 <= k < |SortBy(s, key)| ==> p(SortBy(s, key)[k])
    decreases |s|
  {
    if |s| > 0 {
      assert forall k :: 0 <= k < |s[1..]| ==> s[1..][k] == s[k + 1];
      SortByAll(s[1..], key, p);
      InsertByKeyAll(s[0], SortBy(s[1..], key), key, p);
    }
  }

  /** Ordered by `key1`, and among equal `key1` by `key2`. */
  predicate LexSortedBy<T>(s: seq<T>, key1: T -> int, key2: T -> int) {
    forall i, j :: 0 <= i < j < |s| ==>
      key1(s[i]) < key1(s[j]) || (key1(s[i]) == key1(s[j]) && key2(s[i]) <= key2(s[j]))
  }

  lemma {:induction false} InsertByKeyLex<T>(x: T, s: seq<T>, key1: T -> int, key2: T -> int)
    requires LexSortedBy(s, key1, key2)
    requires forall k :: 0 <= k < |s| ==> key2(x) <= key2(s[k])
    ensures LexSortedBy(InsertByKey(x, s, key1), key1, key2)
    decreases |s|
  {
    if |s| == 0 || key1(x) <= key1(s[0]) {
      var r := [x] + s;
      forall i, j | 0 <= i < j < |r|
        ensures key1(r[i]) < key1(r[j]) || (key1(r[i]) == key1(r[j]) && key2(r[i]) <= key2(r[j]))
      {
        if i == 0 {
          assert r[j] == s[j - 1];
          if j > 1 {
            assert key1(s[0]) <= key1(s[j - 1]);
          }
        } else {
          assert r[i] == s[i - 1] && r[j] == s[j - 1];
        }
      }
    } else {
      var rest := InsertByKey(x, s[1..], key1);
      InsertByKeyLex(x, s[1..], key1, key2);
      var y0 := s[0];
      InsertByKeyAll(x, s[1..], key1, y => key1(y0) < key1(y) || (key1(y0) == key1(y) && key2(y0) <= key2(y)));
      var r := [s[0]] + rest;
      forall i, j | 0 <= i < j < |r|
        ensures key1(r[i]) < key1(r[j]) || (key1(r[i]) == key1(r[j]) && key2(r[i]) <= key2(r[j]))
      {
        assert r[j] == rest[j - 1];
        if i > 0 {
          assert r[i] == rest[i - 1];
        }
      }
    }
  }

  /**
   * Sorting a sequence already ordered by `key2` stably by `key1` orders it by
   * `key1` first and `key2` second: the effect of the two consecutive sorts
   * in the decorators.
   */
  lemma SortTwiceIsLex<T>(s: seq<T>, key1: T -> int, key2: T -> int)
    requires SortedBy(s, key2)
    ensures LexSortedBy(SortBy(s, key1), key1, key2)
    ensures multiset(SortBy(s, key1)) == multiset(s)
  {
    SortBySpec(s, key1);
    SortTwiceLex(s, key1, key2);
  }

  lemma {:induction false} SortTwiceLex<T>(s: seq<T>, key1: T -> int, key2: T -> int)
    requires SortedBy(s, key2)
    ensures LexSortedBy(SortBy(s, key1), key1, key2)
    decreases |s|
  {
    if |s| > 0 {
      var t := SortBy(s[1..], key1);
      SortedTail(s, key2);
      SortTwiceLex(s[1..], key1, key2);
      var lo := key2(s[0]);
      SortByAll(s[1..], key1, y => lo <= key2(y));
      InsertByKeyLex(s[0], t, key1, key2);
    }
  }

  /** The tail of a sorted sequence is sorted and lies above its head. */
  lemma SortedTail<T>(s: seq<T>, key: T -> int)
    requires |s| > 0 && SortedBy(s, key)
    ensures SortedBy(s[1..], key)
    ensures forall k :: 0 <= k < |s[1..]| ==> key(s[0]) <= key(s[1..][k])
  {
    assert forall k :: 0 <= k < |s[1..]| ==> s[1..][k] == s[k + 1];
  }
}

=== FILE: text.dfy ===
/**
 * String utilities the plugin takes from JavaScript and Node: whitespace
 * trimming, lower-casing, `startsWith`/`endsWith`, `split`/`join`,
 * `slice` with its clamping rules, and `path.dirname`.
 *
 * Strings are sequences of `char`. Lower-casing is the ASCII mapping;
 * Unicode case mappings (some of which change the length) are not modelled.
 */
module Text {

  /** The characters JavaScript's `trim`, `trimEnd` and the regex class `\s` treat as white space. */
  predicate IsWhite(c: char) {
    || c == ' ' || c == '\t' || c == '\n' || c == '\r' || c == '\U{000B}' || c == '\U{000C}'
    || c == '\U{00A0}' || c == '\U{1680}' || ('\U{2000}' <= c <= '\U{200A}')
    || c == '\U{2028}' || c == '\U{2029}' || c == '\U{202F}' || c == '\U{205F}'
    || c == '\U{3000}' || c == '\U{FEFF}'
  }

  /** A line that contains no non-white character (the negation of `/\S/.test(line)`). */
  predicate IsBlank(s: string) {
    forall i :: 0 <= i < |s| ==> IsWhite(s[i])
  }

  /** `toLowerCase` on one character, restricted to ASCII. */
  function Lower(c: char): char {
    if 'A' <= c <= 'Z' then (c as int + 32) as char else c
  }

  /** `toLowerCase` on a string: a length-preserving per-character map. */
  function LowerStr(s: string): (r: string)
    ensures |r| == |s|
    ensures forall i :: 0 <= i < |s| ==> r[i] == Lower(s[i])
  {
    seq(|s|, i requires 0 <= i < |s| => Lower(s[i]))
  }

  /** Lower-casing keeps white space and non-white characters apart, so trimmed text stays trimmed. */
  lemma LowerKeepsTrimmed(s: string)
    requires IsTrimmed(s)
    ensures IsTrimmed(LowerStr(s))
  {
  }

  /** Lower-casing twice is lower-casing once. */
  lemma LowerStrTwice(s: string)
    ensures LowerStr(LowerStr(s)) == LowerStr(s)
  {
  }

  lemma LowerStrAppend(a: string, b: string)
    ensures LowerStr(a + b) == LowerStr(a) + LowerStr(b)
  {
  }

  function StartsWith(s: string, prefix: string): bool {
    |prefix| <= |s| && s[..|prefix|] == prefix
  }

  function EndsWith(s: string, suffix: string): bool {
    |suffix| <= |s| && s[|s| - |suffix|..] == suffix
  }

  /** `trimEnd`: the longest prefix that does not end in white space. */
  function TrimEnd(s: string): (r: string)
    ensures r <= s
    ensures forall i :: |r| <= i < |s| ==> IsWhite(s[i])
    ensures |r| > 0 ==> !IsWhite(r[|r| - 1])
    decreases |s|
  {
    if |s| > 0 && IsWhite(s[|s| - 1]) then TrimEnd(s[..|s| - 1]) else s
  }

  /** Dropping white space from the start: the longest suffix that does not begin with white space. */
  function TrimStart(s: string): (r: string)
    ensures |r| <= |s|
    ensures forall i :: 0 <= i < |s| - |r| ==> IsWhite(s[i])
    ensures |r| > 0 ==> !IsWhite(r[0])
    decreases |s|
  {
    if |s| > 0 && IsWhite(s[0]) then TrimStart(s[1..]) else s
  }

  /** What `TrimStart` keeps is a suffix of its argument. */
  lemma {:induction false} TrimStartSuffix(s: string)
    ensures TrimStart(s) == s[|s| - |TrimStart(s)|..]
    decreases |s|
  {
    if |s| > 0 && IsWhite(s[0]) {
      TrimStartSuffix(s[1..]);
    }
  }

  /** `trim`. */
  function Trim(s: string): string {
    TrimStart(TrimEnd(s))
  }

  /** A string that `trim` leaves unchanged. */
  predicate IsTrimmed(s: string) {
    |s| == 0 || (!IsWhite(s[0]) && !IsWhite(s[|s| - 1]))
  }

  lemma TrimEndOfTrimmed(s: string)
    requires |s| == 0 || !IsWhite(s[|s| - 1])
    ensures TrimEnd(s) == s
  {
  }

  lemma TrimStartOfTrimmed(s: string)
    requires |s| == 0 || !IsWhite(s[0])
    ensures TrimStart(s) == s
  {
  }

  /** `trim` fixes exactly the trimmed strings, and its results are trimmed. */
  lemma TrimFixesTrimmed(s: string)
    ensures IsTrimmed(Trim(s))
    ensures IsTrimmed(s) ==> Trim(s) == s
  {
    var e := TrimEnd(s);
    var r := TrimStart(e);
    TrimStartSuffix(e);
    if |r| > 0 {
      assert r[|r| - 1] == e[|e| - 1];
    }
  }

  /** `trim` is idempotent. */
  lemma TrimIdempotent(s: string)
    ensures Trim(Trim(s)) == Trim(s)
  {
    TrimFixesTrimmed(s);
    TrimFixesTrimmed(Trim(s));
  }

  /** White space added at either end does not change the result of `trim`. */
  lemma TrimIgnoresWhiteEnds(pre: string, s: string, post: string)
    requires IsBlank(pre) && IsBlank(post)
    ensures Trim(pre + s + post) == Trim(s)
  {
    TrimEndDropsWhite(pre + s, post);
    assert pre + s + post == (pre + s) + post;
    var e := TrimEnd(s);
    TrimEndPrefix(pre, s);
    TrimStartDropsWhite(pre, e);
  }

  lemma TrimDropsWhiteSuffix(s: string, post: string)
    requires IsBlank(post)
    ensures Trim(s + post) == Trim(s)
  {
    TrimEndDropsWhite(s, post);
  }

  lemma TrimDropsWhitePrefix(pre: string, s: string)
    requires IsBlank(pre)
    ensures Trim(pre + s) == Trim(s)
  {
    TrimIgnoresWhiteEnds(pre, s, []);
    assert pre + s + [] == pre + s;
  }

  lemma {:induction false} TrimEndDropsWhite(s: string, post: string)
    requires IsBlank(post)
    ensures TrimEnd(s + post) == TrimEnd(s)
    decreases |post|
  {
    if |post| > 0 {
      var p' := post[..|post| - 1];
      assert (s + post)[..|s + post| - 1] == s + p';
      TrimEndDropsWhite(s, p');
    } else {
      assert s + post == s;
    }
  }

  lemma {:induction false} TrimEndPrefix(pre: string, s: string)
    requires IsBlank(pre)
    ensures TrimEnd(pre + s) == pre + TrimEnd(s) || (TrimEnd(s) == [] && IsBlank(TrimEnd(pre + s)))
    ensures TrimStart(TrimEnd(pre + s)) == TrimStart(pre + TrimEnd(s))
    decreases |s|
  {
    if |s| > 0 && IsWhite(s[|s| - 1]) {
      var s' := s[..|s| - 1];
      assert (pre + s)[..|pre + s| - 1] == pre + s';
      TrimEndPrefix(pre, s');
    } else if |s| == 0 {
      assert pre + s == pre;
      var e := TrimEnd(pre);
      assert IsBlank(e);
      TrimStartBlank(e);
      TrimStartBlank(pre);
    } else {
      assert (pre + s)[|pre + s| - 1] == s[|s| - 1];
    }
  }

  lemma TrimStartBlank(s: string)
    requires IsBlank(s)
    ensures TrimStart(s) == []
  {
  }

  lemma {:induction false} TrimStartDropsWhite(pre: string, s: string)
    requires IsBlank(pre)
    ensures TrimStart(pre + s) == TrimStart(s)
    decreases |pre|
  {
    if |pre| > 0 {
      assert (pre + s)[1..] == pre[1..] + s;
      TrimStartDropsWhite(pre[1..], s);
    } else {
      assert pre + s == s;
    }
  }

  /**
   * `split` on every character satisfying `isSep`, as JavaScript's
   * `String.prototype.split` does with a one-character pattern: always at
   * least one piece, empty pieces kept.
   */
  function SplitBy(s: string, isSep: char -> bool): (r: seq<string>)
    ensures |r| >= 1
    decreases |s|
  {
    if |s| == 0 then [""]
    else
      var rest := SplitBy(s[1..], isSep);
      if isSep(s[0]) then [""] + rest
      else [[s[0]] + rest[0]] + rest[1..]
  }

  /** The number of characters of `s` satisfying `p`. */
  function CountWhere(s: string, p: char -> bool): nat
    decreases |s|
  {
    if |s| == 0 then 0 else (if p(s[0]) then 1 else 0) + CountWhere(s[1..], p)
  }

  /** `split` yields one piece more than there are separators, and no piece holds a separator. */
  lemma {:induction false} SplitByCount(s: string, isSep: char -> bool)
    ensures |SplitBy(s, isSep)| == 1 + CountWhere(s, isSep)
    ensures forall k, j :: 0 <= k < |SplitBy(s, isSep)| && 0 <= j < |SplitBy(s, isSep)[k]| ==>
              !isSep(SplitBy(s, isSep)[k][j])
    decreases |s|
  {
    if |s| > 0 {
      SplitByCount(s[1..], isSep);
    }
  }

  /** Splitting text made of a separator-free piece, a separator and a tail. */
  lemma {:induction false} SplitByConcat(a: string, c: char, b: string, isSep: char -> bool)
    requires isSep(c)
    requires forall i :: 0 <= i < |a| ==> !isSep(a[i])
    ensures SplitBy(a + [c] + b, isSep) == [a] + SplitBy(b, isSep)
    decreases |a|
  {
    if |a| == 0 {
      assert a + [c] + b == [c] + b;
      assert ([c] + b)[1..] == b;
    } else {
      var t := a + [c] + b;
      assert t[1..] == a[1..] + [c] + b;
      SplitByConcat(a[1..], c, b, isSep);
      assert [a[0]] + a[1..] == a;
    }
  }

  /** A separator-free string is a single piece. */
  lemma {:induction false} SplitByNoSep(a: string, isSep: char -> bool)
    requires forall i :: 0 <= i < |a| ==> !isSep(a[i])
    ensures SplitBy(a, isSep) == [a]
    decreases |a|
  {
    if |a| > 0 {
      SplitByNoSep(a[1..], isSep);
      assert [a[0]] + a[1..] == a;
    }
  }

  function Join(pieces: seq<string>, sep: string): string
    decreases |pieces|
  {
    if |pieces| == 0 then ""
    else if |pieces| == 1 then pieces[0]
    else pieces[0] + sep + Join(pieces[1..], sep)
  }

  /** Splitting on a single character and joining with it again gives back the string. */
  lemma {:induction false} JoinSplit(s: string, isSep: char -> bool, c: char)
    requires forall x :: isSep(x) <==> x == c
    ensures Join(SplitBy(s, isSep), [c]) == s
    decreases |s|
  {
    if |s| > 0 {
      var rest := SplitBy(s[1..], isSep);
      JoinSplit(s[1..], isSep, c);
      if isSep(s[0]) {
        assert s == [c] + s[1..];
      } else if |rest| == 1 {
        assert s == [s[0]] + s[1..];
      } else {
        var r := [[s[0]] + rest[0]] + rest[1..];
        assert r[1..] == rest[1..];
        assert s == [s[0]] + s[1..];
      }
    }
  }

  /** Joining separator-free pieces with a separator and splitting again gives back the pieces. */
  lemma {:induction false} SplitJoin(pieces: seq<string>, isSep: char -> bool, c: char)
    requires |pieces| >= 1 && isSep(c)
    requires forall k, i :: 0 <= k < |pieces| && 0 <= i < |pieces[k]| ==> !isSep(pieces[k][i])
    ensures SplitBy(Join(pieces, [c]), isSep) == pieces
    decreases |pieces|
  {
    if |pieces| == 1 {
      SplitByNoSep(pieces[0], isSep);
    } else {
      SplitJoin(pieces[1..], isSep, c);
      SplitByConcat(pieces[0], c, Join(pieces[1..], [c]), isSep);
      assert pieces == [pieces[0]] + pieces[1..];
    }
  }

  /** Joining lines with `"\n"`. */
  function JoinLines(lines: seq<string>): string {
    Join(lines, "\n")
  }

  predicate IsNewline(c: char) {
    c == '\n'
  }

  /** Removes one carriage return at the end of a piece. */
  function DropCR(s: string): string {
    if |s| > 0 && s[|s| - 1] == '\r' then s[..|s| - 1] else s
  }

  function StripCRs(pieces: seq<string>): (r: seq<string>)
    ensures |r| == |pieces|
    decreases |pieces|
  {
    if |pieces| <= 1 then pieces else [DropCR(pieces[0])] + StripCRs(pieces[1..])
  }

  /**
   * `split(/\r?\n/)`: split on each line feed, dropping one carriage return
   * that immediately precedes it. A carriage return at the very end stays.
   */
  function SplitLines(s: string): (r: seq<string>)
    ensures |r| >= 1
  {
    StripCRs(SplitBy(s, IsNewline))
  }

  /** Splitting `a + "\n" + b` into lines yields `a`'s line followed by the lines of `b`. */
  lemma SplitLinesCons(a: string, b: string)
    requires '\n' !in a
    ensures SplitLines(a + "\n" + b) == [DropCR(a)] + SplitLines(b)
  {
    SplitByConcat(a, '\n', b, IsNewline);
  }

  /** Text without a line feed is one line. */
  lemma SplitLinesSingle(a: string)
    requires '\n' !in a
    ensures SplitLines(a) == [a]
  {
    SplitByNoSep(a, IsNewline);
  }

  /** Joining two non-empty lists of pieces is joining each and putting the separator between. */
  lemma {:induction false} JoinAppend(xs: seq<string>, ys: seq<string>, sep: string)
    requires |xs| >= 1 && |ys| >= 1
    ensures Join(xs + ys, sep) == Join(xs, sep) + sep + Join(ys, sep)
    decreases |xs|
  {
    if |xs| > 1 {
      JoinAppend(xs[1..], ys, sep);
      assert (xs + ys)[1..] == xs[1..] + ys;
    } else {
      assert (xs + ys)[1..] == ys;
    }
  }

  /** Every character of a join comes from a piece or from the separator. */
  lemma {:induction false} JoinKeeps(pieces: seq<string>, sep: string, p: char -> bool)
    requires forall k, i :: 0 <= k < |pieces| && 0 <= i < |pieces[k]| ==> p(pieces[k][i])
    requires forall i :: 0 <= i < |sep| ==> p(sep[i])
    ensures forall i :: 0 <= i < |Join(pieces, sep)| ==> p(Join(pieces, sep)[i])
    decreases |pieces|
  {
    if |pieces| > 1 {
      JoinKeeps(pieces[1..], sep, p);
      var j := Join(pieces, sep);
      var rest := Join(pieces[1..], sep);
      forall i | 0 <= i < |j|
        ensures p(j[i])
      {
        if i < |pieces[0]| {
          assert j[i] == pieces[0][i];
        } else if i < |pieces[0]| + |sep| {
          assert j[i] == sep[i - |pieces[0]|];
        } else {
          assert j[i] == rest[i - |pieces[0]| - |sep|];
        }
      }
    }
  }

  /** Splitting joined lines followed by a line break and more text gives those lines, then the lines of the text. */
  lemma {:induction false} SplitLinesAppend(lines: seq<string>, rest: string)
    requires |lines| >= 1
    requires forall k :: 0 <= k < |lines| ==> '\n' !in lines[k] && DropCR(lines[k]) == lines[k]
    ensures SplitLines(JoinLines(lines) + "\n" + rest) == lines + SplitLines(rest)
    decreases |lines|
  {
    if |lines| == 1 {
      SplitLinesCons(lines[0], rest);
    } else {
      SplitLinesAppend(lines[1..], rest);
      assert JoinLines(lines) + "\n" + rest == lines[0] + "\n" + (JoinLines(lines[1..]) + "\n" + rest);
      SplitLinesCons(lines[0], JoinLines(lines[1..]) + "\n" + rest);
      assert lines == [lines[0]] + lines[1..];
    }
  }

  /** Lines without line feeds and without a carriage return before a line break survive joining and splitting. */
  lemma {:induction false} SplitLinesJoin(lines: seq<string>)
    requires |lines| >= 1
    requires forall k :: 0 <= k < |lines| ==> '\n' !in lines[k]
    requires forall k :: 0 <= k < |lines| - 1 ==> DropCR(lines[k]) == lines[k]
    ensures SplitLines(JoinLines(lines)) == lines
    decreases |lines|
  {
    if |lines| == 1 {
      SplitLinesSingle(lines[0]);
    } else {
      SplitLinesJoin(lines[1..]);
      SplitLinesCons(lines[0], JoinLines(lines[1..]));
      assert lines == [lines[0]] + lines[1..];
    }
  }

  /** No line ends in a carriage return, so joining with `"\n"` and splitting again keeps each line. */
  predicate NoLineEndsInCR(lines: seq<string>) {
    forall k :: 0 <= k < |lines| ==> DropCR(lines[k]) == lines[k]
  }

  /** Each line `split(/\r?\n/)` yields is a prefix of the corresponding piece of the split on line feeds. */
  lemma {:induction false} StripCRsPrefix(pieces: seq<string>, k: nat)
    requires k < |pieces|
    ensures StripCRs(pieces)[k] <= pieces[k]
    decreases |pieces|
  {
    if |pieces| > 1 && k > 0 {
      StripCRsPrefix(pieces[1..], k - 1);
    }
  }

  /** No line of a split text holds a line feed. */
  lemma SplitLinesNoNewline(s: string)
    ensures forall k :: 0 <= k < |SplitLines(s)| ==> '\n' !in SplitLines(s)[k]
  {
    var pieces := SplitBy(s, IsNewline);
    SplitByCount(s, IsNewline);
    forall k | 0 <= k < |SplitLines(s)|
      ensures '\n' !in SplitLines(s)[k]
    {
      StripCRsPrefix(pieces, k);
      var p := SplitLines(s)[k];
      forall j | 0 <= j < |p|
        ensures p[j] != '\n'
      {
        assert p[j] == pieces[k][j];
        assert !IsNewline(pieces[k][j]);
      }
    }
  }

  lemma JoinLinesSplit(s: string)
    requires '\r' !in s
    ensures JoinLines(SplitLines(s)) == s
    ensures forall k :: 0 <= k < |SplitLines(s)| ==> '\n' !in SplitLines(s)[k] && '\r' !in SplitLines(s)[k]
  {
    NoCRPieces(SplitBy(s, IsNewline), s);
    JoinSplit(s, IsNewline, '\n');
    SplitByCount(s, IsNewline);
    forall k | 0 <= k < |SplitLines(s)|
      ensures '\n' !in SplitLines(s)[k]
    {
      var p := SplitLines(s)[k];
      forall j | 0 <= j < |p|
        ensures p[j] != '\n'
      {
        assert !IsNewline(SplitBy(s, IsNewline)[k][j]);
      }
    }
  }

  /** The pieces of a split of text without carriage returns hold none, so dropping them changes nothing. */
  lemma {:induction false} NoCRPieces(pieces: seq<string>, s: string)
    requires pieces == SplitBy(s, IsNewline)
    requires '\r' !in s
    ensures StripCRs(pieces) == pieces
    ensures forall k :: 0 <= k < |pieces| ==> '\r' !in pieces[k]
    decreases |s|
  {
    if |s| > 0 {
      var rest := SplitBy(s[1..], IsNewline);
      NoCRPieces(rest, s[1..]);
      assert forall k :: 1 <= k < |pieces| ==> pieces[k] in rest;
      assert pieces[1..] == rest[1..] || pieces[1..] == rest;
      assert '\r' !in pieces[0];
      if |pieces| > 1 {
        assert StripCRs(pieces[1..]) == pieces[1..] by {
          if pieces[1..] == rest {
          } else {
            StripCRsTail(rest);
          }
        }
      }
    }
  }

  lemma StripCRsTail(pieces: seq<string>)
    requires |pieces| >= 1
    requires StripCRs(pieces) == pieces
    ensures StripCRs(pieces[1..]) == pieces[1..]
  {
    if |pieces| >= 2 {
      assert StripCRs(pieces)[1..] == StripCRs(pieces[1..]);
    }
  }

  /** The head and tail of a concatenation whose first part is not empty. */
  lemma ConsAppend<T>(a: seq<T>, b: seq<T>)
    requires |a| > 0
    ensures (a + b)[0] == a[0] && (a + b)[1..] == a[1..] + b
  {
  }

  /** Regrouping a concatenation of three parts. */
  lemma Regroup<T>(whole: seq<T>, x: seq<T>, rest: seq<T>, y: seq<T>, z: seq<T>, first: seq<T>)
    requires whole == x + rest && rest == y + z && first == x + y
    ensures whole == first + z
  {
  }

  /**
   * JavaScript's `slice(start, end)` on a sequence: negative positions count
   * from the end, positions are clamped to the bounds, and a start at or past
   * the end gives the empty sequence.
   */
  function Slice<T>(s: seq<T>, start: int, end: int): (r: seq<T>)
    ensures 0 <= start <= end <= |s| ==> r == s[start..end]
    ensures |r| <= |s|
  {
    var lo := Clamp(|s|, start);
    var hi := Clamp(|s|, end);
    if lo >= hi then [] else s[lo..hi]
  }

  function Clamp(n: nat, x: int): (r: nat)
    ensures r <= n
  {
    if x < 0 then (if n + x < 0 then 0 else n + x) else if x > n then n else x
  }

  /**
   * Node's `path.posix.dirname`: the path up to (not including) the last
   * slash that is followed by a non-slash character; `"."` when there is no
   * such slash, `"/"` for a rooted path without one.
   */
  function Dirname(p: string): string {
    if |p| == 0 then "."
    else
      var hasRoot := p[0] == '/';
      var end := LastDirSlash(p, |p| - 1, true);
      if end == -1 then (if hasRoot then "/" else ".")
      else if hasRoot && end == 1 then "//"
      else p[..end]
  }

  /** Scans positions `i` down to 1, skipping trailing slashes, for the slash that ends the directory part. */
  function LastDirSlash(p: string, i: int, matchedSlash: bool): (r: int)
    requires i < |p|
    ensures r == -1 || 1 <= r <= i
    decreases i
  {
    if i < 1 then -1
    else if p[i] == '/' then (if !matchedSlash then i else LastDirSlash(p, i - 1, matchedSlash))
    else LastDirSlash(p, i - 1, false)
  }

  lemma {:induction false} LastDirSlashOfName(p: string, d: nat, i: int, matchedSlash: bool)
    requires 1 <= d < i < |p| && p[d] == '/'
    requires forall k :: d < k <= i ==> p[k] != '/'
    ensures LastDirSlash(p, i, matchedSlash) == d
    decreases i
  {
    if i - 1 > d {
      LastDirSlashOfName(p, d, i - 1, false);
    }
  }

  lemma {:induction false} LastDirSlashNone(p: string, i: int, matchedSlash: bool)
    requires i < |p|
    requires forall k :: 1 <= k <= i ==> p[k] != '/'
    ensures LastDirSlash(p, i, matchedSlash) == -1
    decreases i
  {
    if i >= 1 {
      LastDirSlashNone(p, i - 1, false);
    }
  }

  /** For a vault-relative path `dir/name`, `dirname` gives `dir`; for a bare name it gives `"."`. */
  lemma DirnameOfRelative(dir: string, name: string)
    requires |name| > 0 && '/' !in name
    requires |dir| > 0 ==> dir[0] != '/'
    ensures |dir| > 0 ==> Dirname(dir + "/" + name) == dir
    ensures Dirname(name) == "."
  {
    LastDirSlashNone(name, |name| - 1, true);
    if |dir| > 0 {
      var p := dir + "/" + name;
      LastDirSlashOfName(p, |dir|, |p| - 1, true);
      assert p[..|dir|] == dir;
    }
  }

  /** Concatenation is associative; a hint for sequences built up from the front. */
  lemma AppendAssoc<T>(x: seq<T>, y: seq<T>, z: seq<T>)
    ensures x + y + z == x + (y + z)
  {
  }
}

=== FILE: types.dfy ===
/**
 * The records shared by every component (types/global.d.ts).
 */
module Types {

  datatype Option<+T> = None | Some(value: T)

  /**
   * A file of the vault as the host describes it: its vault-relative path,
   * its base name, and the path of its parent folder. The parent path is a
   * separate field because the host reports it independently of `dirname`:
   * for a file at the vault root it is `"/"`, while `dirname` gives `"."`.
   */
  datatype VaultFile = VaultFile(path: string, name: string, parentPath: string)

  /** The first and last line of a definition block in its glossary file. */
  datatype Position = Position(from: int, to: int)

  /**
   * One glossary entry, or one copy of it per alias. `key` is the lower-cased
   * lookup string; `file` is the glossary file the entry came from.
   */
  datatype Def = Def(
    key: string,
    word: string,
    aliases: seq<string>,
    contents: string,
    file: VaultFile,
    linkText: string,
    position: Option<Position>)

  /** A match of a key in scanned text: the half-open character range `[from, to)`. */
  datatype PhraseInfo = PhraseInfo(key: string, from: int, to: int)
}
